=== FILE: README.md ===
# Clinic dashboard core, modelled in Dafny

This project models the core of a multi-tenant clinic dashboard: a Flask
backend where each clinic is a tenant with its own users, leads, calls,
WhatsApp conversations and appointments. The model covers:

- **Authentication.** The user model's password storage and failed-login
  lockout (five failures lock an account for thirty minutes). The login
  decision procedure with its super-admin bypass, clinic lookup,
  subscription check, password check and lock check. Token refresh,
  logout, `me`, `verify-token` and password change.
- **Authorization.** The role-tier guards (super admin, clinic admin,
  agent) and the same-clinic guard that confines a tenant user to its own
  clinic.
- **Clinics.** Slug derivation, the subscription-active predicate, the
  WhatsApp credential update and the sensitive and non-sensitive views.
- **Domain records.** The appointment lifecycle and confirmation
  responses. WhatsApp conversations (tags as an ordered list without repeats, unread counting, read
  marking, get-or-create) and messages. Lead callability, single and bulk
  lead creation. Call duration formatting, creation and status updates.

One Dafny module per source file:

| module | file |
|---|---|
| `Common` | shared helpers: `Option`/`Result`, first-match lookup, `strip`, `lower`, appending an entry to free-text notes |
| `Passwords` | werkzeug's hash/verify pair, abstracted |
| `Tokens` | JWT access/refresh tokens and the `@jwt_required` check |
| `Users` | `backend_flask_app/src/models/user.py` |
| `Clinics` | `frontend_flask_app/src/models/clinic.py` |
| `Auth` | `backend_flask_app/src/routes/auth.py` |
| `Guards` | `backend_flask_app/src/decorators.py` |
| `Appointments` | `backend_flask_app/src/models/appointment.py` |
| `WhatsApp` | `backend_flask_app/src/models/whatsapp.py` |
| `Leads` | `frontend_flask_app/src/models/lead.py` |
| `Calls` | `backend_flask_app/src/models/call.py` |

How the pieces are represented:

- **Changed in place.** Objects the source updates in place are classes
  (`User`, `Clinic`, `Appointment`, `AppointmentConfirmation`,
  `Conversation`, `Message`, `Lead`, `Call`). Each exposes a value
  snapshot `Rec()`. Each method states its new snapshot as a function of
  the old one.
- **Tables.** These are classes holding a sequence of objects in
  insertion order (`Directory`, `Inbox`, `LeadBook`, `CallLog`,
  `ConfirmationLog`). `query.filter_by(...).first()` is the first match
  in that order.
- **Route handlers.** Request-to-response functions over the tables'
  records. `Auth.Login` and `Auth.ChangePassword` are also given as
  methods on the user objects, and are proved equal to those functions.
- **Clock and randomness.** The clock is an integer `now` in seconds.
  Random values (uuids, token `jti`s, password salts) and the formatted
  timestamp of lead notes are parameters.

## Model

| member | source | states |
|---|---|---|
| Passwords.Verify | backend_flask_app/src/models/user.py:47-49 | definition of `check_password`: a digest verifies exactly the password it was made from; its properties are stated by `Hash` and `PasswordSet` |
| Passwords.Hash | backend_flask_app/src/models/user.py:42-49 | the digest stored for a password verifies that password |
| Users.IsLocked | backend_flask_app/src/models/user.py:51-55 | definition of `is_locked`: a lock is set and lies after now; its behaviour under failures is stated by the lockout lemmas below |
| Users.RecordFailure | backend_flask_app/src/models/user.py:57-62 | the counter rises by exactly one; the lock is set to now + 30 min iff the new count is at least 5, otherwise left as it was |
| Users.FailuresBelowThreshold | backend_flask_app/src/models/user.py:57-62 | a run of failures that stays below 5 only counts; the lock is untouched |
| Users.FailuresReachingThreshold | backend_flask_app/src/models/user.py:57-62 | a run of failures that reaches 5 leaves the account locked until 30 minutes after the last failure of the run |
| Users.FifthFailureLocks | backend_flask_app/src/models/user.py:51-62 | from a clean account, after the fifth failure at t the account is locked exactly for now < t + 30 min |
| Users.FourFailuresDoNotLock | backend_flask_app/src/models/user.py:51-62 | four failures from a clean account leave it unlocked with a count of 4 |
| Users.LaterFailureExtendsLock | backend_flask_app/src/models/user.py:51-62 | each failure at or beyond the threshold moves the lock expiry to 30 minutes after it, so a later failure never ends the lock earlier than an earlier one |
| Users.SuccessRestartsCount | backend_flask_app/src/models/user.py:57-69 | failures below the threshold leave the lock as it was; after `reset_failed_login` four more failures leave a count of 4 and the account unlocked |
| Users.HasPermission | backend_flask_app/src/models/user.py:71-75 | definition of `has_permission`; characterised by `PermissionsByRole` |
| Users.HasRole | backend_flask_app/src/models/user.py:77-79 | definition of `has_role`: equality of the role string; the three guards state their role tests through it |
| Users.CanAccessClinic | backend_flask_app/src/models/user.py:81-85 | definition of `can_access_clinic` over `str()` of both ids; characterised by `ClinicAccessIsIdEquality` and `NullClinicMatchesNoneString` |
| Users.PermissionsByRole | backend_flask_app/src/models/user.py:71-75 | a super admin has every permission; others have exactly the listed ones, a null list granting none |
| Users.ClinicAccessIsIdEquality | backend_flask_app/src/models/user.py:81-85 | for users other than super admins, clinic access is equality of clinic ids (a null id reaching only a null target), barring the literal id "None" |
| Users.NullClinicMatchesNoneString | backend_flask_app/src/models/user.py:81-85 | `str(None)` comparison: a user without a clinic passes the check for the clinic id "None" |
| Users.LoginSucceeded | backend_flask_app/src/models/user.py:64-69 | after `reset_failed_login` the count is 0, the account is unlocked at every time, the last login is now, and nothing else changes |
| Users.LoginFailed | backend_flask_app/src/models/user.py:57-62 | `increment_failed_login` changes only the lockout fields, adding one failure |
| Users.PasswordSet | backend_flask_app/src/models/user.py:42-49 | after `set_password(p)`, p and only p verifies, `password_changed_at` is now, nothing else changes |
| Users.User.constructor | backend_flask_app/src/models/user.py:20-40 | a new user has its password hashed, is active, unlocked, with zero failures and permissions defaulting to [] |
| Users.User.SetPassword | backend_flask_app/src/models/user.py:42-45 | updates the hash and change time as `PasswordSet` says; `check_password` of the new password holds |
| Users.User.IncrementFailedLogin | backend_flask_app/src/models/user.py:57-62 | updates the user as `LoginFailed` says |
| Users.User.ResetFailedLogin | backend_flask_app/src/models/user.py:64-69 | updates the user as `LoginSucceeded` says |
| Users.NewNameKeepsNamesUnique | backend_flask_app/src/models/user.py:114-136 | adding a user whose name is new to its clinic keeps usernames unique per clinic |
| Users.NewSuperAdminKeepsNamesUnique | backend_flask_app/src/models/user.py:139-155 | adding a super admin with a new super-admin name keeps those names unique |
| Users.NewUser | backend_flask_app/src/models/user.py:20-40 | a created user verifies its password, is active and unlocked, and keeps given permissions (default []) |
| Users.FindUsername | backend_flask_app/src/models/user.py:117 | finds a user of that clinic with that username iff one exists |
| Users.FindEmail | backend_flask_app/src/models/user.py:122 | finds a user of that clinic with that email iff one exists |
| Users.FindSuperAdminName | backend_flask_app/src/models/user.py:141 | finds a super admin with that username iff one exists |
| Users.CreateUserSpec | backend_flask_app/src/models/user.py:114-136 | duplicate username in the clinic is refused first, then duplicate email in the clinic; success iff neither exists, so the same name in another clinic is accepted |
| Users.CreateSuperAdminSpec | backend_flask_app/src/models/user.py:139-155 | refused iff a super admin of that name exists; the new user has no clinic and role super_admin |
| Users.CreationKeepsNamesUnique | backend_flask_app/src/models/user.py:114-155 | successful creations preserve per-clinic username uniqueness and super-admin name uniqueness |
| Users.Directory.CreateUser | backend_flask_app/src/models/user.py:114-136 | the table is unchanged with the spec's error, or grows by exactly the one new user the spec describes |
| Users.Directory.CreateSuperAdmin | backend_flask_app/src/models/user.py:139-155 | the table is unchanged on a duplicate name, or grows by exactly the new super admin |
| Tokens.CreateAccessToken | backend_flask_app/src/routes/auth.py:34-41 | definition: an access token for the identity with the given claims, valid for 900 s from now; `AccessTokenLifetime` states its acceptance window |
| Tokens.CreateRefreshToken | backend_flask_app/src/routes/auth.py:42 | definition: a refresh token for the identity without claims, valid for 604800 s from now |
| Tokens.Authenticate | backend_flask_app/src/routes/auth.py:114-115 | `@jwt_required`: a token passes iff present, already valid (issue time not in the future), unexpired, of the required kind and not revoked; every rejection is a 401, a token not yet valid or of the wrong kind getting "Invalid token" |
| Tokens.AccessTokenLifetime | backend_flask_app/src/routes/auth.py:85-92 | an access token is accepted from issue until 900 seconds later, and rejected as expired after |
| Tokens.TokenKindsNotInterchangeable | backend_flask_app/src/routes/auth.py:114-115 | no token passes both as an access token and as a refresh token |
| Clinics.IsSubscriptionActive | frontend_flask_app/src/models/clinic.py:104-112 | definition of `is_subscription_active`; characterised by `SubscriptionWindow` |
| Clinics.SubscriptionWindow | frontend_flask_app/src/models/clinic.py:104-112 | inactive unless status is 'active'; with 'active', active iff no expiry or the expiry is not before now |
| Clinics.Slugify | frontend_flask_app/src/models/clinic.py:45 | the slug has the name's length; each ' ' and '_' becomes '-', each ASCII capital becomes its lower-case letter (code point + 32), and every other character is kept, so the slug has no spaces, underscores or capitals |
| Clinics.SlugifyIdempotent | frontend_flask_app/src/models/clinic.py:45 | a slug is its own slug |
| Clinics.InitialSlug | frontend_flask_app/src/models/clinic.py:42-45 | a given non-empty slug is kept; otherwise a non-empty name is slugified |
| Clinics.ToDict | frontend_flask_app/src/models/clinic.py:47-76 | the sensitive view holds the four WhatsApp credentials; the other holds only `whatsapp_configured`, true iff phone number id and access token are non-empty |
| Clinics.WithWhatsAppConfig | frontend_flask_app/src/models/clinic.py:90-99 | each credential is replaced iff its argument is not None |
| Clinics.WhatsAppConfigUpdateIdempotent | frontend_flask_app/src/models/clinic.py:90-99 | an update with no arguments changes no credential; repeating an update changes nothing more |
| Clinics.Clinic.constructor | frontend_flask_app/src/models/clinic.py:42-45 | a new clinic carries the slug `InitialSlug` derives |
| Clinics.Clinic.UpdateWhatsAppConfig | frontend_flask_app/src/models/clinic.py:90-102 | only the credentials and `updated_at` change, as `WithWhatsAppConfig` says |
| Auth.FindSuperAdmin | backend_flask_app/src/routes/auth.py:28 | finds a super admin with that username, active or not, iff one exists |
| Auth.FindTenantUser | backend_flask_app/src/routes/auth.py:69-73 | finds an active user of that clinic with that username iff one exists |
| Auth.FindUserById | backend_flask_app/src/routes/auth.py:120 | finds the user with that id iff one exists |
| Auth.FindActiveClinicByName | backend_flask_app/src/routes/auth.py:60 | finds an active clinic with exactly that name iff one exists |
| Auth.FindClinicById | backend_flask_app/src/routes/auth.py:128 | finds the clinic with that id iff one exists |
| Auth.LookupsIgnoreLoginFields | backend_flask_app/src/routes/auth.py:69-82 | changing a user's lockout and last-login fields moves no login lookup |
| Auth.ParseLogin | backend_flask_app/src/routes/auth.py:13-23 | 400 iff the body is absent or empty, or the stripped clinic name, stripped username or password is empty |
| Auth.SuperAdminLogin | backend_flask_app/src/routes/auth.py:26-57 | definition of the super-admin branch of login; stated by `SuperAdminLoginHasNoClinic`, `SuperAdminFailureFallsThrough` and `SuperAdminEffect` |
| Auth.TenantLogin | backend_flask_app/src/routes/auth.py:58-109 | definition of the tenant branch of login; stated by `TenantChecksPrecedeUserLookup`, `InvalidCredentialsIndistinguishable`, `LockCheckedOnlyAfterPassword` and `TenantEffect` |
| Auth.LoginWith | backend_flask_app/src/routes/auth.py:25-109 | definition: the super-admin branch when it is tried and succeeds, otherwise the tenant branch |
| Auth.LoginSpec | backend_flask_app/src/routes/auth.py:10-112 | definition of POST /login on records: parse, then `LoginWith`; stated by `LoginEffect`, `LockTakesEffectAtThreshold` and `LoginThenVerifyToken` |
| Auth.LoginSuccess | backend_flask_app/src/routes/auth.py:84-109 | the 200 body: the user after its lockout is cleared, the clinic's non-sensitive view, an access token with identity = user id and claims {clinic_id, role, permissions or []}, and a refresh token |
| Auth.SuperAdminAttempt | backend_flask_app/src/routes/auth.py:27-57 | the super-admin branch on the user objects gives the response and user table the value-level branch gives |
| Auth.TenantAttempt | backend_flask_app/src/routes/auth.py:59-109 | the tenant path on the user objects gives the response and user table the value-level path gives |
| Auth.Login | backend_flask_app/src/routes/auth.py:10-112 | POST /login on the user objects answers and updates exactly as `LoginSpec` |
| Auth.SuperAdminLoginHasNoClinic | backend_flask_app/src/routes/auth.py:27-57 | a super admin with the right password gets 423 with no change when locked, else 200 with a null clinic and null clinic claim and its lockout reset |
| Auth.SuperAdminFailureFallsThrough | backend_flask_app/src/routes/auth.py:27-60 | an unknown super admin or a wrong password in the bypass yields exactly the tenant path's outcome; no failure is counted there |
| Auth.TenantChecksPrecedeUserLookup | backend_flask_app/src/routes/auth.py:59-66 | no active clinic of that name gives 404, a lapsed subscription 403, both before any user lookup and with no user changed |
| Auth.InvalidCredentialsIndistinguishable | backend_flask_app/src/routes/auth.py:69-79 | an unknown or inactive user and a wrong password get the same 401; only a found user gets a failure counted |
| Auth.LockCheckedOnlyAfterPassword | backend_flask_app/src/routes/auth.py:75-82 | a locked user with the right password gets 423 and no change; with a wrong password 401 and one more failure |
| Auth.LockTakesEffectAtThreshold | backend_flask_app/src/routes/auth.py:75-82 | the fifth wrong password is answered 401, and the right password within 30 minutes after it 423 |
| Auth.SuperAdminEffect | backend_flask_app/src/routes/auth.py:27-57 | the bypass answers 200 or 423; 423 changes nothing, 200 changes one user by a successful login |
| Auth.TenantEffect | backend_flask_app/src/routes/auth.py:59-109 | the tenant path answers 200, 401, 403, 404 or 423; 200 resets one user, 401 counts one failure or changes nothing, the rest change nothing |
| Auth.LoginEffect | backend_flask_app/src/routes/auth.py:10-109 | POST /login answers one of 200, 400, 401, 403, 404, 423; at most one user changes, and a 200 carries the tokens of that user |
| Auth.Refresh | backend_flask_app/src/routes/auth.py:114-146 | 404 iff the user is missing or inactive; 403 iff its non-empty clinic id names a missing, inactive or lapsed clinic; otherwise 200 with a new access token issued now, with the given jti, expiring 900 s later and carrying the user's id and claims (no new refresh token), the user's view, and the clinic's view, which is null exactly for a user without a clinic |
| Auth.RefreshRevalidatesClinic | backend_flask_app/src/routes/auth.py:127-130 | deactivating a user's clinic or letting its subscription lapse turns refresh into 403 |
| Auth.Logout | backend_flask_app/src/routes/auth.py:151-173 | logout answers 200 to an authenticated request and leaves the revoked set unchanged |
| Auth.LogoutDoesNotRevoke | backend_flask_app/src/routes/auth.py:157-160 | after logout the same access token is still accepted until it expires |
| Auth.Me | backend_flask_app/src/routes/auth.py:175-197 | a rejected token gets its 401; 404 iff the token's user is missing; 200 carries that user's view and the view of the clinic it names, null exactly when it has none or that clinic does not exist, with no check that the clinic is active |
| Auth.VerifyToken | backend_flask_app/src/routes/auth.py:245-262 | an accepted access token is echoed with its identity and claims; a rejected one gets 401, an unexpired refresh token "Invalid token" |
| Auth.LoginThenVerifyToken | backend_flask_app/src/routes/auth.py:84-109 | within its lifetime, the access token of a successful login is echoed by verify-token with exactly the claims the login put in |
| Auth.SuccessTokenVerifies | backend_flask_app/src/routes/auth.py:245-259 | the access token of a successful login verifies with the user id and its claims |
| Auth.ChangePasswordSpec | backend_flask_app/src/routes/auth.py:199-243 | every non-200 leaves the users unchanged; a rejected token gets 401; 404 iff the user is missing; 500 without a body; otherwise 200 iff the current password is given and verifies and the new one has at least 8 characters, and a 200 sets it |
| Auth.ChangePasswordOutcomes | backend_flask_app/src/routes/auth.py:214-225 | the 400s come in order (missing fields, wrong current password, short new password); a request passing all three gets 200 with `PasswordSet` applied to that user only; after a change only the new password verifies |
| Auth.ChangePassword | backend_flask_app/src/routes/auth.py:199-243 | on the user objects, answers and updates exactly as `ChangePasswordSpec` |
| Guards.SuperAdminRequired | backend_flask_app/src/decorators.py:6-20 | proceeds with unchanged arguments iff the user exists and `has_role('super_admin')`, else 403 |
| Guards.ClinicAdminRequired | backend_flask_app/src/decorators.py:22-36 | proceeds iff the user exists and has the super admin or clinic admin role, else 403 |
| Guards.AgentRequired | backend_flask_app/src/decorators.py:38-52 | proceeds iff the user exists and has the super admin, clinic admin or agent role, else 403 |
| Guards.GuardsNested | backend_flask_app/src/decorators.py:6-52 | passing a stricter guard implies passing every laxer one; failing a laxer one implies failing the stricter ones |
| Guards.UnknownRolesPassNoGuard | backend_flask_app/src/decorators.py:6-52 | a missing user or any other role string (such as 'admin') passes no guard |
| Guards.SameClinicRequired | backend_flask_app/src/decorators.py:54-81 | 404 iff the user is missing; refusals are 403 or 404; only the clinic_id argument can differ when it proceeds |
| Guards.SameClinicIsolatesTenants | backend_flask_app/src/decorators.py:71-80 | for users other than super admins: it proceeds only with their own clinic id, filled in when absent, and refuses with 403 iff another clinic is named |
| Guards.SameClinicAdmitsSuperAdmin | backend_flask_app/src/decorators.py:68-69 | a super admin proceeds with its arguments untouched |
| Common.Strip | backend_flask_app/src/routes/auth.py:18-19 | `str.strip()`: empty iff the text is all whitespace, otherwise it starts and ends with a non-whitespace character |
| Common.StripIsSlice | backend_flask_app/src/routes/auth.py:18-19 | the stripped text is a slice of the original with only whitespace before and after it |
| Common.Lower | backend_flask_app/src/routes/auth.py:27 | same length; each ASCII capital becomes its lower-case letter (code point + 32), every other character is kept |
| Common.NotesWithEntry | backend_flask_app/src/models/appointment.py:128-132 | a non-empty entry is set as the notes or appended after a blank line, old notes surviving as a prefix; an empty entry changes nothing |
| Appointments.IsUpcoming | backend_flask_app/src/models/appointment.py:91-93 | definition of `is_upcoming`: date after now, status scheduled or confirmed |
| Appointments.IsOverdue | backend_flask_app/src/models/appointment.py:95-97 | definition of `is_overdue`: date before now, status scheduled or confirmed; both characterised by `UpcomingAndOverdueExclusive` and `ConfirmationReactivates` |
| Appointments.UpcomingAndOverdueExclusive | backend_flask_app/src/models/appointment.py:91-97 | never both upcoming and overdue, neither at the appointment's own date, neither once rescheduled, cancelled, completed or no-show |
| Appointments.Confirmed | backend_flask_app/src/models/appointment.py:99-108 | status and confirmation status confirmed, method and time recorded, notes replaced only when given, `updated_at` now; every other field unchanged |
| Appointments.Rescheduled | backend_flask_app/src/models/appointment.py:119-134 | new date, rescheduled/pending, count + 1, original date set only the first time, notes extended by `NotesWithEntry` with the label "Rescheduled: " (unchanged without a reason); nothing else but `updated_at` changes |
| Appointments.NoShow | backend_flask_app/src/models/appointment.py:136-140 | only the status (no_show) and `updated_at` change |
| Appointments.Completed | backend_flask_app/src/models/appointment.py:142-151 | status completed, notes extended by `NotesWithEntry` with the label "Completed: " (unchanged without notes); nothing else but `updated_at` changes |
| Appointments.Reminded | backend_flask_app/src/models/appointment.py:153-157 | only `reminder_sent_at` and `updated_at` change |
| Appointments.ConfirmationReactivates | backend_flask_app/src/models/appointment.py:91-127 | a confirmed appointment is upcoming until its date and overdue after; a rescheduled one is neither |
| Appointments.Cancelled | backend_flask_app/src/models/appointment.py:110-117 | status cancelled, confirmation declined, cancelled at now; the reason is the given one when non-empty, else "Cancelled by " + who cancelled; nothing else but `updated_at` changes |
| Appointments.CancellationAlwaysExplained | backend_flask_app/src/models/appointment.py:110-117 | cancelled/declined at now, with a non-empty reason: the given one, or "Cancelled by " followed by who cancelled when none is given |
| Appointments.RescheduleKeepsFirstDate | backend_flask_app/src/models/appointment.py:119-127 | after any run of reschedules the original date is the one before the first, the count grew by the run's length, the date is the last given |
| Appointments.Appointment.constructor | backend_flask_app/src/models/appointment.py:17-31 | a new appointment is scheduled, confirmation pending, never rescheduled, upcoming iff its date lies ahead |
| Appointments.Appointment.Confirm | backend_flask_app/src/models/appointment.py:99-108 | updates the row as `Confirmed` says |
| Appointments.Appointment.Cancel | backend_flask_app/src/models/appointment.py:110-117 | updates the row as `Cancelled` says |
| Appointments.Appointment.Reschedule | backend_flask_app/src/models/appointment.py:119-134 | updates the row as `Rescheduled` says |
| Appointments.Appointment.MarkAsNoShow | backend_flask_app/src/models/appointment.py:136-140 | updates the row as `NoShow` says |
| Appointments.Appointment.MarkAsCompleted | backend_flask_app/src/models/appointment.py:142-151 | updates the row as `Completed` says |
| Appointments.Appointment.SendReminder | backend_flask_app/src/models/appointment.py:153-157 | updates the row as `Reminded` says |
| Appointments.AfterResponse | backend_flask_app/src/models/appointment.py:228-232 | 'confirmed' is exactly `Confirmed` by the confirmation's method without notes; 'cancelled' is exactly `Cancelled` with "Patient cancelled via confirmation" by 'patient'; any other type leaves the appointment alone |
| Appointments.AppointmentConfirmation.constructor | backend_flask_app/src/models/appointment.py:180-190 | a new confirmation is 'sent', linked to its appointment, with no response |
| Appointments.AppointmentConfirmation.RecordResponse | backend_flask_app/src/models/appointment.py:221-234 | records the response and status 'responded', and changes the appointment as `AfterResponse` says |
| Appointments.ConfirmationLog.constructor | backend_flask_app/src/models/appointment.py:177-190 | the confirmation table starts empty |
| Appointments.ConfirmationLog.CreateConfirmation | backend_flask_app/src/models/appointment.py:236-248 | appends exactly one new 'sent' confirmation for the appointment |
| WhatsApp.WithTag | backend_flask_app/src/models/whatsapp.py:79-86 | the tag is present afterwards, nothing else is added, duplicates are never introduced, the old list is a prefix |
| WhatsApp.WithoutTag | backend_flask_app/src/models/whatsapp.py:88-93 | removes one occurrence if present (as multisets), otherwise changes nothing |
| WhatsApp.WithoutTagRemovesFirst | backend_flask_app/src/models/whatsapp.py:88-93 | `list.remove` takes out the first occurrence and keeps everything else in order |
| WhatsApp.RemoveTagKeepsNoDuplicates | backend_flask_app/src/models/whatsapp.py:88-93 | on a duplicate-free list, the tag is gone afterwards and the list stays duplicate-free |
| WhatsApp.AddTagIdempotent | backend_flask_app/src/models/whatsapp.py:79-86 | adding a tag twice is adding it once |
| WhatsApp.AddThenRemoveRestores | backend_flask_app/src/models/whatsapp.py:79-93 | adding an absent tag and removing it restores the original list |
| WhatsApp.AfterMessage | backend_flask_app/src/models/whatsapp.py:228-235 | the conversation's last message time and sender are set; unread grows by 1 iff the sender is the customer; nothing else changes |
| WhatsApp.Conversation.constructor | backend_flask_app/src/models/whatsapp.py:10-25 | a new conversation is active, AI-handled, untagged, with no unread messages |
| WhatsApp.Conversation.AssignToAgent | backend_flask_app/src/models/whatsapp.py:64-71 | sets the agent, clears AI handling, records the handoff time and reason |
| WhatsApp.Conversation.MarkAsResolved | backend_flask_app/src/models/whatsapp.py:73-77 | status 'resolved', nothing else but `updated_at` |
| WhatsApp.Conversation.AddTag | backend_flask_app/src/models/whatsapp.py:79-86 | unchanged if the tag is present; otherwise the tag list becomes `WithTag` and `updated_at` now |
| WhatsApp.Conversation.RemoveTag | backend_flask_app/src/models/whatsapp.py:88-93 | unchanged if the tag is absent; otherwise the tag list becomes `WithoutTag` and `updated_at` now |
| WhatsApp.Conversation.RecordMessage | backend_flask_app/src/models/whatsapp.py:229-235 | updates the conversation as `AfterMessage` says |
| WhatsApp.Conversation.IncrementUnread | backend_flask_app/src/models/whatsapp.py:95-99 | adds exactly 1 to the unread count |
| WhatsApp.ReadAt | backend_flask_app/src/models/whatsapp.py:196-201 | the message is read afterwards; a read message is unchanged; a first read sets only `is_read` and the read time |
| WhatsApp.MarkAsReadIdempotent | backend_flask_app/src/models/whatsapp.py:196-201 | reading a message again changes nothing; the read time is the first one |
| WhatsApp.Message.constructor | backend_flask_app/src/models/whatsapp.py:146-158 | a new message is a sent, unread text message |
| WhatsApp.Message.MarkAsRead | backend_flask_app/src/models/whatsapp.py:196-201 | updates the message as `ReadAt` says |
| WhatsApp.Message.MarkAsDelivered | backend_flask_app/src/models/whatsapp.py:203-207 | status 'delivered' and the delivery time, nothing else |
| WhatsApp.Message.MarkAsFailed | backend_flask_app/src/models/whatsapp.py:209-213 | status 'failed' and the reason, nothing else |
| WhatsApp.FindConversation | backend_flask_app/src/models/whatsapp.py:117-120 | finds a conversation with that clinic and phone number iff one exists |
| WhatsApp.FindConversationById | backend_flask_app/src/models/whatsapp.py:228 | finds the conversation with that id iff one exists |
| WhatsApp.Inbox.constructor | backend_flask_app/src/models/whatsapp.py:7-25 | both tables start empty |
| WhatsApp.Inbox.GetOrCreateConversation | backend_flask_app/src/models/whatsapp.py:115-131 | returns the existing conversation for (clinic, phone) without creating one, or creates exactly one; afterwards the lookup finds the returned one |
| WhatsApp.Inbox.GetOrCreateTwice | backend_flask_app/src/models/whatsapp.py:115-131 | two calls for one clinic and phone return the same conversation and create at most one |
| WhatsApp.Inbox.MarkConversationRead | backend_flask_app/src/models/whatsapp.py:101-112 | unread becomes 0; every message of that conversation is read afterwards, other conversations' messages untouched |
| WhatsApp.Inbox.CreateMessage | backend_flask_app/src/models/whatsapp.py:216-238 | appends one new message sent now and updates its conversation, if found, as `AfterMessage` says |
| Leads.Callable | frontend_flask_app/src/models/lead.py:85-93 | definition of `can_call`: not flagged, fewer attempts than the maximum, status not do_not_call; its behaviour is stated by `NewLeadExhaustedAfterThreeAttempts` and `DoNotCallSurvivesStatusUpdate` |
| Leads.NewLead | frontend_flask_app/src/models/lead.py:15-25 | status 'new' and priority 'medium' unless given, 0 of 3 attempts, not flagged; callable iff its status is not do_not_call |
| Leads.MarkedDoNotCall | frontend_flask_app/src/models/lead.py:95-101 | flag, status and reason set and `updated_at` now, every other field unchanged, so the lead is not callable |
| Leads.StatusUpdated | frontend_flask_app/src/models/lead.py:103-112 | the status is always replaced; with falsy notes the notes are kept; otherwise `stamp + ": " + notes` becomes the notes, or is appended after "\n\n" to truthy old notes; nothing else but `updated_at` changes, so flag and attempts are kept; status do_not_call is never callable |
| Leads.CallAttempted | frontend_flask_app/src/models/lead.py:114-119 | one more attempt, last contact now; an uncallable lead stays uncallable |
| Leads.AssignedTo | frontend_flask_app/src/models/lead.py:121-125 | sets the assignee and `updated_at`, every other field unchanged; callability unchanged |
| Leads.AttemptsAccumulate | frontend_flask_app/src/models/lead.py:114-119 | n attempts add n to the count and change nothing but the last contact time |
| Leads.NewLeadExhaustedAfterThreeAttempts | frontend_flask_app/src/models/lead.py:23-24 | a new lead not created as do_not_call is callable after n attempts iff n < 3 |
| Leads.DoNotCallSurvivesStatusUpdate | frontend_flask_app/src/models/lead.py:85-125 | once marked do-not-call, a later status change or assignment never makes the lead callable |
| Leads.Lead.constructor | frontend_flask_app/src/models/lead.py:15-25 | a new lead's row is `NewLead` |
| Leads.Lead.MarkAsDoNotCall | frontend_flask_app/src/models/lead.py:95-101 | updates the row as `MarkedDoNotCall` says |
| Leads.Lead.UpdateStatus | frontend_flask_app/src/models/lead.py:103-112 | updates the row as `StatusUpdated` says |
| Leads.Lead.IncrementCallAttempt | frontend_flask_app/src/models/lead.py:114-119 | updates the row as `CallAttempted` says |
| Leads.Lead.AssignToUser | frontend_flask_app/src/models/lead.py:121-125 | updates the row as `AssignedTo` says |
| Leads.FindLead | frontend_flask_app/src/models/lead.py:131 | finds a lead of that clinic with that phone number iff one exists |
| Leads.CreateLeadSpec | frontend_flask_app/src/models/lead.py:128-142 | refused with "Lead with this phone number already exists" iff the clinic has a lead with that phone |
| Leads.CreateLeadRejectsSecondCopy | frontend_flask_app/src/models/lead.py:128-142 | after a creation the same (clinic, phone) is refused, while the same phone in another clinic is accepted whenever it was before |
| Leads.LeadBook.CreateLead | frontend_flask_app/src/models/lead.py:128-142 | the table is unchanged with the spec's error, or grows by exactly the new lead; at most one lead per (clinic, phone) |
| Leads.BulkStep | frontend_flask_app/src/models/lead.py:150-158 | an item without a phone number becomes a TypeError entry; otherwise `create_lead`'s outcome, an error carrying the item's phone |
| Leads.Outcomes | frontend_flask_app/src/models/lead.py:150-158 | one outcome per item, in input order |
| Leads.CreatedAndErrorsMembers | frontend_flask_app/src/models/lead.py:147-160 | `created` holds exactly the successful outcomes and `errors` exactly the failures |
| Leads.CreatedPlusErrors | frontend_flask_app/src/models/lead.py:147-160 | \|created\| + \|errors\| equals the number of items |
| Leads.OutcomesPrefix | frontend_flask_app/src/models/lead.py:150-158 | the outcomes of the first k items do not depend on the later ones |
| Leads.OutcomeAt | frontend_flask_app/src/models/lead.py:150-158 | item j is decided against the leads present plus those created for the items before it |
| Leads.BulkPartition | frontend_flask_app/src/models/lead.py:145-160 | every item lands in exactly one list; a created lead carries its item's phone, id and clinic, an error its item's phone |
| Leads.CreatedCarriesItemPhones | frontend_flask_app/src/models/lead.py:150-158 | every lead created before item i belongs to the clinic and has the phone of an earlier item |
| Leads.PhoneTakenByItem | frontend_flask_app/src/models/lead.py:150-158 | after an item with a phone number, the clinic has a lead with that phone |
| Leads.FirstInBatchWins | frontend_flask_app/src/models/lead.py:145-160 | a phone repeated within a batch: every later copy is reported as a duplicate |
| Leads.LeadBook.AddItem | frontend_flask_app/src/models/lead.py:151-158 | one item on the table: unchanged with the step's error, or one new lead appended |
| Leads.LeadBook.BulkCreateLeads | frontend_flask_app/src/models/lead.py:145-160 | the created leads and errors are those `Outcomes` gives, in input order, and the table grows by exactly the created leads |
| Calls.DecimalString | backend_flask_app/src/models/call.py:61 | the text of an integer: digits, with a leading '-' when negative |
| Calls.DigitsRoundTrip | backend_flask_app/src/models/call.py:61 | reading back the digits of n gives n |
| Calls.DecimalRoundTrip | backend_flask_app/src/models/call.py:61 | reading back the text of any integer gives it |
| Calls.TwoDigits | backend_flask_app/src/models/call.py:61 | `:02d` of a number below 100 is two digits that read back as that number |
| Calls.FormatDuration | backend_flask_app/src/models/call.py:54-61 | "0:00" for a null or zero duration; always minutes ':' two digits, the seconds below 60 |
| Calls.FormatDurationRoundTrip | backend_flask_app/src/models/call.py:54-61 | reading the text back as minutes * 60 + seconds gives the duration (0 for null) |
| Calls.StatusApplied | backend_flask_app/src/models/call.py:95-101 | the status is set; completing a call without an end sets end = now and duration = now - start and changes nothing else; otherwise only status and `updated_at` change |
| Calls.AllAssigned | backend_flask_app/src/models/call.py:103-105 | definition of the keyword loop's effect; stated by `AssignedExtends`, `UnknownKeysIgnored` and `Call.AssignAll` |
| Calls.StatusUpdated | backend_flask_app/src/models/call.py:93-107 | definition: `StatusApplied` then `AllAssigned`; stated by `CompletionHappensOnce`, `OtherStatusesOnlySetStatus` and `KeywordsOverrideCompletion` |
| Calls.AssignedExtends | backend_flask_app/src/models/call.py:103-105 | applying keyword arguments one key at a time agrees with applying them all |
| Calls.CompletionHappensOnce | backend_flask_app/src/models/call.py:98-101 | completing twice moves neither the end nor the duration; the first completion sets duration = end - start |
| Calls.OtherStatusesOnlySetStatus | backend_flask_app/src/models/call.py:95-101 | any other status, or an already ended call, only sets status and `updated_at` |
| Calls.KeywordsOverrideCompletion | backend_flask_app/src/models/call.py:98-105 | keyword arguments are applied after the status logic and win over it |
| Calls.UnknownKeysIgnored | backend_flask_app/src/models/call.py:103-105 | a key naming no attribute is ignored |
| Calls.Call.constructor | backend_flask_app/src/models/call.py:78-88 | a new call is initiated at now with duration 0 |
| Calls.Call.SetAttribute | backend_flask_app/src/models/call.py:104-105 | one `setattr`, as the keyword-argument model says |
| Calls.Call.AssignAll | backend_flask_app/src/models/call.py:103-105 | the keyword loop leaves the call as applying all arguments at once |
| Calls.Call.UpdateStatus | backend_flask_app/src/models/call.py:93-107 | the status logic, then the keyword arguments |
| Calls.NewCall | backend_flask_app/src/models/call.py:77-91 | carries the given id, clinic, phone number, call type and direction; initiated, started, created and updated now, not ended, duration 0 (formatted "0:00") |
| Calls.CompletedCallDuration | backend_flask_app/src/models/call.py:77-101 | a call created at start and completed at end lasted end - start seconds |
| Calls.CallLog.CreateCall | backend_flask_app/src/models/call.py:77-91 | appends exactly one new call as `NewCall` describes |

## Left out

- Audit logging (`AuditLog.log_login`, `log_logout`, `log_action`) is left out. It writes rows no modelled decision reads.
- Database commit errors are left out, and so are the `details` text of the 500 answers. Only the 500 for a missing body in change-password is modelled.
- A login body that is JSON but not an object, or not JSON at all, is not modelled. The model treats a missing body and an empty object as the source's 400 "Invalid JSON data".
- JWT signing, signature checks and tampering are left out. A token is the record of its claims.
- werkzeug password hashing is abstracted. Hash collisions are impossible by construction (`Passwords`).
- Common.Lower: lower-cases ASCII letters only, where Python's `str.lower` also folds other Unicode letters.
- `User.to_dict`, `Clinic.to_dict` and the other `to_dict` methods are modelled only for the fields that decide something (lock state, WhatsApp credentials). Timestamps in ISO format are left out.
- Colour lookups (`get_status_color`, `get_priority_color` and the like) are left out. They are display tables.
- `Clinic.get_usage_stats` is left out. It is database aggregation with float percentages.
- `Clinic.create_clinic` is not modelled separately. It is the constructor plus an insert.
- `Appointment.create_appointment` is left out, together with the keyword arguments of `create_confirmation`, `create_message` and `create_call`. These only pass columns through.
- Leads.NewLead: models the keyword arguments name, email, status, priority, source and notes. Other keyword arguments, an explicit None for a non-null column, and a bulk item that carries `clinic_id` or an unknown key (a TypeError in Python) are left out.
- Auth.ParseLogin, Auth.ChangePasswordSpec: every JSON field value is taken to be a string. A `null` or a number for `clinic_name` or `username` makes `strip()` raise before the login handler's `try`, an uncaught 500. A truthy non-string password reaches `check_password` and gives 500 "Login failed", and change-password behaves the same way. Non-string field values are not modelled.
- Leads.StatusUpdated: the `strftime('%Y-%m-%d %H:%M')` timestamp is a parameter (`stamp`), not derived from `now`.
- Calls.Call.UpdateStatus: keyword arguments are modelled for the text attributes, `duration_seconds` and `ended_at`. Keys naming non-null columns, timestamps, relationships or methods are treated as unknown. A value of the wrong kind for its column is ignored rather than stored.
- Times are whole seconds. Sub-second precision in `int((ended_at - started_at).total_seconds())` is not modelled.
- The `tags` column of a conversation is a list; a null list and an empty list are the same in the model.
- WhatsApp.Conversation.AddTag, WhatsApp.Conversation.RemoveTag: the model describes the in-memory tag list and assumes the list changed in place is what gets stored. The column is a plain JSON column without mutation tracking, so an append or remove on an existing list may not be written on commit; the model does not capture that loss.
- The `first_name`, `last_name` and other display-only keyword arguments of `create_user` and `create_super_admin` are left out. No modelled decision reads them.
- `success` flags and other bookkeeping fields of the guards' JSON answers are left out; the model keeps status and message.
- Concurrency between requests (two logins racing on one user row) is left out. Each request runs alone.
- The refresh token's own lifetime and the access token lifetime are the configured constants 604800 s and 900 s.

=== FILE: appointments.dfy ===
/** The appointment lifecycle (backend_flask_app/src/models/appointment.py):
    the upcoming/overdue predicates, the in-place transitions confirm,
    cancel, reschedule, no-show, complete and reminder, and the confirmation
    records whose patient responses drive those transitions. */
module Appointments {
  import opened Common

  const SCHEDULED := "scheduled"
  const CONFIRMED := "confirmed"
  const CANCELLED := "cancelled"
  const RESCHEDULED := "rescheduled"
  const COMPLETED := "completed"
  const NO_SHOW := "no_show"
  const PENDING := "pending"
  const DECLINED := "declined"

  /** The state of one `appointments` row (the columns some operation reads
      or writes). Dates are seconds. */
  datatype AppointmentRec = AppointmentRec(
    id: string,
    clinicId: string,
    patientName: string,
    patientPhone: string,
    appointmentDate: int,
    status: string,
    confirmationStatus: string,
    confirmationMethod: Option<string>,
    confirmedAt: Option<int>,
    cancelledAt: Option<int>,
    cancellationReason: Option<string>,
    rescheduleCount: nat,
    originalAppointmentDate: Option<int>,
    reminderSentAt: Option<int>,
    notes: Option<string>,
    updatedAt: Option<int>)

  /** A freshly stored appointment: the column defaults applied. */
  function NewAppointment(id: string, clinicId: string, patientName: string, patientPhone: string,
                          appointmentDate: int, now: int): AppointmentRec
  {
    AppointmentRec(id, clinicId, patientName, patientPhone, appointmentDate, SCHEDULED, PENDING,
                   None, None, None, None, 0, None, None, None, Some(now))
  }

  /** The two statuses in which an appointment is still expected to happen. */
  predicate Pending(status: string) {
    status in [SCHEDULED, CONFIRMED]
  }

  /** `is_upcoming`. */
  predicate IsUpcoming(a: AppointmentRec, now: int) {
    a.appointmentDate > now && Pending(a.status)
  }

  /** `is_overdue`. */
  predicate IsOverdue(a: AppointmentRec, now: int) {
    a.appointmentDate < now && Pending(a.status)
  }

  /** An appointment is never both upcoming and overdue, is neither at its
      own date, and is neither once rescheduled, cancelled, completed or a
      no-show. */
  lemma UpcomingAndOverdueExclusive(a: AppointmentRec, now: int)
    ensures !(IsUpcoming(a, now) && IsOverdue(a, now))
    ensures a.appointmentDate == now ==> !IsUpcoming(a, now) && !IsOverdue(a, now)
    ensures a.status in {RESCHEDULED, CANCELLED, COMPLETED, NO_SHOW} ==> !IsUpcoming(a, now) && !IsOverdue(a, now)
  {
  }

  // ---------------------------------------------------------------------------
  // Transitions

  /** `confirm_appointment(method, notes)`. */
  function Confirmed(a: AppointmentRec, via: string, notes: Option<string>, now: int): (r: AppointmentRec)
    ensures r.status == CONFIRMED && r.confirmationStatus == CONFIRMED
    ensures r.confirmationMethod == Some(via) && r.confirmedAt == Some(now)
    ensures Truthy(notes) ==> r.notes == notes
    ensures !Truthy(notes) ==> r.notes == a.notes
    ensures r.appointmentDate == a.appointmentDate && r.rescheduleCount == a.rescheduleCount
    ensures r.updatedAt == Some(now)
    ensures r == a.(status := r.status, confirmationStatus := r.confirmationStatus,
                    confirmationMethod := r.confirmationMethod, confirmedAt := r.confirmedAt,
                    notes := r.notes, updatedAt := r.updatedAt)
  {
    a.(status := CONFIRMED, confirmationStatus := CONFIRMED, confirmationMethod := Some(via),
       confirmedAt := Some(now), notes := if Truthy(notes) then notes else a.notes, updatedAt := Some(now))
  }

  /** `cancel_appointment(reason, cancelled_by)`. */
  function Cancelled(a: AppointmentRec, reason: Option<string>, cancelledBy: string, now: int): (r: AppointmentRec)
    ensures r.status == CANCELLED && r.confirmationStatus == DECLINED && r.cancelledAt == Some(now)
    ensures Truthy(reason) ==> r.cancellationReason == reason
    ensures !Truthy(reason) ==> r.cancellationReason == Some("Cancelled by " + cancelledBy)
    ensures r.(status := a.status, confirmationStatus := a.confirmationStatus, cancelledAt := a.cancelledAt,
               cancellationReason := a.cancellationReason, updatedAt := a.updatedAt) == a
  {
    a.(status := CANCELLED, confirmationStatus := DECLINED, cancelledAt := Some(now),
       cancellationReason := Some(if Truthy(reason) then reason.value else "Cancelled by " + cancelledBy),
       updatedAt := Some(now))
  }

  /** `reschedule_appointment(new_date, reason)`. */
  function Rescheduled(a: AppointmentRec, newDate: int, reason: Option<string>, now: int): (r: AppointmentRec)
    ensures r.appointmentDate == newDate && r.status == RESCHEDULED && r.confirmationStatus == PENDING
    ensures r.rescheduleCount == a.rescheduleCount + 1
    ensures a.originalAppointmentDate.Some? ==> r.originalAppointmentDate == a.originalAppointmentDate
    ensures a.originalAppointmentDate.None? ==> r.originalAppointmentDate == Some(a.appointmentDate)
    ensures Truthy(a.notes) ==> r.notes.Some? && a.notes.value <= r.notes.value
    ensures Truthy(reason) ==> Truthy(r.notes)
    ensures !Truthy(reason) ==> r.notes == a.notes
    ensures r.notes == NotesWithEntry(a.notes, "Rescheduled: ", reason)
    ensures r.(originalAppointmentDate := a.originalAppointmentDate, appointmentDate := a.appointmentDate,
               status := a.status, confirmationStatus := a.confirmationStatus,
               rescheduleCount := a.rescheduleCount, notes := a.notes, updatedAt := a.updatedAt) == a
  {
    a.(originalAppointmentDate := if a.originalAppointmentDate.None? then Some(a.appointmentDate)
                                  else a.originalAppointmentDate,
       appointmentDate := newDate, status := RESCHEDULED, confirmationStatus := PENDING,
       rescheduleCount := a.rescheduleCount + 1,
       notes := NotesWithEntry(a.notes, "Rescheduled: ", reason),
       updatedAt := Some(now))
  }

  /** `mark_as_no_show`. */
  function NoShow(a: AppointmentRec, now: int): (r: AppointmentRec)
    ensures r.status == NO_SHOW && r.updatedAt == Some(now)
    ensures r.(status := a.status, updatedAt := a.updatedAt) == a
  {
    a.(status := NO_SHOW, updatedAt := Some(now))
  }

  /** `mark_as_completed(notes)`. */
  function Completed(a: AppointmentRec, notes: Option<string>, now: int): (r: AppointmentRec)
    ensures r.status == COMPLETED
    ensures Truthy(a.notes) ==> r.notes.Some? && a.notes.value <= r.notes.value
    ensures Truthy(notes) ==> Truthy(r.notes)
    ensures !Truthy(notes) ==> r.notes == a.notes
    ensures r.notes == NotesWithEntry(a.notes, "Completed: ", notes)
    ensures r.(status := a.status, notes := a.notes, updatedAt := a.updatedAt) == a
  {
    a.(status := COMPLETED,
       notes := NotesWithEntry(a.notes, "Completed: ", notes),
       updatedAt := Some(now))
  }

  /** `send_reminder`. */
  function Reminded(a: AppointmentRec, now: int): (r: AppointmentRec)
    ensures r.reminderSentAt == Some(now) && r.updatedAt == Some(now)
    ensures r.(reminderSentAt := a.reminderSentAt, updatedAt := a.updatedAt) == a
  {
    a.(reminderSentAt := Some(now), updatedAt := Some(now))
  }

  /** A confirmed appointment is upcoming exactly until its date and overdue
      after it; a rescheduled one is neither until it is confirmed again. */
  lemma ConfirmationReactivates(a: AppointmentRec, via: string, notes: Option<string>, newDate: int,
                                reason: Option<string>, now: int, t: int)
    ensures IsUpcoming(Confirmed(a, via, notes, now), t) <==> a.appointmentDate > t
    ensures IsOverdue(Confirmed(a, via, notes, now), t) <==> a.appointmentDate < t
    ensures !IsUpcoming(Rescheduled(a, newDate, reason, now), t) && !IsOverdue(Rescheduled(a, newDate, reason, now), t)
  {
  }

  /** `cancel_appointment`: a cancellation always records a non-empty reason: the
      given one when it is non-empty, otherwise who cancelled. */
  lemma CancellationAlwaysExplained(a: AppointmentRec, reason: Option<string>, cancelledBy: string, now: int)
    ensures var r := Cancelled(a, reason, cancelledBy, now);
            && Truthy(r.cancellationReason)
            && (Truthy(reason) ==> r.cancellationReason == reason)
            && (!Truthy(reason) ==> r.cancellationReason == Some("Cancelled by " + cancelledBy))
            && r.status == CANCELLED && r.confirmationStatus == DECLINED && r.cancelledAt == Some(now)
  {
  }

  /** A run of reschedules without reasons, one per new date. */
  function RescheduledAll(a: AppointmentRec, dates: seq<int>, now: int): AppointmentRec
    decreases |dates|
  {
    if dates == [] then a else RescheduledAll(Rescheduled(a, dates[0], None, now), dates[1..], now)
  }

  /** `reschedule_appointment`, repeated: however many times an appointment is rescheduled, the
      original date is the one it had before the first reschedule; the count
      grows by one per reschedule and the date is the last one given. */
  lemma {:induction false} RescheduleKeepsFirstDate(a: AppointmentRec, dates: seq<int>, now: int)
    requires dates != []
    ensures var r := RescheduledAll(a, dates, now);
            && r.originalAppointmentDate
               == (if a.originalAppointmentDate.Some? then a.originalAppointmentDate else Some(a.appointmentDate))
            && r.rescheduleCount == a.rescheduleCount + |dates|
            && r.appointmentDate == dates[|dates| - 1]
            && r.status == RESCHEDULED && r.confirmationStatus == PENDING
            && r.notes == a.notes
    decreases |dates|
  {
    if |dates| > 1 {
      RescheduleKeepsFirstDate(Rescheduled(a, dates[0], None, now), dates[1..], now);
    }
  }

  // ---------------------------------------------------------------------------
  // The Appointment object

  /** An `appointments` row loaded as an object. */
  class Appointment {
    const id: string
    const clinicId: string
    const patientName: string
    const patientPhone: string
    var appointmentDate: int
    var status: string
    var confirmationStatus: string
    var confirmationMethod: Option<string>
    var confirmedAt: Option<int>
    var cancelledAt: Option<int>
    var cancellationReason: Option<string>
    var rescheduleCount: nat
    var originalAppointmentDate: Option<int>
    var reminderSentAt: Option<int>
    var notes: Option<string>
    var updatedAt: Option<int>

    function Rec(): AppointmentRec
      reads this
    {
      AppointmentRec(id, clinicId, patientName, patientPhone, appointmentDate, status, confirmationStatus,
                     confirmationMethod, confirmedAt, cancelledAt, cancellationReason, rescheduleCount,
                     originalAppointmentDate, reminderSentAt, notes, updatedAt)
    }

    /** A new appointment as stored: scheduled, confirmation pending, never
        rescheduled. */
    constructor (id: string, clinicId: string, patientName: string, patientPhone: string,
                 appointmentDate: int, now: int)
      ensures Rec() == NewAppointment(id, clinicId, patientName, patientPhone, appointmentDate, now)
      ensures IsUpcoming(Rec(), now) <==> appointmentDate > now
    {
      this.id := id;
      this.clinicId := clinicId;
      this.patientName := patientName;
      this.patientPhone := patientPhone;
      this.appointmentDate := appointmentDate;
      status := SCHEDULED;
      confirmationStatus := PENDING;
      confirmationMethod := None;
      confirmedAt := None;
      cancelledAt := None;
      cancellationReason := None;
      rescheduleCount := 0;
      originalAppointmentDate := None;
      reminderSentAt := None;
      notes := None;
      updatedAt := Some(now);
    }

    method Confirm(via: string, notes: Option<string>, now: int)
      modifies this
      ensures Rec() == Confirmed(old(Rec()), via, notes, now)
    {
      status := CONFIRMED;
      confirmationStatus := CONFIRMED;
      confirmationMethod := Some(via);
      confirmedAt := Some(now);
      if Truthy(notes) {
        this.notes := notes;
      }
      updatedAt := Some(now);
    }

    method Cancel(reason: Option<string>, cancelledBy: string, now: int)
      modifies this
      ensures Rec() == Cancelled(old(Rec()), reason, cancelledBy, now)
    {
      status := CANCELLED;
      confirmationStatus := DECLINED;
      cancelledAt := Some(now);
      cancellationReason := Some(if Truthy(reason) then reason.value else "Cancelled by " + cancelledBy);
      updatedAt := Some(now);
    }

    method Reschedule(newDate: int, reason: Option<string>, now: int)
      modifies this
      ensures Rec() == Rescheduled(old(Rec()), newDate, reason, now)
    {
      if originalAppointmentDate.None? {
        originalAppointmentDate := Some(appointmentDate);
      }
      appointmentDate := newDate;
      status := RESCHEDULED;
      confirmationStatus := PENDING;
      rescheduleCount := rescheduleCount + 1;
      if Truthy(reason) {
        notes := NotesWithEntry(notes, "Rescheduled: ", reason);
      }
      updatedAt := Some(now);
    }

    method MarkAsNoShow(now: int)
      modifies this
      ensures Rec() == NoShow(old(Rec()), now)
    {
      status := NO_SHOW;
      updatedAt := Some(now);
    }

    method MarkAsCompleted(notes: Option<string>, now: int)
      modifies this
      ensures Rec() == Completed(old(Rec()), notes, now)
    {
      status := COMPLETED;
      if Truthy(notes) {
        this.notes := NotesWithEntry(this.notes, "Completed: ", notes);
      }
      updatedAt := Some(now);
    }

    method SendReminder(now: int)
      modifies this
      ensures Rec() == Reminded(old(Rec()), now)
    {
      reminderSentAt := Some(now);
      updatedAt := Some(now);
    }
  }

  // ---------------------------------------------------------------------------
  // Confirmations

  const SENT := "sent"
  const RESPONDED := "responded"
  const PATIENT_CANCELLED_REASON := "Patient cancelled via confirmation"

  /** The state of one `appointment_confirmations` row. */
  datatype ConfirmationRec = ConfirmationRec(
    id: string,
    appointmentId: string,
    confirmationMethod: string,
    messageSent: Option<string>,
    responseReceived: Option<string>,
    responseType: Option<string>,
    respondedAt: Option<int>,
    sentAt: int,
    status: string)

  /** What a patient's response does to the appointment: 'confirmed'
      confirms it by the confirmation's method, 'cancelled' cancels it on the
      patient's behalf, anything else leaves it alone. */
  function AfterResponse(a: AppointmentRec, via: string, responseType: string, now: int): (r: AppointmentRec)
    ensures responseType == CONFIRMED ==>
              r.status == CONFIRMED && r.confirmationMethod == Some(via) && r.notes == a.notes
    ensures responseType == CONFIRMED ==> r == Confirmed(a, via, None, now)
    ensures responseType == CANCELLED ==>
              r.status == CANCELLED && r.cancellationReason == Some(PATIENT_CANCELLED_REASON)
    ensures responseType == CANCELLED ==> r == Cancelled(a, Some(PATIENT_CANCELLED_REASON), "patient", now)
    ensures responseType != CONFIRMED && responseType != CANCELLED ==> r == a
    ensures r.id == a.id && r.appointmentDate == a.appointmentDate
  {
    if responseType == CONFIRMED then Confirmed(a, via, None, now)
    else if responseType == CANCELLED then Cancelled(a, Some(PATIENT_CANCELLED_REASON), "patient", now)
    else a
  }

  /** An `appointment_confirmations` row loaded as an object, linked to its
      appointment object. */
  class AppointmentConfirmation {
    const id: string
    const appointment: Appointment
    const confirmationMethod: string
    const messageSent: Option<string>
    const sentAt: int
    var responseReceived: Option<string>
    var responseType: Option<string>
    var respondedAt: Option<int>
    var status: string

    function Rec(): ConfirmationRec
      reads this
    {
      ConfirmationRec(id, appointment.id, confirmationMethod, messageSent, responseReceived, responseType,
                      respondedAt, sentAt, status)
    }

    constructor (id: string, appointment: Appointment, via: string, messageSent: Option<string>, now: int)
      ensures this.appointment == appointment
      ensures Rec() == ConfirmationRec(id, appointment.id, via, messageSent, None, None, None, now, SENT)
    {
      this.id := id;
      this.appointment := appointment;
      confirmationMethod := via;
      this.messageSent := messageSent;
      sentAt := now;
      responseReceived := None;
      responseType := None;
      respondedAt := None;
      status := SENT;
    }

    /** `record_response`: stores the response and passes it on to the
        appointment. */
    method RecordResponse(responseText: string, responseType: string, now: int)
      modifies this, appointment
      ensures Rec() == old(Rec()).(responseReceived := Some(responseText), responseType := Some(responseType),
                                   respondedAt := Some(now), status := RESPONDED)
      ensures appointment.Rec() == AfterResponse(old(appointment.Rec()), confirmationMethod, responseType, now)
    {
      responseReceived := Some(responseText);
      this.responseType := Some(responseType);
      respondedAt := Some(now);
      status := RESPONDED;
      if responseType == CONFIRMED {
        appointment.Confirm(confirmationMethod, None, now);
      } else if responseType == CANCELLED {
        appointment.Cancel(Some(PATIENT_CANCELLED_REASON), "patient", now);
      }
    }
  }

  /** The `appointment_confirmations` table. */
  class ConfirmationLog {
    var confirmations: seq<AppointmentConfirmation>

    constructor ()
      ensures confirmations == []
    {
      confirmations := [];
    }

    /** `create_confirmation(appointment_id, method, message_sent)`: a new
        confirmation, sent now and awaiting a response. */
    method CreateConfirmation(appointment: Appointment, via: string, messageSent: Option<string>,
                              id: string, now: int)
      returns (c: AppointmentConfirmation)
      modifies this
      ensures fresh(c) && confirmations == old(confirmations) + [c]
      ensures c.appointment == appointment
      ensures c.Rec() == ConfirmationRec(id, appointment.id, via, messageSent, None, None, None, now, SENT)
    {
      c := new AppointmentConfirmation(id, appointment, via, messageSent, now);
      confirmations := confirmations + [c];
    }
  }
}

=== FILE: auth.dfy ===
/** The authentication routes (backend_flask_app/src/routes/auth.py) as
    request-to-response decision procedures over the user and clinic tables:
    login, refresh, logout, me, change-password and verify-token. Each route
    that changes a user is a method on the user objects, proved equal to a
    specification function over the table's records; the lemmas below state
    what the specification promises. */
module Auth {
  import opened Common
  import opened Passwords
  import opened Tokens
  import opened Users
  import opened Clinics

  /** The two triggers of the super-admin login branch. */
  const SUPER_ADMIN_USERNAME := "craft_admin"
  const PLATFORM_TENANT_NAME := "craft ai"

  const MIN_PASSWORD_LENGTH := 8

  datatype Body =
    | Failure(error: string)
    | LoggedIn(accessToken: Token, refreshToken: Token, user: UserView, clinic: Option<ClinicView>)
    | Refreshed(accessToken: Token, user: UserView, clinic: Option<ClinicView>)
    | Profile(user: UserView, clinic: Option<ClinicView>)
    | Message(message: string)
    | TokenInfo(valid: bool, userId: string, clinicId: Option<string>, role: Option<string>,
                permissions: seq<string>)

  datatype Response = Response(status: int, body: Body)

  /** A JSON request body: an object with string values, or no body at all. */
  type Json = Option<map<string, string>>

  /** `data.get(key, '')`. */
  function Field(data: map<string, string>, key: string): string {
    if key in data then data[key] else ""
  }

  function Rejected(r: Rejection): Response {
    Response(r.status, Failure(r.message))
  }

  // ---------------------------------------------------------------------------
  // Table lookups (`query.filter_by(...).first()` and `query.get(id)`)

  function FindSuperAdmin(users: seq<UserRec>, username: string): (r: Option<nat>)
    ensures r.Some? ==> r.value < |users| && users[r.value].username == username
                        && users[r.value].role == SUPER_ADMIN
    ensures r.None? ==> forall j :: 0 <= j < |users| ==>
                          !(users[j].username == username && users[j].role == SUPER_ADMIN)
  {
    FirstIndex(users, (u: UserRec) => u.username == username && u.role == SUPER_ADMIN)
  }

  function FindTenantUser(users: seq<UserRec>, clinicId: string, username: string): (r: Option<nat>)
    ensures r.Some? ==> r.value < |users| && users[r.value].clinicId == Some(clinicId)
                        && users[r.value].username == username && users[r.value].isActive
    ensures r.None? ==> forall j :: 0 <= j < |users| ==>
                          !(users[j].clinicId == Some(clinicId) && users[j].username == username
                            && users[j].isActive)
  {
    FirstIndex(users, (u: UserRec) => u.clinicId == Some(clinicId) && u.username == username && u.isActive)
  }

  function FindUserById(users: seq<UserRec>, id: string): (r: Option<nat>)
    ensures r.Some? ==> r.value < |users| && users[r.value].id == id
    ensures r.None? ==> forall j :: 0 <= j < |users| ==> users[j].id != id
  {
    FirstIndex(users, (u: UserRec) => u.id == id)
  }

  function FindActiveClinicByName(clinics: seq<ClinicRec>, name: string): (r: Option<nat>)
    ensures r.Some? ==> r.value < |clinics| && clinics[r.value].name == name && clinics[r.value].isActive
    ensures r.None? ==> forall j :: 0 <= j < |clinics| ==> !(clinics[j].name == name && clinics[j].isActive)
  {
    FirstIndex(clinics, (c: ClinicRec) => c.name == name && c.isActive)
  }

  function FindClinicById(clinics: seq<ClinicRec>, id: string): (r: Option<nat>)
    ensures r.Some? ==> r.value < |clinics| && clinics[r.value].id == id
    ensures r.None? ==> forall j :: 0 <= j < |clinics| ==> clinics[j].id != id
  {
    FirstIndex(clinics, (c: ClinicRec) => c.id == id)
  }

  /** Updating the lockout or login fields of one user keeps every lookup by
      name, clinic, role and activity where it was. */
  lemma LookupsIgnoreLoginFields(users: seq<UserRec>, k: nat, u: UserRec, clinicId: string, username: string)
    requires k < |users|
    requires u.(lockout := users[k].lockout, lastLoginAt := users[k].lastLoginAt) == users[k]
    ensures FindTenantUser(users[k := u], clinicId, username) == FindTenantUser(users, clinicId, username)
    ensures FindSuperAdmin(users[k := u], username) == FindSuperAdmin(users, username)
  {
    var p := (v: UserRec) => v.clinicId == Some(clinicId) && v.username == username && v.isActive;
    FirstIndexAgrees(users[k := u], p, users, p);
    var q := (v: UserRec) => v.username == username && v.role == SUPER_ADMIN;
    FirstIndexAgrees(users[k := u], q, users, q);
  }

  // ---------------------------------------------------------------------------
  // POST /login

  /** A string `strip()` reduces to the empty string. */
  predicate Blank(s: string) {
    forall i :: 0 <= i < |s| ==> IsSpace(s[i])
  }

  /** The three login fields after `strip()` (the password is not stripped). */
  datatype LoginFields = LoginFields(clinicName: string, username: string, password: string)

  /** Lines 15-23: the body must be a non-empty object, and the stripped
      clinic name and username and the password must all be non-empty. */
  function ParseLogin(data: Json): (r: Result<LoginFields, Response>)
    ensures r.Err? <==> (data.None? || data.value == map[] || Blank(Field(data.value, "clinic_name"))
                         || Blank(Field(data.value, "username")) || Field(data.value, "password") == "")
    ensures r.Err? ==> r.error.status == 400 && r.error.body.Failure?
    ensures r.Ok? ==> && r.value.clinicName != "" && !IsSpace(r.value.clinicName[0])
                      && r.value.username != "" && !IsSpace(r.value.username[0])
                      && r.value.password == Field(data.value, "password")
  {
    if data.None? || data.value == map[] then Err(Response(400, Failure("Invalid JSON data")))
    else
      var c := LoginFields(Strip(Field(data.value, "clinic_name")), Strip(Field(data.value, "username")),
                           Field(data.value, "password"));
      if c.clinicName == "" || c.username == "" || c.password == "" then
        Err(Response(400, Failure("Clinic name, username, and password are required")))
      else Ok(c)
  }

  /** The dual condition that selects the super-admin branch. `str.lower()`
      is modelled on ASCII letters only; no other character lower-cases into
      the letters of "craft ai", so the comparison is unaffected. */
  predicate IsSuperAdminLoginAttempt(c: LoginFields) {
    c.username == SUPER_ADMIN_USERNAME || Lower(c.clinicName) == PLATFORM_TENANT_NAME
  }

  /** The additional claims of an access token for `u`: `{clinic_id, role, permissions or []}`. */
  function AccessClaims(u: UserRec, clinicId: Option<string>): Claims {
    Claims(clinicId, u.role, PermissionList(u))
  }

  /** The body of a successful login of `u`, into `clinic` or (a super admin)
      into none. Its tokens name the user, and the access token's claims agree
      with the user and clinic returned beside them; the user is returned as
      it is after its lockout was cleared. */
  function LoginSuccess(u: UserRec, clinic: Option<ClinicRec>, now: int, accessJti: string,
                        refreshJti: string): (b: Body)
    ensures b.LoggedIn? && b.user == ToView(LoginSucceeded(u, now), now)
    ensures !b.user.isLocked && b.user.lastLoginAt == Some(now) && b.user.id == u.id
    ensures b.clinic.Some? <==> clinic.Some?
    ensures clinic.Some? ==> b.clinic.value.id == clinic.value.id && b.clinic.value.whatsapp.Configured?
    ensures b.accessToken == CreateAccessToken(b.user.id,
              Claims(if b.clinic.Some? then Some(b.clinic.value.id) else None, b.user.role,
                     if b.user.permissions.Some? then b.user.permissions.value else []),
              accessJti, now)
    ensures b.refreshToken == CreateRefreshToken(b.user.id, refreshJti, now)
  {
    var clinicId := if clinic.Some? then Some(clinic.value.id) else None;
    LoggedIn(CreateAccessToken(u.id, AccessClaims(u, clinicId), accessJti, now),
             CreateRefreshToken(u.id, refreshJti, now),
             ToView(LoginSucceeded(u, now), now),
             if clinic.Some? then Some(ToDict(clinic.value, false)) else None)
  }

  /** A response together with the user table it leaves behind. */
  datatype LoginOutcome = LoginOutcome(response: Response, users: seq<UserRec>)

  /** Lines 27-57: the super-admin branch. None means the branch did not
      resolve (no such super admin, or a wrong password) and control falls
      through to the tenant path without touching any counter. The super
      admin is looked up by name and role only, so an inactive one is found. */
  function SuperAdminLogin(c: LoginFields, users: seq<UserRec>, now: int,
                           accessJti: string, refreshJti: string): Option<LoginOutcome>
  {
    var k := FindSuperAdmin(users, c.username);
    if k.None? || !Verify(c.password, users[k.value].passwordHash) then None
    else if IsLocked(users[k.value].lockout, now) then
      Some(LoginOutcome(Response(423, Failure("Account is temporarily locked")), users))
    else
      Some(LoginOutcome(Response(200, LoginSuccess(users[k.value], None, now, accessJti, refreshJti)),
                        users[k.value := LoginSucceeded(users[k.value], now)]))
  }

  /** Lines 59-109: the tenant path. */
  function TenantLogin(c: LoginFields, users: seq<UserRec>, clinics: seq<ClinicRec>, now: int,
                       accessJti: string, refreshJti: string): LoginOutcome
  {
    var ci := FindActiveClinicByName(clinics, c.clinicName);
    if ci.None? then
      LoginOutcome(Response(404, Failure("Clinic not found or inactive")), users)
    else if !IsSubscriptionActive(clinics[ci.value], now) then
      LoginOutcome(Response(403, Failure("Clinic subscription is not active")), users)
    else
      var k := FindTenantUser(users, clinics[ci.value].id, c.username);
      if k.None? then
        LoginOutcome(Response(401, Failure("Invalid username or password")), users)
      else
        var u := users[k.value];
        if !Verify(c.password, u.passwordHash) then
          LoginOutcome(Response(401, Failure("Invalid username or password")),
                       users[k.value := LoginFailed(u, now)])
        else if IsLocked(u.lockout, now) then
          LoginOutcome(Response(423, Failure("Account is temporarily locked due to failed login attempts")),
                       users)
        else
          LoginOutcome(Response(200, LoginSuccess(u, Some(clinics[ci.value]), now, accessJti, refreshJti)),
                       users[k.value := LoginSucceeded(u, now)])
  }

  /** Lines 26-109 for well-formed credentials. */
  function LoginWith(c: LoginFields, users: seq<UserRec>, clinics: seq<ClinicRec>, now: int,
                     accessJti: string, refreshJti: string): LoginOutcome
  {
    var viaSuperAdmin := if IsSuperAdminLoginAttempt(c) then SuperAdminLogin(c, users, now, accessJti, refreshJti)
                         else None;
    if viaSuperAdmin.Some? then viaSuperAdmin.value
    else TenantLogin(c, users, clinics, now, accessJti, refreshJti)
  }

  /** The whole of POST /login. */
  function LoginSpec(data: Json, users: seq<UserRec>, clinics: seq<ClinicRec>, now: int,
                     accessJti: string, refreshJti: string): LoginOutcome
  {
    match ParseLogin(data)
    case Err(r) => LoginOutcome(r, users)
    case Ok(c) => LoginWith(c, users, clinics, now, accessJti, refreshJti)
  }

  /** The super-admin branch on the user objects. */
  method SuperAdminAttempt(dir: Directory, c: LoginFields, now: int, accessJti: string, refreshJti: string)
    returns (resp: Option<Response>)
    requires dir.Valid()
    modifies dir.users
    ensures var o := SuperAdminLogin(c, old(dir.Recs()), now, accessJti, refreshJti);
            && (o.None? ==> resp.None? && dir.Recs() == old(dir.Recs()))
            && (o.Some? ==> resp == Some(o.value.response) && dir.Recs() == o.value.users)
  {
    var users := dir.Recs();
    var k := FindSuperAdmin(users, c.username);
    if k.None? {
      return None;
    }
    var user := dir.users[k.value];
    if !user.CheckPassword(c.password) {
      return None;
    }
    if user.IsLockedAt(now) {
      return Some(Response(423, Failure("Account is temporarily locked")));
    }
    var body := LoginSuccess(user.Rec(), None, now, accessJti, refreshJti);
    user.ResetFailedLogin(now);
    resp := Some(Response(200, body));
  }

  /** The tenant path on the user objects. */
  method TenantAttempt(dir: Directory, clinics: seq<ClinicRec>, c: LoginFields, now: int,
                       accessJti: string, refreshJti: string)
    returns (resp: Response)
    requires dir.Valid()
    modifies dir.users
    ensures var o := TenantLogin(c, old(dir.Recs()), clinics, now, accessJti, refreshJti);
            resp == o.response && dir.Recs() == o.users
  {
    var users := dir.Recs();
    var ci := FindActiveClinicByName(clinics, c.clinicName);
    if ci.None? {
      return Response(404, Failure("Clinic not found or inactive"));
    }
    var clinic := clinics[ci.value];
    if !IsSubscriptionActive(clinic, now) {
      return Response(403, Failure("Clinic subscription is not active"));
    }
    var k := FindTenantUser(users, clinic.id, c.username);
    if k.None? {
      return Response(401, Failure("Invalid username or password"));
    }
    var user := dir.users[k.value];
    if !user.CheckPassword(c.password) {
      user.IncrementFailedLogin(now);
      return Response(401, Failure("Invalid username or password"));
    }
    if user.IsLockedAt(now) {
      return Response(423, Failure("Account is temporarily locked due to failed login attempts"));
    }
    var body := LoginSuccess(user.Rec(), Some(clinic), now, accessJti, refreshJti);
    user.ResetFailedLogin(now);
    resp := Response(200, body);
  }

  /** POST /login, on the user objects: the same sequence of checks with early
      returns, counting a failure or clearing the lockout through the user's
      own methods. */
  method Login(dir: Directory, clinics: seq<Clinic>, data: Json, now: int, accessJti: string, refreshJti: string)
    returns (resp: Response)
    requires dir.Valid()
    modifies dir.users
    ensures var spec := LoginSpec(data, old(dir.Recs()), old(ClinicRecsOf(clinics)), now, accessJti, refreshJti);
            resp == spec.response && dir.Recs() == spec.users
  {
    var clinicRecs := ClinicRecsOf(clinics);
    var parsed := ParseLogin(data);
    if parsed.Err? {
      return parsed.error;
    }
    var c := parsed.value;
    if IsSuperAdminLoginAttempt(c) {
      var r := SuperAdminAttempt(dir, c, now, accessJti, refreshJti);
      if r.Some? {
        return r.value;
      }
    }
    resp := TenantAttempt(dir, clinicRecs, c, now, accessJti, refreshJti);
  }

  // ---------------------------------------------------------------------------
  // What the login specification promises

  /** Lines 27-57: a super admin with the right password logs in without a
      clinic, its token's clinic claim null; a locked one gets 423 and nothing
      changes. */
  lemma SuperAdminLoginHasNoClinic(c: LoginFields, users: seq<UserRec>, clinics: seq<ClinicRec>, now: int,
                                   accessJti: string, refreshJti: string)
    requires IsSuperAdminLoginAttempt(c)
    requires FindSuperAdmin(users, c.username).Some?
    requires Verify(c.password, users[FindSuperAdmin(users, c.username).value].passwordHash)
    ensures var k := FindSuperAdmin(users, c.username).value;
            var o := LoginWith(c, users, clinics, now, accessJti, refreshJti);
            && (IsLocked(users[k].lockout, now) ==>
                  o.response == Response(423, Failure("Account is temporarily locked")) && o.users == users)
            && (!IsLocked(users[k].lockout, now) ==>
                  && o.response.status == 200
                  && o.response.body.clinic.None?
                  && o.response.body.accessToken.claims.value.clinicId.None?
                  && o.users == users[k := LoginSucceeded(users[k], now)])
  {
  }

  /** Lines 27-29 and 60: when the super-admin branch is taken but finds no
      super admin of that name, or the password is wrong, the outcome is
      exactly that of the tenant path: the branch counts no failure. */
  lemma SuperAdminFailureFallsThrough(c: LoginFields, users: seq<UserRec>, clinics: seq<ClinicRec>, now: int,
                                      accessJti: string, refreshJti: string)
    requires FindSuperAdmin(users, c.username).None?
             || !Verify(c.password, users[FindSuperAdmin(users, c.username).value].passwordHash)
    ensures LoginWith(c, users, clinics, now, accessJti, refreshJti)
            == TenantLogin(c, users, clinics, now, accessJti, refreshJti)
  {
  }

  /** Lines 60-66: the clinic is resolved and its subscription checked before
      any user is looked up; both failures leave every user as it was. */
  lemma TenantChecksPrecedeUserLookup(c: LoginFields, users: seq<UserRec>, clinics: seq<ClinicRec>, now: int,
                                      accessJti: string, refreshJti: string)
    ensures var o := TenantLogin(c, users, clinics, now, accessJti, refreshJti);
            var ci := FindActiveClinicByName(clinics, c.clinicName);
            && (ci.None? ==> o.response == Response(404, Failure("Clinic not found or inactive")) && o.users == users)
            && (ci.Some? && !IsSubscriptionActive(clinics[ci.value], now) ==>
                  o.response == Response(403, Failure("Clinic subscription is not active")) && o.users == users)
  {
  }

  /** Lines 69-79: an unknown or inactive user and a wrong password get the
      same 401; the failure is counted only against a user that was found. */
  lemma InvalidCredentialsIndistinguishable(c: LoginFields, users: seq<UserRec>, clinics: seq<ClinicRec>, now: int,
                                            accessJti: string, refreshJti: string)
    requires FindActiveClinicByName(clinics, c.clinicName).Some?
    requires IsSubscriptionActive(clinics[FindActiveClinicByName(clinics, c.clinicName).value], now)
    ensures var clinic := clinics[FindActiveClinicByName(clinics, c.clinicName).value];
            var k := FindTenantUser(users, clinic.id, c.username);
            var o := TenantLogin(c, users, clinics, now, accessJti, refreshJti);
            && (k.None? ==> o.response == Response(401, Failure("Invalid username or password")) && o.users == users)
            && (k.Some? && !Verify(c.password, users[k.value].passwordHash) ==>
                  && o.response == Response(401, Failure("Invalid username or password"))
                  && o.users == users[k.value := LoginFailed(users[k.value], now)])
  {
  }

  /** Lines 75-82: the lock is looked at only after a correct password. A
      locked user with the right password gets 423 and nothing changes; with
      a wrong password, 401 and one more failure. */
  lemma LockCheckedOnlyAfterPassword(c: LoginFields, users: seq<UserRec>, clinics: seq<ClinicRec>, now: int,
                                     accessJti: string, refreshJti: string)
    requires FindActiveClinicByName(clinics, c.clinicName).Some?
    requires IsSubscriptionActive(clinics[FindActiveClinicByName(clinics, c.clinicName).value], now)
    requires var clinic := clinics[FindActiveClinicByName(clinics, c.clinicName).value];
             var k := FindTenantUser(users, clinic.id, c.username);
             k.Some? && IsLocked(users[k.value].lockout, now)
    ensures var clinic := clinics[FindActiveClinicByName(clinics, c.clinicName).value];
            var k := FindTenantUser(users, clinic.id, c.username).value;
            var o := TenantLogin(c, users, clinics, now, accessJti, refreshJti);
            && (Verify(c.password, users[k].passwordHash) ==> o.response.status == 423 && o.users == users)
            && (!Verify(c.password, users[k].passwordHash) ==>
                  o.response.status == 401 && o.users[k].lockout.failedAttempts == users[k].lockout.failedAttempts + 1)
  {
  }

  /** The lock takes effect on the failure that reaches the threshold: that
      attempt is still answered 401, and for the next 30 minutes even the
      correct password is answered 423. */
  lemma LockTakesEffectAtThreshold(c: LoginFields, right: string, users: seq<UserRec>, clinics: seq<ClinicRec>,
                                   t1: int, t2: int, accessJti: string, refreshJti: string)
    requires FindActiveClinicByName(clinics, c.clinicName).Some?
    requires var clinic := clinics[FindActiveClinicByName(clinics, c.clinicName).value];
             IsSubscriptionActive(clinic, t1) && IsSubscriptionActive(clinic, t2)
    requires var clinic := clinics[FindActiveClinicByName(clinics, c.clinicName).value];
             var k := FindTenantUser(users, clinic.id, c.username);
             && k.Some?
             && users[k.value].lockout.failedAttempts == LOCK_THRESHOLD - 1
             && !Verify(c.password, users[k.value].passwordHash)
             && Verify(right, users[k.value].passwordHash)
    requires t1 <= t2 < t1 + LOCK_SECONDS
    ensures var first := TenantLogin(c, users, clinics, t1, accessJti, refreshJti);
            var second := TenantLogin(c.(password := right), first.users, clinics, t2, accessJti, refreshJti);
            first.response.status == 401 && second.response.status == 423
  {
    var clinic := clinics[FindActiveClinicByName(clinics, c.clinicName).value];
    var k := FindTenantUser(users, clinic.id, c.username).value;
    LookupsIgnoreLoginFields(users, k, LoginFailed(users[k], t1), clinic.id, c.username);
  }

  /** The effect of the super-admin branch: at most one user changes, and
      only by a successful login. */
  lemma SuperAdminEffect(c: LoginFields, users: seq<UserRec>, now: int, accessJti: string, refreshJti: string)
    ensures var o := SuperAdminLogin(c, users, now, accessJti, refreshJti);
            o.Some? ==>
              && o.value.response.status in {200, 423}
              && (o.value.response.status == 423 ==> o.value.users == users)
              && (o.value.response.status == 200 ==>
                    exists k :: 0 <= k < |users| && o.value.users == users[k := LoginSucceeded(users[k], now)]
                                && o.value.response.body == LoginSuccess(users[k], None, now, accessJti, refreshJti))
  {
    var k := FindSuperAdmin(users, c.username);
    if k.Some? && Verify(c.password, users[k.value].passwordHash) && !IsLocked(users[k.value].lockout, now) {
      assert SuperAdminLogin(c, users, now, accessJti, refreshJti).value.users
             == users[k.value := LoginSucceeded(users[k.value], now)];
    }
  }

  /** The effect of the tenant path: at most one user changes, by one counted
      failure on 401 or by a successful login on 200. */
  lemma TenantEffect(c: LoginFields, users: seq<UserRec>, clinics: seq<ClinicRec>, now: int,
                     accessJti: string, refreshJti: string)
    ensures var o := TenantLogin(c, users, clinics, now, accessJti, refreshJti);
            && o.response.status in {200, 401, 403, 404, 423}
            && (o.response.status == 200 ==>
                  exists k, ci :: 0 <= k < |users| && 0 <= ci < |clinics|
                                  && o.users == users[k := LoginSucceeded(users[k], now)]
                                  && o.response.body == LoginSuccess(users[k], Some(clinics[ci]), now, accessJti, refreshJti))
            && (o.response.status == 401 ==>
                  o.users == users
                  || exists k :: 0 <= k < |users| && o.users == users[k := LoginFailed(users[k], now)])
            && (o.response.status !in {200, 401} ==> o.users == users)
  {
    var ci := FindActiveClinicByName(clinics, c.clinicName);
    if ci.Some? && IsSubscriptionActive(clinics[ci.value], now) {
      var k := FindTenantUser(users, clinics[ci.value].id, c.username);
      if k.Some? {
        var o := TenantLogin(c, users, clinics, now, accessJti, refreshJti);
        if !Verify(c.password, users[k.value].passwordHash) {
          assert o.users == users[k.value := LoginFailed(users[k.value], now)];
        } else if !IsLocked(users[k.value].lockout, now) {
          assert o.users == users[k.value := LoginSucceeded(users[k.value], now)];
          assert o.response.body == LoginSuccess(users[k.value], Some(clinics[ci.value]), now, accessJti, refreshJti);
        }
      }
    }
  }

  /** A response of POST /login carries one of the documented status codes;
      a login changes at most one user (a failure counted against it on 401,
      its lockout cleared and last login recorded on 200) and nothing on any
      other status; and a 200 carries tokens that name the user returned and
      claims that agree with the user and clinic returned. */
  lemma {:induction false} LoginEffect(data: Json, users: seq<UserRec>, clinics: seq<ClinicRec>, now: int,
                                       accessJti: string, refreshJti: string)
    ensures var o := LoginSpec(data, users, clinics, now, accessJti, refreshJti);
            && o.response.status in {200, 400, 401, 403, 404, 423}
            && (o.response.status == 200 ==>
                  exists k, clinic :: 0 <= k < |users|
                                      && o.users == users[k := LoginSucceeded(users[k], now)]
                                      && o.response.body == LoginSuccess(users[k], clinic, now, accessJti, refreshJti))
            && (o.response.status == 401 ==>
                  o.users == users
                  || exists k :: 0 <= k < |users| && o.users == users[k := LoginFailed(users[k], now)])
            && (o.response.status !in {200, 401} ==> o.users == users)
  {
    var parsed := ParseLogin(data);
    if parsed.Ok? {
      var c := parsed.value;
      SuperAdminEffect(c, users, now, accessJti, refreshJti);
      TenantEffect(c, users, clinics, now, accessJti, refreshJti);
      var o := LoginSpec(data, users, clinics, now, accessJti, refreshJti);
      if IsSuperAdminLoginAttempt(c) && SuperAdminLogin(c, users, now, accessJti, refreshJti).Some? {
        assert o == SuperAdminLogin(c, users, now, accessJti, refreshJti).value;
        if o.response.status == 200 {
          var k :| 0 <= k < |users| && o.users == users[k := LoginSucceeded(users[k], now)]
                   && o.response.body == LoginSuccess(users[k], None, now, accessJti, refreshJti);
          assert exists clinic :: o.response.body == LoginSuccess(users[k], clinic, now, accessJti, refreshJti);
        }
      } else {
        assert o == TenantLogin(c, users, clinics, now, accessJti, refreshJti);
        if o.response.status == 200 {
          var k, ci :| 0 <= k < |users| && 0 <= ci < |clinics|
                       && o.users == users[k := LoginSucceeded(users[k], now)]
                       && o.response.body == LoginSuccess(users[k], Some(clinics[ci]), now, accessJti, refreshJti);
          assert exists clinic :: o.response.body == LoginSuccess(users[k], clinic, now, accessJti, refreshJti);
        }
      }
    }
  }

  // ---------------------------------------------------------------------------
  // POST /refresh

  /** POST /refresh behind `@jwt_required(refresh=True)`: the user and the
      clinic are looked up again, not taken from the token. Only a new access
      token is issued, returned with the user's view and, for a user of a
      clinic, the clinic's view. */
  function Refresh(users: seq<UserRec>, clinics: seq<ClinicRec>, token: Option<Token>, now: int,
                   blocklist: set<string>, jti: string): (r: Response)
    ensures var gate := Authenticate(token, TokenKind.Refresh, now, blocklist);
            gate.Err? ==> r == Rejected(gate.error)
    ensures var gate := Authenticate(token, TokenKind.Refresh, now, blocklist);
            gate.Ok? ==>
              var k := FindUserById(users, token.value.identity);
              && (r.status == 404 <==> k.None? || !users[k.value].isActive)
              && (r.status == 403 <==>
                    && k.Some? && users[k.value].isActive && Truthy(users[k.value].clinicId)
                    && var ci := FindClinicById(clinics, users[k.value].clinicId.value);
                       ci.None? || !clinics[ci.value].isActive || !IsSubscriptionActive(clinics[ci.value], now))
              && (r.status == 200 ==>
                    && r.body.Refreshed?
                    && r.body.accessToken.kind == Access
                    && r.body.accessToken.identity == token.value.identity
                    && r.body.accessToken.jti == jti
                    && r.body.accessToken.issuedAt == now
                    && r.body.accessToken.expiresAt == now + ACCESS_TOKEN_EXPIRES
                    && r.body.accessToken.claims
                       == Some(AccessClaims(users[k.value],
                                            if Truthy(users[k.value].clinicId) then users[k.value].clinicId else None))
                    && r.body.user == ToView(users[k.value], now)
                    && (r.body.clinic.None? <==> !Truthy(users[k.value].clinicId))
                    && (r.body.clinic.Some? ==>
                          r.body.clinic.value
                          == ToDict(clinics[FindClinicById(clinics, users[k.value].clinicId.value).value], false)))
              && r.status in {200, 403, 404}
  {
    var gate := Authenticate(token, TokenKind.Refresh, now, blocklist);
    if gate.Err? then Rejected(gate.error)
    else
      var k := FindUserById(users, gate.value.identity);
      if k.None? || !users[k.value].isActive then Response(404, Failure("User not found or inactive"))
      else
        var u := users[k.value];
        if !Truthy(u.clinicId) then
          Response(200, Refreshed(CreateAccessToken(u.id, AccessClaims(u, None), jti, now), ToView(u, now), None))
        else
          var ci := FindClinicById(clinics, u.clinicId.value);
          if ci.None? || !clinics[ci.value].isActive || !IsSubscriptionActive(clinics[ci.value], now) then
            Response(403, Failure("Clinic not found or subscription inactive"))
          else
            var c := clinics[ci.value];
            Response(200, Refreshed(CreateAccessToken(u.id, AccessClaims(u, Some(c.id)), jti, now),
                                    ToView(u, now), Some(ToDict(c, false))))
  }

  /** Deactivating a clinic, or letting its subscription lapse, revokes access
      implicitly: a refresh token issued before still authenticates, but the
      refresh is refused with 403. */
  lemma RefreshRevalidatesClinic(users: seq<UserRec>, clinics: seq<ClinicRec>, token: Token, now: int,
                                 blocklist: set<string>, jti: string, ci: nat)
    requires Authenticate(Some(token), TokenKind.Refresh, now, blocklist).Ok?
    requires FindUserById(users, token.identity).Some?
    requires var u := users[FindUserById(users, token.identity).value];
             u.isActive && Truthy(u.clinicId) && FindClinicById(clinics, u.clinicId.value) == Some(ci)
    requires !clinics[ci].isActive || !IsSubscriptionActive(clinics[ci], now)
    ensures Refresh(users, clinics, Some(token), now, blocklist, jti).status == 403
  {
  }

  // ---------------------------------------------------------------------------
  // POST /logout, GET /me, POST /verify-token

  /** POST /logout: answers 200 to every authenticated request and leaves the
      blocklist as it was; the token's `jti` is never added to it. */
  function Logout(users: seq<UserRec>, token: Option<Token>, now: int, blocklist: set<string>)
    : (r: (Response, set<string>))
    ensures r.1 == blocklist
    ensures Authenticate(token, Access, now, blocklist).Ok? ==> r.0 == Response(200, Message("Successfully logged out"))
    ensures Authenticate(token, Access, now, blocklist).Err? ==> r.0 == Rejected(Authenticate(token, Access, now, blocklist).error)
  {
    var gate := Authenticate(token, Access, now, blocklist);
    if gate.Err? then (Rejected(gate.error), blocklist)
    else (Response(200, Message("Successfully logged out")), blocklist)
  }

  /** Because logout revokes nothing, an access token keeps authenticating
      after its holder logged out, until it expires. */
  lemma LogoutDoesNotRevoke(users: seq<UserRec>, token: Token, now: int, later: int, blocklist: set<string>)
    requires Authenticate(Some(token), Access, now, blocklist).Ok?
    requires now <= later < token.expiresAt
    ensures var after := Logout(users, Some(token), now, blocklist).1;
            Authenticate(Some(token), Access, later, after) == Ok(token)
  {
  }

  /** GET /me: the user's view and, when the user names a clinic that
      exists, that clinic's view, whether or not the clinic is active. */
  function Me(users: seq<UserRec>, clinics: seq<ClinicRec>, token: Option<Token>, now: int,
              blocklist: set<string>): (r: Response)
    ensures Authenticate(token, Access, now, blocklist).Ok? ==>
              (r.status == 404 <==> FindUserById(users, token.value.identity).None?)
    ensures Authenticate(token, Access, now, blocklist).Err? ==>
              r == Rejected(Authenticate(token, Access, now, blocklist).error) && r.status == 401
    ensures r.status == 200 ==> && token.Some? && FindUserById(users, token.value.identity).Some?
                                && r.body.Profile?
                                && r.body.user == ToView(users[FindUserById(users, token.value.identity).value], now)
    ensures r.status == 200 ==>
              var u := users[FindUserById(users, token.value.identity).value];
              && (r.body.clinic.None? <==> !Truthy(u.clinicId) || FindClinicById(clinics, u.clinicId.value).None?)
              && (r.body.clinic.Some? ==>
                    r.body.clinic.value == ToDict(clinics[FindClinicById(clinics, u.clinicId.value).value], false))
  {
    var gate := Authenticate(token, Access, now, blocklist);
    if gate.Err? then Rejected(gate.error)
    else
      var k := FindUserById(users, gate.value.identity);
      if k.None? then Response(404, Failure("User not found"))
      else
        var u := users[k.value];
        var ci := if Truthy(u.clinicId) then FindClinicById(clinics, u.clinicId.value) else None;
        Response(200, Profile(ToView(u, now), if ci.Some? then Some(ToDict(clinics[ci.value], false)) else None))
  }

  /** POST /verify-token: echoes the identity and claims of an accepted
      access token. */
  function VerifyToken(token: Option<Token>, now: int, blocklist: set<string>): (r: Response)
    ensures Authenticate(token, Access, now, blocklist).Ok? && token.value.claims.Some? ==>
              var c := token.value.claims.value;
              r == Response(200, TokenInfo(true, token.value.identity, c.clinicId, Some(c.role), c.permissions))
    ensures Authenticate(token, Access, now, blocklist).Err? ==> r.status == 401
    ensures token.Some? && token.value.kind == TokenKind.Refresh && now < token.value.expiresAt ==>
              r == Rejected(Rejection(401, "Invalid token"))
  {
    var gate := Authenticate(token, Access, now, blocklist);
    if gate.Err? then Rejected(gate.error)
    else
      var t := gate.value;
      if t.claims.Some? then
        Response(200, TokenInfo(true, t.identity, t.claims.value.clinicId, Some(t.claims.value.role),
                                t.claims.value.permissions))
      else Response(200, TokenInfo(true, t.identity, None, None, []))
  }

  /** Lines 245-259 after a login: within its lifetime, the access token a
      login issued is echoed by verify-token with exactly the claims the login
      put into it. */
  lemma LoginThenVerifyToken(data: Json, users: seq<UserRec>, clinics: seq<ClinicRec>, now: int,
                             later: int, accessJti: string, refreshJti: string, blocklist: set<string>,
                             o: LoginOutcome)
    requires o == LoginSpec(data, users, clinics, now, accessJti, refreshJti)
    requires o.response.status == 200
    requires accessJti !in blocklist
    requires now <= later < now + ACCESS_TOKEN_EXPIRES
    ensures o.response.body.LoggedIn? && o.response.body.accessToken.claims.Some?
    ensures var b := o.response.body;
            var c := b.accessToken.claims.value;
            VerifyToken(Some(b.accessToken), later, blocklist)
               == Response(200, TokenInfo(true, b.user.id, c.clinicId, Some(c.role), c.permissions))
  {
    LoginEffect(data, users, clinics, now, accessJti, refreshJti);
    var k, clinic :| 0 <= k < |users| && o.response.body == LoginSuccess(users[k], clinic, now, accessJti, refreshJti);
    SuccessTokenVerifies(users[k], clinic, now, later, accessJti, refreshJti, blocklist);
  }

  /** The access token of a successful login is accepted until it expires and
      verify-token echoes the user and the claims. */
  lemma SuccessTokenVerifies(u: UserRec, clinic: Option<ClinicRec>, now: int, later: int,
                             accessJti: string, refreshJti: string, blocklist: set<string>)
    requires accessJti !in blocklist
    requires now <= later < now + ACCESS_TOKEN_EXPIRES
    ensures LoginSuccess(u, clinic, now, accessJti, refreshJti).accessToken.claims.Some?
    ensures var b := LoginSuccess(u, clinic, now, accessJti, refreshJti);
            var c := b.accessToken.claims.value;
            VerifyToken(Some(b.accessToken), later, blocklist)
               == Response(200, TokenInfo(true, b.user.id, c.clinicId, Some(c.role), c.permissions))
  {
  }

  // ---------------------------------------------------------------------------
  // POST /change-password

  /** POST /change-password. Without a JSON body the route fails inside its
      `try` and answers 500. */
  function ChangePasswordSpec(users: seq<UserRec>, token: Option<Token>, data: Json, now: int,
                              blocklist: set<string>, salt: nat): (o: LoginOutcome)
    ensures o.response.status != 200 ==> o.users == users
    ensures Authenticate(token, Access, now, blocklist).Err? ==> o.response.status == 401
    ensures Authenticate(token, Access, now, blocklist).Ok? ==>
              (o.response == Response(404, Failure("User not found"))
               <==> FindUserById(users, token.value.identity).None?)
    ensures (Authenticate(token, Access, now, blocklist).Ok? && FindUserById(users, token.value.identity).Some?
             && data.None?) ==> o.response == Response(500, Failure("Failed to change password"))
    ensures (Authenticate(token, Access, now, blocklist).Ok? && FindUserById(users, token.value.identity).Some?
             && data.Some?) ==>
              var k := FindUserById(users, token.value.identity).value;
              var current := Field(data.value, "current_password");
              var newPassword := Field(data.value, "new_password");
              (current != "" && Verify(current, users[k].passwordHash) && |newPassword| >= MIN_PASSWORD_LENGTH)
              <==> o.response == Response(200, Message("Password changed successfully"))
    ensures o.response.status == 200 ==>
              && data.Some? && token.Some? && FindUserById(users, token.value.identity).Some?
              && var k := FindUserById(users, token.value.identity).value;
                 var newPassword := Field(data.value, "new_password");
                 && Verify(Field(data.value, "current_password"), users[k].passwordHash)
                 && |newPassword| >= MIN_PASSWORD_LENGTH
                 && o.users == users[k := PasswordSet(users[k], newPassword, salt, now)]
  {
    var gate := Authenticate(token, Access, now, blocklist);
    if gate.Err? then LoginOutcome(Rejected(gate.error), users)
    else
      var k := FindUserById(users, gate.value.identity);
      if k.None? then LoginOutcome(Response(404, Failure("User not found")), users)
      else if data.None? then LoginOutcome(Response(500, Failure("Failed to change password")), users)
      else
        var current := Field(data.value, "current_password");
        var newPassword := Field(data.value, "new_password");
        var u := users[k.value];
        if current == "" || newPassword == "" then
          LoginOutcome(Response(400, Failure("Current and new passwords are required")), users)
        else if !Verify(current, u.passwordHash) then
          LoginOutcome(Response(400, Failure("Current password is incorrect")), users)
        else if |newPassword| < MIN_PASSWORD_LENGTH then
          LoginOutcome(Response(400, Failure("New password must be at least 8 characters long")), users)
        else
          LoginOutcome(Response(200, Message("Password changed successfully")),
                       users[k.value := PasswordSet(u, newPassword, salt, now)])
  }

  /** Lines 214-225: the rejections come in this order, each with 400 and the
      password hash untouched: missing fields, a wrong current password, a new
      password under 8 characters. After a change, the new password verifies
      and any other password, the old one included, does not. A request that
      passes all three checks is accepted with 200. */
  lemma ChangePasswordOutcomes(users: seq<UserRec>, token: Token, data: map<string, string>, now: int,
                               blocklist: set<string>, salt: nat)
    requires Authenticate(Some(token), Access, now, blocklist).Ok?
    requires FindUserById(users, token.identity).Some?
    ensures var k := FindUserById(users, token.identity).value;
            var current := Field(data, "current_password");
            var newPassword := Field(data, "new_password");
            var o := ChangePasswordSpec(users, Some(token), Some(data), now, blocklist, salt);
            && (current == "" || newPassword == "" ==>
                  o.response == Response(400, Failure("Current and new passwords are required")))
            && (current != "" && newPassword != "" && !Verify(current, users[k].passwordHash) ==>
                  o.response == Response(400, Failure("Current password is incorrect")))
            && (current != "" && Verify(current, users[k].passwordHash) && 0 < |newPassword| < MIN_PASSWORD_LENGTH ==>
                  o.response == Response(400, Failure("New password must be at least 8 characters long")))
            && (current != "" && Verify(current, users[k].passwordHash) && |newPassword| >= MIN_PASSWORD_LENGTH ==>
                  o.response.status == 200
                  && o.users == users[k := PasswordSet(users[k], newPassword, salt, now)])
            && (o.response.status == 200 ==>
                  && Verify(newPassword, o.users[k].passwordHash)
                  && (current != newPassword ==> !Verify(current, o.users[k].passwordHash))
                  && o.users[k].passwordChangedAt == Some(now))
  {
  }

  /** POST /change-password on the user objects. */
  method ChangePassword(dir: Directory, token: Option<Token>, data: Json, now: int,
                        blocklist: set<string>, salt: nat)
    returns (resp: Response)
    requires dir.Valid()
    modifies dir.users
    ensures var spec := ChangePasswordSpec(old(dir.Recs()), token, data, now, blocklist, salt);
            resp == spec.response && dir.Recs() == spec.users
  {
    var users := dir.Recs();
    var gate := Authenticate(token, Access, now, blocklist);
    if gate.Err? {
      return Rejected(gate.error);
    }
    var k := FindUserById(users, gate.value.identity);
    if k.None? {
      return Response(404, Failure("User not found"));
    }
    var user := dir.users[k.value];
    if data.None? {
      return Response(500, Failure("Failed to change password"));
    }
    var current := Field(data.value, "current_password");
    var newPassword := Field(data.value, "new_password");
    if current == "" || newPassword == "" {
      return Response(400, Failure("Current and new passwords are required"));
    }
    if !user.CheckPassword(current) {
      return Response(400, Failure("Current password is incorrect"));
    }
    if |newPassword| < MIN_PASSWORD_LENGTH {
      return Response(400, Failure("New password must be at least 8 characters long"));
    }
    user.SetPassword(newPassword, salt, now);
    resp := Response(200, Message("Password changed successfully"));
  }
}

=== FILE: calls.dfy ===
/** Call records (backend_flask_app/src/models/call.py): the duration shown
    as minutes and seconds, creation of a call, and the status update that
    closes a completed call and then applies extra keyword arguments. */
module Calls {
  import opened Common

  const INITIATED := "initiated"
  const COMPLETED := "completed"

  /** The state of one `calls` row. */
  datatype CallRec = CallRec(
    id: string,
    clinicId: string,
    externalCallId: Option<string>,
    callType: string,
    direction: string,
    phoneNumber: string,
    contactName: Option<string>,
    leadId: Option<string>,
    status: string,
    durationSeconds: Option<int>,
    recordingUrl: Option<string>,
    transcript: Option<string>,
    aiSummary: Option<string>,
    startedAt: int,
    endedAt: Option<int>,
    createdAt: int,
    updatedAt: int)

  // ---------------------------------------------------------------------------
  // Decimal text

  predicate IsDigit(c: char) {
    '0' <= c <= '9'
  }

  predicate AllDigits(s: string) {
    forall i :: 0 <= i < |s| ==> IsDigit(s[i])
  }

  function DigitChar(d: nat): (c: char)
    requires d < 10
    ensures IsDigit(c) && c as int == '0' as int + d
  {
    ('0' as int + d) as char
  }

  function DigitValue(c: char): (d: nat)
    requires IsDigit(c)
    ensures d < 10 && DigitChar(d) == c
  {
    (c as int - '0' as int) as nat
  }

  /** The decimal digits of a natural number, without leading zeros. */
  function Digits(n: nat): (s: string)
    ensures |s| >= 1 && AllDigits(s)
    ensures |s| > 1 ==> s[0] != '0'
    decreases n
  {
    if n < 10 then [DigitChar(n)] else Digits(n / 10) + [DigitChar(n % 10)]
  }

  /** Python's `str()` of an integer. */
  function DecimalString(n: int): (s: string)
    ensures |s| >= 1
    ensures n >= 0 ==> AllDigits(s)
    ensures n < 0 ==> s[0] == '-' && AllDigits(s[1..]) && |s| >= 2
  {
    if n < 0 then "-" + Digits(-n) else Digits(n)
  }

  /** The value of a string of decimal digits. */
  function DigitsValue(s: string): nat
    requires AllDigits(s)
  {
    if s == [] then 0 else DigitsValue(s[..|s| - 1]) * 10 + DigitValue(s[|s| - 1])
  }

  /** Python's `int()` on an optional minus sign followed by decimal digits. */
  function ParseInt(s: string): Option<int> {
    if |s| >= 2 && s[0] == '-' && AllDigits(s[1..]) then
      var magnitude: int := DigitsValue(s[1..]);
      Some(-magnitude)
    else if |s| >= 1 && AllDigits(s) then Some(DigitsValue(s))
    else None
  }

  lemma {:induction false} DigitsRoundTrip(n: nat)
    ensures DigitsValue(Digits(n)) == n
    decreases n
  {
    if n >= 10 {
      DigitsRoundTrip(n / 10);
      var s := Digits(n);
      assert s[..|s| - 1] == Digits(n / 10);
    }
  }

  /** Reading back the text of an integer gives the integer. */
  lemma DecimalRoundTrip(n: int)
    ensures ParseInt(DecimalString(n)) == Some(n)
  {
    if n < 0 {
      DigitsRoundTrip(-n);
      assert DecimalString(n)[1..] == Digits(-n);
    } else {
      DigitsRoundTrip(n);
    }
  }

  // ---------------------------------------------------------------------------
  // Duration text

  /** The `:02d` format of a number below one hundred. */
  function TwoDigits(n: nat): (s: string)
    requires n < 100
    ensures |s| == 2 && AllDigits(s) && DigitsValue(s) == n
  {
    var s := [DigitChar(n / 10), DigitChar(n % 10)];
    assert s[..1] == [DigitChar(n / 10)] && s[..1][..0] == [];
    assert DigitValue(s[0]) == n / 10 && DigitValue(s[1]) == n % 10;
    assert DigitsValue(s[..1]) == n / 10;
    s
  }

  /** `format_duration`: "0:00" when there is no duration or it is zero,
      otherwise whole minutes, a colon and the remaining seconds in two
      digits. Python's `//` and `%` by 60 floor, which for a positive
      divisor is what `/` and `%` here compute, also on a negative duration. */
  function FormatDuration(d: Option<int>): (r: string)
    ensures d.None? || d == Some(0) ==> r == "0:00"
    ensures |r| >= 4 && r[|r| - 3] == ':' && AllDigits(r[|r| - 2..])
    ensures DigitsValue(r[|r| - 2..]) < 60
  {
    if d.None? || d.value == 0 then
      assert "0:00"[2..] == "00" && "00"[..1] == "0" && "0"[..0] == [];
      "0:00"
    else
      var m := DecimalString(d.value / 60);
      var s := TwoDigits(d.value % 60);
      var r := m + ":" + s;
      assert r[|r| - 2..] == s;
      r
  }

  /** Reading a formatted duration back: minutes times sixty plus seconds. */
  function ParseDuration(s: string): Option<int> {
    if |s| < 4 || s[|s| - 3] != ':' || !AllDigits(s[|s| - 2..]) then None
    else
      match ParseInt(s[..|s| - 3])
      case None => None
      case Some(m) => Some(m * 60 + DigitsValue(s[|s| - 2..]))
  }

  /** The formatted duration determines the duration: reading it back gives
      the number of seconds (zero for a missing duration). */
  lemma FormatDurationRoundTrip(d: Option<int>)
    ensures ParseDuration(FormatDuration(d)) == Some(if d.None? then 0 else d.value)
  {
    var r := FormatDuration(d);
    if d.None? || d.value == 0 {
      assert r[..|r| - 3] == "0" && r[|r| - 2..] == "00";
      assert "00"[..1] == "0" && "0"[..0] == [];
    } else {
      var m := DecimalString(d.value / 60);
      assert r[..|r| - 3] == m;
      DecimalRoundTrip(d.value / 60);
    }
  }

  // ---------------------------------------------------------------------------
  // Status updates

  /** A keyword-argument value, by the kind of column it is meant for. */
  datatype Value = Text(text: Option<string>) | Count(count: Option<int>) | Moment(moment: Option<int>)

  /** The attributes `update_status` keyword arguments may overwrite. */
  const TEXT_ATTRIBUTES: set<string> :=
    {"external_call_id", "contact_name", "lead_id", "recording_url", "transcript", "ai_summary"}
  const DURATION_SECONDS := "duration_seconds"
  const ENDED_AT := "ended_at"

  /** `hasattr(call, key)` for the attributes modelled. */
  predicate IsAttribute(key: string) {
    key in TEXT_ATTRIBUTES || key == DURATION_SECONDS || key == ENDED_AT
  }

  /** The status part of `update_status`: completing a call that has not
      ended ends it now and records its length in whole seconds. */
  function StatusApplied(c: CallRec, status: string, now: int): (r: CallRec)
    ensures r.status == status && r.updatedAt == now
    ensures status == COMPLETED && c.endedAt.None? ==>
              r.endedAt == Some(now) && r.durationSeconds == Some(now - c.startedAt)
    ensures status == COMPLETED && c.endedAt.None? ==>
              r == c.(status := status, updatedAt := now, endedAt := Some(now),
                      durationSeconds := Some(now - c.startedAt))
    ensures !(status == COMPLETED && c.endedAt.None?) ==> r == c.(status := status, updatedAt := now)
  {
    var c' := c.(status := status, updatedAt := now);
    if status == COMPLETED && c.endedAt.None? then
      c'.(endedAt := Some(now), durationSeconds := Some(now - c.startedAt))
    else c'
  }

  /** The text a keyword argument gives an attribute, or its current text. */
  function TextOr(kwargs: map<string, Value>, key: string, current: Option<string>): Option<string> {
    if key in kwargs && kwargs[key].Text? then kwargs[key].text else current
  }

  /** All keyword arguments applied: each attribute takes the value its key
      gives it, whatever order the keys come in. */
  function AllAssigned(c: CallRec, kwargs: map<string, Value>): CallRec {
    c.(externalCallId := TextOr(kwargs, "external_call_id", c.externalCallId),
       contactName := TextOr(kwargs, "contact_name", c.contactName),
       leadId := TextOr(kwargs, "lead_id", c.leadId),
       recordingUrl := TextOr(kwargs, "recording_url", c.recordingUrl),
       transcript := TextOr(kwargs, "transcript", c.transcript),
       aiSummary := TextOr(kwargs, "ai_summary", c.aiSummary),
       durationSeconds := if DURATION_SECONDS in kwargs && kwargs[DURATION_SECONDS].Count?
                          then kwargs[DURATION_SECONDS].count else c.durationSeconds,
       endedAt := if ENDED_AT in kwargs && kwargs[ENDED_AT].Moment?
                  then kwargs[ENDED_AT].moment else c.endedAt)
  }

  /** Applying the arguments one key at a time agrees with applying them all. */
  lemma AssignedExtends(c: CallRec, kwargs: map<string, Value>, key: string, v: Value)
    requires key !in kwargs
    ensures AllAssigned(AllAssigned(c, kwargs), map[key := v]) == AllAssigned(c, kwargs[key := v])
  {
  }

  /** `update_status`: the status logic first, the keyword arguments after it. */
  function StatusUpdated(c: CallRec, status: string, kwargs: map<string, Value>, now: int): CallRec {
    AllAssigned(StatusApplied(c, status, now), kwargs)
  }

  /** Completing a call twice: the second completion moves neither the end
      time nor the duration. */
  lemma CompletionHappensOnce(c: CallRec, t1: int, t2: int)
    ensures var once := StatusUpdated(c, COMPLETED, map[], t1);
            var twice := StatusUpdated(once, COMPLETED, map[], t2);
            twice.endedAt == once.endedAt && twice.durationSeconds == once.durationSeconds
    ensures c.endedAt.None? ==> StatusUpdated(c, COMPLETED, map[], t1).durationSeconds == Some(t1 - c.startedAt)
  {
  }

  /** Any status other than completion, or a call that has ended already,
      changes only the status and the update time. */
  lemma OtherStatusesOnlySetStatus(c: CallRec, status: string, now: int)
    requires status != COMPLETED || c.endedAt.Some?
    ensures StatusUpdated(c, status, map[], now) == c.(status := status, updatedAt := now)
  {
  }

  /** Keyword arguments come after the status logic: an explicit end time or
      duration wins over the ones completion computes. */
  lemma KeywordsOverrideCompletion(c: CallRec, kwargs: map<string, Value>, now: int)
    requires ENDED_AT in kwargs && kwargs[ENDED_AT].Moment?
    requires DURATION_SECONDS in kwargs && kwargs[DURATION_SECONDS].Count?
    ensures StatusUpdated(c, COMPLETED, kwargs, now).endedAt == kwargs[ENDED_AT].moment
    ensures StatusUpdated(c, COMPLETED, kwargs, now).durationSeconds == kwargs[DURATION_SECONDS].count
  {
  }

  /** A key that names no attribute is ignored. */
  lemma UnknownKeysIgnored(c: CallRec, status: string, kwargs: map<string, Value>, key: string, v: Value, now: int)
    requires !IsAttribute(key)
    ensures StatusUpdated(c, status, kwargs[key := v], now) == StatusUpdated(c, status, kwargs, now)
    ensures AllAssigned(c, map[key := v]) == c
  {
  }

  // ---------------------------------------------------------------------------
  // The Call object

  /** A `calls` row loaded as an object. The fields no modelled operation
      assigns are constants. */
  class Call {
    const id: string
    const clinicId: string
    const callType: string
    const direction: string
    const phoneNumber: string
    const startedAt: int
    const createdAt: int
    var externalCallId: Option<string>
    var contactName: Option<string>
    var leadId: Option<string>
    var status: string
    var durationSeconds: Option<int>
    var recordingUrl: Option<string>
    var transcript: Option<string>
    var aiSummary: Option<string>
    var endedAt: Option<int>
    var updatedAt: int

    function Rec(): CallRec
      reads this
    {
      CallRec(id, clinicId, externalCallId, callType, direction, phoneNumber, contactName, leadId, status,
              durationSeconds, recordingUrl, transcript, aiSummary, startedAt, endedAt, createdAt, updatedAt)
    }

    /** A new call: initiated now, nothing measured yet. */
    constructor (id: string, clinicId: string, phoneNumber: string, callType: string, direction: string, now: int)
      ensures Rec() == CallRec(id, clinicId, None, callType, direction, phoneNumber, None, None, INITIATED,
                               Some(0), None, None, None, now, None, now, now)
    {
      this.id := id;
      this.clinicId := clinicId;
      this.callType := callType;
      this.direction := direction;
      this.phoneNumber := phoneNumber;
      startedAt := now;
      createdAt := now;
      externalCallId := None;
      contactName := None;
      leadId := None;
      status := INITIATED;
      durationSeconds := Some(0);
      recordingUrl := None;
      transcript := None;
      aiSummary := None;
      endedAt := None;
      updatedAt := now;
    }

    /** `setattr(self, key, value)` for an attribute the call has; a value of
        another kind than the attribute's leaves it alone. */
    method SetAttribute(key: string, v: Value)
      modifies this
      ensures Rec() == AllAssigned(old(Rec()), map[key := v])
    {
      match v {
        case Text(t) =>
          if key == "external_call_id" {
            externalCallId := t;
          } else if key == "contact_name" {
            contactName := t;
          } else if key == "lead_id" {
            leadId := t;
          } else if key == "recording_url" {
            recordingUrl := t;
          } else if key == "transcript" {
            transcript := t;
          } else if key == "ai_summary" {
            aiSummary := t;
          }
        case Count(n) =>
          if key == DURATION_SECONDS {
            durationSeconds := n;
          }
        case Moment(t) =>
          if key == ENDED_AT {
            endedAt := t;
          }
      }
    }

    /** The keyword-argument loop of `update_status`: `setattr` for each key
        the call has as an attribute, in the dictionary's order. */
    method AssignAll(kwargs: map<string, Value>)
      modifies this
      ensures Rec() == AllAssigned(old(Rec()), kwargs)
    {
      var pending := kwargs.Keys;
      ghost var done: map<string, Value> := map[];
      while pending != {}
        invariant pending <= kwargs.Keys
        invariant done.Keys == kwargs.Keys - pending
        invariant forall k :: k in done ==> done[k] == kwargs[k]
        invariant Rec() == AllAssigned(old(Rec()), done)
        decreases pending
      {
        var key :| key in pending;
        if IsAttribute(key) {
          SetAttribute(key, kwargs[key]);
        }
        AssignedExtends(old(Rec()), done, key, kwargs[key]);
        done := done[key := kwargs[key]];
        pending := pending - {key};
      }
      assert done == kwargs;
    }

    /** `update_status(status, **kwargs)`. */
    method UpdateStatus(status: string, kwargs: map<string, Value>, now: int)
      modifies this
      ensures Rec() == StatusUpdated(old(Rec()), status, kwargs, now)
    {
      this.status := status;
      updatedAt := now;
      if status == COMPLETED && endedAt.None? {
        endedAt := Some(now);
        durationSeconds := Some(now - startedAt);
      }
      AssignAll(kwargs);
    }
  }

  /** A new call: initiated at `now`, not yet ended, its duration zero. */
  function NewCall(id: string, clinicId: string, phoneNumber: string, callType: string, direction: string,
                   now: int): (r: CallRec)
    ensures r.status == INITIATED && r.startedAt == now && r.endedAt.None?
    ensures r.id == id && r.clinicId == clinicId && r.phoneNumber == phoneNumber
    ensures r.callType == callType && r.direction == direction
    ensures r.durationSeconds == Some(0) && FormatDuration(r.durationSeconds) == "0:00"
    ensures r.createdAt == now && r.updatedAt == now
  {
    CallRec(id, clinicId, None, callType, direction, phoneNumber, None, None, INITIATED,
            Some(0), None, None, None, now, None, now, now)
  }

  /** A call created at `start` and completed at `end` lasted `end - start`
      seconds, and its formatted duration reads back as that. */
  lemma CompletedCallDuration(id: string, clinicId: string, phoneNumber: string, callType: string,
                              direction: string, start: int, end: int)
    ensures var c := StatusUpdated(NewCall(id, clinicId, phoneNumber, callType, direction, start), COMPLETED, map[], end);
            c.endedAt == Some(end) && c.durationSeconds == Some(end - start)
            && ParseDuration(FormatDuration(c.durationSeconds)) == Some(end - start)
  {
    FormatDurationRoundTrip(Some(end - start));
  }

  /** The call table. */
  class CallLog {
    var calls: seq<Call>

    constructor ()
      ensures calls == []
    {
      calls := [];
    }

    /** `create_call`. */
    method CreateCall(clinicId: string, phoneNumber: string, callType: string, direction: string,
                      id: string, now: int) returns (c: Call)
      modifies this
      ensures fresh(c) && calls == old(calls) + [c]
      ensures c.Rec() == NewCall(id, clinicId, phoneNumber, callType, direction, now)
    {
      c := new Call(id, clinicId, phoneNumber, callType, direction, now);
      calls := calls + [c];
    }
  }
}

=== FILE: clinics.dfy ===
/** The clinic (tenant) model (frontend_flask_app/src/models/clinic.py): slug
    derivation on construction, the subscription-active predicate the auth
    routes consult, the in-place WhatsApp configuration update and the
    sensitive / non-sensitive dictionary views. */
module Clinics {
  import opened Common

  const SUBSCRIPTION_ACTIVE := "active"

  /** The four WhatsApp Business API columns. */
  datatype WhatsAppConfig = WhatsAppConfig(phoneNumberId: Option<string>, accessToken: Option<string>,
                                           webhookUrl: Option<string>, verifyToken: Option<string>)

  /** The state of one `clinics` row. */
  datatype ClinicRec = ClinicRec(
    id: string,
    name: string,
    slug: Option<string>,
    subscriptionStatus: string,
    subscriptionPlan: string,
    subscriptionExpiresAt: Option<int>,
    maxUsers: int,
    maxMonthlyCalls: int,
    maxMonthlyMessages: int,
    whatsapp: WhatsAppConfig,
    isActive: bool,
    updatedAt: Option<int>)

  /** `is_subscription_active`: the status is 'active' and no expiry lies in
      the past (an expiry equal to `now` still counts as active). */
  predicate IsSubscriptionActive(c: ClinicRec, now: int) {
    c.subscriptionStatus == SUBSCRIPTION_ACTIVE
    && !(c.subscriptionExpiresAt.Some? && c.subscriptionExpiresAt.value < now)
  }

  /** Only status 'active' can make a subscription active; with that status it
      is active exactly until its expiry, if it has one. */
  lemma SubscriptionWindow(c: ClinicRec, now: int)
    ensures c.subscriptionStatus != SUBSCRIPTION_ACTIVE ==> !IsSubscriptionActive(c, now)
    ensures (c.subscriptionStatus == SUBSCRIPTION_ACTIVE && c.subscriptionExpiresAt.None?)
              ==> IsSubscriptionActive(c, now)
    ensures (c.subscriptionStatus == SUBSCRIPTION_ACTIVE && c.subscriptionExpiresAt.Some?)
              ==> (IsSubscriptionActive(c, now) <==> now <= c.subscriptionExpiresAt.value)
  {
  }

  // ---------------------------------------------------------------------------
  // Slugs

  function SlugChar(c: char): char {
    if c == ' ' || c == '_' then '-' else LowerChar(c)
  }

  /** `name.lower().replace(' ', '-').replace('_', '-')`. */
  function Slugify(name: string): (slug: string)
    ensures |slug| == |name|
    ensures forall i :: 0 <= i < |slug| ==> slug[i] != ' ' && slug[i] != '_' && !('A' <= slug[i] <= 'Z')
    ensures forall i :: 0 <= i < |name| && name[i] != ' ' && name[i] != '_' && !('A' <= name[i] <= 'Z')
              ==> slug[i] == name[i]
    ensures forall i :: 0 <= i < |name| ==>
              slug[i] == (if name[i] == ' ' || name[i] == '_' then '-'
                          else if 'A' <= name[i] <= 'Z' then (name[i] as int + 32) as char
                          else name[i])
  {
    seq(|name|, i requires 0 <= i < |name| => SlugChar(Lower(name)[i]))
  }

  /** A slug is its own slug. */
  lemma SlugifyIdempotent(name: string)
    ensures Slugify(Slugify(name)) == Slugify(name)
  {
    var s := Slugify(name);
    assert forall i :: 0 <= i < |s| ==> Slugify(s)[i] == s[i];
  }

  /** The slug a new clinic ends up with: the given one when it is non-empty,
      otherwise the slug of a non-empty name. */
  function InitialSlug(name: string, slug: Option<string>): (r: Option<string>)
    ensures Truthy(slug) ==> r == slug
    ensures !Truthy(slug) && name != "" ==> r == Some(Slugify(name))
    ensures !Truthy(slug) && name == "" ==> r == slug
  {
    if !Truthy(slug) && name != "" then Some(Slugify(name)) else slug
  }

  // ---------------------------------------------------------------------------
  // Dictionary views

  /** What `to_dict` says about WhatsApp: the four credentials in the
      sensitive view, only whether WhatsApp is configured otherwise. */
  datatype WhatsAppView = Credentials(config: WhatsAppConfig) | Configured(configured: bool)

  datatype ClinicView = ClinicView(
    id: string, name: string, slug: Option<string>, subscriptionStatus: string,
    subscriptionPlan: string, subscriptionExpiresAt: Option<int>, maxUsers: int,
    maxMonthlyCalls: int, maxMonthlyMessages: int, isActive: bool, updatedAt: Option<int>,
    whatsapp: WhatsAppView)

  /** `to_dict(include_sensitive)`. */
  function ToDict(c: ClinicRec, includeSensitive: bool): (v: ClinicView)
    ensures includeSensitive ==> v.whatsapp == Credentials(c.whatsapp)
    ensures !includeSensitive ==> v.whatsapp.Configured?
    ensures !includeSensitive ==>
              (v.whatsapp.configured <==> Truthy(c.whatsapp.phoneNumberId) && Truthy(c.whatsapp.accessToken))
  {
    ClinicView(c.id, c.name, c.slug, c.subscriptionStatus, c.subscriptionPlan, c.subscriptionExpiresAt,
               c.maxUsers, c.maxMonthlyCalls, c.maxMonthlyMessages, c.isActive, c.updatedAt,
               if includeSensitive then Credentials(c.whatsapp)
               else Configured(Truthy(c.whatsapp.phoneNumberId) && Truthy(c.whatsapp.accessToken)))
  }

  /** `update_whatsapp_config`: each argument that is not None replaces its column. */
  function WithWhatsAppConfig(w: WhatsAppConfig, phoneNumberId: Option<string>, accessToken: Option<string>,
                              webhookUrl: Option<string>, verifyToken: Option<string>): (r: WhatsAppConfig)
    ensures r.phoneNumberId == if phoneNumberId.Some? then phoneNumberId else w.phoneNumberId
    ensures r.accessToken == if accessToken.Some? then accessToken else w.accessToken
    ensures r.webhookUrl == if webhookUrl.Some? then webhookUrl else w.webhookUrl
    ensures r.verifyToken == if verifyToken.Some? then verifyToken else w.verifyToken
  {
    WhatsAppConfig(
      if phoneNumberId.Some? then phoneNumberId else w.phoneNumberId,
      if accessToken.Some? then accessToken else w.accessToken,
      if webhookUrl.Some? then webhookUrl else w.webhookUrl,
      if verifyToken.Some? then verifyToken else w.verifyToken)
  }

  /** Updating with no arguments changes no credential, and updating twice
      with the same arguments is the same as updating once. */
  lemma WhatsAppConfigUpdateIdempotent(w: WhatsAppConfig, p: Option<string>, a: Option<string>,
                                       u: Option<string>, v: Option<string>)
    ensures WithWhatsAppConfig(w, None, None, None, None) == w
    ensures WithWhatsAppConfig(WithWhatsAppConfig(w, p, a, u, v), p, a, u, v) == WithWhatsAppConfig(w, p, a, u, v)
  {
  }

  // ---------------------------------------------------------------------------
  // The Clinic object

  /** A `clinics` row loaded as an object. The fields no modelled operation
      assigns are constants. */
  class Clinic {
    const id: string
    const name: string
    const slug: Option<string>
    const subscriptionStatus: string
    const subscriptionPlan: string
    const subscriptionExpiresAt: Option<int>
    const maxUsers: int
    const maxMonthlyCalls: int
    const maxMonthlyMessages: int
    const isActive: bool
    var whatsapp: WhatsAppConfig
    var updatedAt: Option<int>

    function Rec(): ClinicRec
      reads this
    {
      ClinicRec(id, name, slug, subscriptionStatus, subscriptionPlan, subscriptionExpiresAt,
                maxUsers, maxMonthlyCalls, maxMonthlyMessages, whatsapp, isActive, updatedAt)
    }

    /** `Clinic(**kwargs)`: the slug is derived from the name when none is given. */
    constructor (id: string, name: string, slug: Option<string>, subscriptionStatus: string,
                 subscriptionPlan: string, subscriptionExpiresAt: Option<int>, maxUsers: int,
                 maxMonthlyCalls: int, maxMonthlyMessages: int, whatsapp: WhatsAppConfig,
                 isActive: bool, now: int)
      ensures Rec() == ClinicRec(id, name, InitialSlug(name, slug), subscriptionStatus, subscriptionPlan,
                                 subscriptionExpiresAt, maxUsers, maxMonthlyCalls, maxMonthlyMessages,
                                 whatsapp, isActive, Some(now))
    {
      this.id := id;
      this.name := name;
      this.slug := InitialSlug(name, slug);
      this.subscriptionStatus := subscriptionStatus;
      this.subscriptionPlan := subscriptionPlan;
      this.subscriptionExpiresAt := subscriptionExpiresAt;
      this.maxUsers := maxUsers;
      this.maxMonthlyCalls := maxMonthlyCalls;
      this.maxMonthlyMessages := maxMonthlyMessages;
      this.isActive := isActive;
      this.whatsapp := whatsapp;
      this.updatedAt := Some(now);
    }

    /** `update_whatsapp_config`. */
    method UpdateWhatsAppConfig(phoneNumberId: Option<string>, accessToken: Option<string>,
                                webhookUrl: Option<string>, verifyToken: Option<string>, now: int)
      modifies this
      ensures Rec() == old(Rec()).(whatsapp := WithWhatsAppConfig(old(whatsapp), phoneNumberId, accessToken,
                                                                   webhookUrl, verifyToken),
                                   updatedAt := Some(now))
    {
      if phoneNumberId.Some? {
        whatsapp := whatsapp.(phoneNumberId := phoneNumberId);
      }
      if accessToken.Some? {
        whatsapp := whatsapp.(accessToken := accessToken);
      }
      if webhookUrl.Some? {
        whatsapp := whatsapp.(webhookUrl := webhookUrl);
      }
      if verifyToken.Some? {
        whatsapp := whatsapp.(verifyToken := verifyToken);
      }
      updatedAt := Some(now);
    }
  }

  /** The records of a table of clinic objects, row by row. */
  function ClinicRecsOf(clinics: seq<Clinic>): (r: seq<ClinicRec>)
    reads clinics
    ensures |r| == |clinics|
    ensures forall i :: 0 <= i < |clinics| ==> r[i] == clinics[i].Rec()
  {
    if clinics == [] then [] else ClinicRecsOf(clinics[..|clinics| - 1]) + [clinics[|clinics| - 1].Rec()]
  }
}

=== FILE: common.dfy ===
/** Shared vocabulary: optional values, results, the "first matching row"
    lookup every store query uses, and the few Python string operations the
    models rely on (truthiness, strip, ASCII lower-casing, note appending). */
module Common {

  datatype Option<T> = None | Some(value: T)

  datatype Result<T, E> = Ok(value: T) | Err(error: E)

  /** Python truthiness of a nullable string: present and non-empty. */
  predicate Truthy(s: Option<string>) {
    s.Some? && s.value != ""
  }

  /** The index of the first element satisfying `p`, as `query.filter_by(...).first()`
      returns the first matching row (rows are kept in insertion order). */
  function FirstIndex<T>(s: seq<T>, p: T -> bool): (r: Option<nat>)
    ensures r.Some? ==> r.value < |s| && p(s[r.value])
    ensures r.Some? ==> forall j :: 0 <= j < r.value ==> !p(s[j])
    ensures r.None? <==> forall j :: 0 <= j < |s| ==> !p(s[j])
  {
    if s == [] then None
    else if p(s[0]) then Some(0)
    else
      match FirstIndex(s[1..], p)
      case None => None
      case Some(k) => Some(k + 1)
  }

  /** Two queries that agree row by row find the same first row. */
  lemma FirstIndexAgrees<A, B>(a: seq<A>, p: A -> bool, b: seq<B>, q: B -> bool)
    requires |a| == |b|
    requires forall j :: 0 <= j < |a| ==> p(a[j]) == q(b[j])
    ensures FirstIndex(a, p) == FirstIndex(b, q)
  {
  }

  /** The characters Python's `str.strip()` removes: the Unicode whitespace
      characters for which `str.isspace()` holds. */
  predicate IsSpace(c: char) {
    c == ' ' || ('\t' <= c <= '\r') || ('\U{1C}' <= c <= '\U{1F}')
    || c == '\U{85}' || c == '\U{A0}' || c == '\U{1680}'
    || ('\U{2000}' <= c <= '\U{200A}') || c == '\U{2028}' || c == '\U{2029}'
    || c == '\U{202F}' || c == '\U{205F}' || c == '\U{3000}'
  }

  function StripLeft(s: string): (r: string)
    ensures |r| <= |s| && r == s[|s| - |r|..]
    ensures r != [] ==> !IsSpace(r[0])
    ensures forall i :: 0 <= i < |s| - |r| ==> IsSpace(s[i])
  {
    if s != [] && IsSpace(s[0]) then StripLeft(s[1..]) else s
  }

  function StripRight(s: string): (r: string)
    ensures |r| <= |s| && r == s[..|r|]
    ensures r != [] ==> !IsSpace(r[|r| - 1])
    ensures forall i :: |r| <= i < |s| ==> IsSpace(s[i])
  {
    if s != [] && IsSpace(s[|s| - 1]) then StripRight(s[..|s| - 1]) else s
  }

  /** Python's `str.strip()`: drops leading and trailing whitespace. */
  function Strip(s: string): (r: string)
    ensures r == "" <==> forall i :: 0 <= i < |s| ==> IsSpace(s[i])
    ensures r != "" ==> !IsSpace(r[0]) && !IsSpace(r[|r| - 1])
  {
    var l := StripLeft(s);
    var r := StripRight(l);
    StripEnds(s, l, r);
    r
  }

  /** Stripping the left end and then the right end leaves nothing exactly
      when the text is all whitespace, and otherwise non-whitespace at both
      ends. */
  lemma StripEnds(s: string, l: string, r: string)
    requires |l| <= |s| && l == s[|s| - |l|..]
    requires l != [] ==> !IsSpace(l[0])
    requires forall i :: 0 <= i < |s| - |l| ==> IsSpace(s[i])
    requires |r| <= |l| && r == l[..|r|]
    requires r != [] ==> !IsSpace(r[|r| - 1])
    requires forall i :: |r| <= i < |l| ==> IsSpace(l[i])
    ensures r == "" <==> forall i :: 0 <= i < |s| ==> IsSpace(s[i])
    ensures r != "" ==> !IsSpace(r[0]) && !IsSpace(r[|r| - 1])
  {
    if r != "" {
      assert r[0] == l[0] == s[|s| - |l|];
    }
  }

  /** `strip()` keeps a slice of the text: everything before and after it is
      whitespace. */
  lemma StripIsSlice(s: string)
    ensures exists i, j :: 0 <= i <= j <= |s| && Strip(s) == s[i..j]
                           && (forall k :: 0 <= k < i ==> IsSpace(s[k]))
                           && (forall k :: j <= k < |s| ==> IsSpace(s[k]))
  {
    var l := StripLeft(s);
    var r := StripRight(l);
    var i := |s| - |l|;
    SuffixSlice(s, i, l, r);
    assert Strip(s) == s[i..i + |r|];
  }

  /** A prefix `r` of the suffix `l` of `s` that starts at `i` is a slice of
      `s`, and whitespace that follows `r` in `l` follows it in `s`. */
  lemma SuffixSlice(s: string, i: nat, l: string, r: string)
    requires i <= |s| && l == s[i..] && |r| <= |l| && r == l[..|r|]
    requires forall k :: |r| <= k < |l| ==> IsSpace(l[k])
    ensures r == s[i..i + |r|]
    ensures forall k :: i + |r| <= k < |s| ==> IsSpace(s[k])
  {
    forall k | i + |r| <= k < |s|
      ensures IsSpace(s[k])
    {
      assert s[k] == l[k - i];
    }
  }

  /** Python's `str.lower()` on one character, for the ASCII letters. */
  function LowerChar(c: char): (r: char)
    ensures !('A' <= r <= 'Z')
    ensures 'A' <= c <= 'Z' ==> r as int == c as int + 32
    ensures !('A' <= c <= 'Z') ==> r == c
  {
    if 'A' <= c <= 'Z' then (c as int + 32) as char else c
  }

  function Lower(s: string): (r: string)
    ensures |r| == |s|
    ensures forall i :: 0 <= i < |s| && 'A' <= s[i] <= 'Z' ==> r[i] as int == s[i] as int + 32
    ensures forall i :: 0 <= i < |s| && !('A' <= s[i] <= 'Z') ==> r[i] == s[i]
  {
    seq(|s|, i requires 0 <= i < |s| => LowerChar(s[i]))
  }

  /** The notes idiom shared by appointments and leads: a non-empty entry,
      after its prefix, goes after a blank line when there already are notes
      and becomes the notes otherwise; a missing or empty entry changes
      nothing. Earlier notes always survive as a prefix. */
  function NotesWithEntry(notes: Option<string>, prefix: string, entry: Option<string>): (r: Option<string>)
    ensures !Truthy(entry) ==> r == notes
    ensures Truthy(entry) && !Truthy(notes) ==> r == Some(prefix + entry.value)
    ensures Truthy(entry) && Truthy(notes) ==>
              && r.Some? && |r.value| > |notes.value|
              && r.value[..|notes.value|] == notes.value
              && r.value[|notes.value|..] == "\n\n" + prefix + entry.value
  {
    if !Truthy(entry) then notes
    else if Truthy(notes) then
      var r := notes.value + "\n\n" + prefix + entry.value;
      assert r == notes.value + ("\n\n" + prefix + entry.value);
      Some(r)
    else Some(prefix + entry.value)
  }
}

=== FILE: guards.dfy ===
/** The role and tenancy guards wrapped around protected routes
    (backend_flask_app/src/decorators.py). Each guard looks the caller up by
    the token's identity (`User.query.get`, with no check that the account is
    active) and either refuses the request or lets the route run with its
    keyword arguments. */
module Guards {
  import opened Common
  import opened Users
  import opened Auth

  /** The outcome of a guard: a refusal, or the keyword arguments the wrapped
      route is called with. */
  datatype Guarded = Denied(status: int, message: string) | Proceeded(kwargs: map<string, Option<string>>)

  /** The role hierarchy the guards implement, as a rank: a guard that admits
      a rank admits every higher one. Unknown roles rank lowest. */
  function Rank(role: string): nat {
    if role == SUPER_ADMIN then 3
    else if role == CLINIC_ADMIN then 2
    else if role == AGENT then 1
    else 0
  }

  /** The rank of the caller, 0 for an identity that names no user. */
  function CallerRank(users: seq<UserRec>, identity: string): nat {
    var k := FindUserById(users, identity);
    if k.None? then 0 else Rank(users[k.value].role)
  }

  /** `super_admin_required`. */
  function SuperAdminRequired(users: seq<UserRec>, identity: string, kwargs: map<string, Option<string>>)
    : (r: Guarded)
    ensures r.Proceeded? <==> CallerRank(users, identity) >= 3
    ensures r.Proceeded? <==> var k := FindUserById(users, identity);
                              k.Some? && HasRole(users[k.value], SUPER_ADMIN)
    ensures r.Proceeded? ==> r.kwargs == kwargs
    ensures r.Denied? ==> r == Denied(403, "Super admin access required")
  {
    var k := FindUserById(users, identity);
    if k.None? || users[k.value].role != SUPER_ADMIN then Denied(403, "Super admin access required")
    else Proceeded(kwargs)
  }

  /** `clinic_admin_required`: a clinic admin or a super admin. */
  function ClinicAdminRequired(users: seq<UserRec>, identity: string, kwargs: map<string, Option<string>>)
    : (r: Guarded)
    ensures r.Proceeded? <==> CallerRank(users, identity) >= 2
    ensures r.Proceeded? <==> var k := FindUserById(users, identity);
                              k.Some? && (HasRole(users[k.value], SUPER_ADMIN) || HasRole(users[k.value], CLINIC_ADMIN))
    ensures r.Proceeded? ==> r.kwargs == kwargs
    ensures r.Denied? ==> r == Denied(403, "Clinic admin access required")
  {
    var k := FindUserById(users, identity);
    if k.None? || users[k.value].role !in [SUPER_ADMIN, CLINIC_ADMIN] then Denied(403, "Clinic admin access required")
    else Proceeded(kwargs)
  }

  /** `agent_required`: an agent, a clinic admin or a super admin. */
  function AgentRequired(users: seq<UserRec>, identity: string, kwargs: map<string, Option<string>>)
    : (r: Guarded)
    ensures r.Proceeded? <==> CallerRank(users, identity) >= 1
    ensures r.Proceeded? <==> var k := FindUserById(users, identity);
                              k.Some? && (HasRole(users[k.value], SUPER_ADMIN) || HasRole(users[k.value], CLINIC_ADMIN)
                                          || HasRole(users[k.value], AGENT))
    ensures r.Proceeded? ==> r.kwargs == kwargs
    ensures r.Denied? ==> r == Denied(403, "Agent access required")
  {
    var k := FindUserById(users, identity);
    if k.None? || users[k.value].role !in [SUPER_ADMIN, CLINIC_ADMIN, AGENT] then Denied(403, "Agent access required")
    else Proceeded(kwargs)
  }

  /** The guards are nested: whoever passes a stricter guard passes every
      laxer one, and whoever fails a laxer guard fails every stricter one. */
  lemma GuardsNested(users: seq<UserRec>, identity: string, kwargs: map<string, Option<string>>)
    ensures SuperAdminRequired(users, identity, kwargs).Proceeded? ==> ClinicAdminRequired(users, identity, kwargs).Proceeded?
    ensures ClinicAdminRequired(users, identity, kwargs).Proceeded? ==> AgentRequired(users, identity, kwargs).Proceeded?
    ensures AgentRequired(users, identity, kwargs).Denied? ==>
              ClinicAdminRequired(users, identity, kwargs).Denied? && SuperAdminRequired(users, identity, kwargs).Denied?
  {
  }

  /** A role outside the three known ones (an 'admin' string, say) passes no
      guard, and neither does an identity that names no user. */
  lemma UnknownRolesPassNoGuard(users: seq<UserRec>, identity: string, kwargs: map<string, Option<string>>)
    requires var k := FindUserById(users, identity);
             k.None? || users[k.value].role !in {SUPER_ADMIN, CLINIC_ADMIN, AGENT}
    ensures AgentRequired(users, identity, kwargs).Denied?
    ensures ClinicAdminRequired(users, identity, kwargs).Denied?
    ensures SuperAdminRequired(users, identity, kwargs).Denied?
  {
  }

  const CLINIC_ID_KEY := "clinic_id"

  /** `same_clinic_required`: a super admin passes with the arguments as they
      are; any other user either has the clinic id filled in with its own, or
      is refused when the route names a different clinic. */
  function SameClinicRequired(users: seq<UserRec>, identity: string, kwargs: map<string, Option<string>>)
    : (r: Guarded)
    ensures FindUserById(users, identity).None? <==> r == Denied(404, "User not found")
    ensures r.Denied? ==> r.status in {403, 404}
    ensures r.Proceeded? ==> r.kwargs - {CLINIC_ID_KEY} == kwargs - {CLINIC_ID_KEY}
  {
    var k := FindUserById(users, identity);
    if k.None? then Denied(404, "User not found")
    else
      var user := users[k.value];
      if user.role == SUPER_ADMIN then Proceeded(kwargs)
      else if CLINIC_ID_KEY !in kwargs then Proceeded(kwargs[CLINIC_ID_KEY := user.clinicId])
      else if kwargs[CLINIC_ID_KEY] != user.clinicId then Denied(403, "Access denied to this clinic's data")
      else Proceeded(kwargs)
  }

  /** Tenant isolation: a route behind the guard runs for a caller other than
      a super admin only with that caller's own clinic id, whether the route
      named it or the guard filled it in, and a route naming another clinic
      is refused with 403. */
  lemma SameClinicIsolatesTenants(users: seq<UserRec>, identity: string, kwargs: map<string, Option<string>>)
    requires FindUserById(users, identity).Some?
    requires users[FindUserById(users, identity).value].role != SUPER_ADMIN
    ensures var user := users[FindUserById(users, identity).value];
            var r := SameClinicRequired(users, identity, kwargs);
            && (r.Proceeded? ==> CLINIC_ID_KEY in r.kwargs && r.kwargs[CLINIC_ID_KEY] == user.clinicId)
            && (CLINIC_ID_KEY in kwargs && kwargs[CLINIC_ID_KEY] != user.clinicId ==>
                  r == Denied(403, "Access denied to this clinic's data"))
            && (r.Denied? <==> CLINIC_ID_KEY in kwargs && kwargs[CLINIC_ID_KEY] != user.clinicId)
  {
  }

  /** A super admin passes with its arguments untouched, whichever clinic
      they name. */
  lemma SameClinicAdmitsSuperAdmin(users: seq<UserRec>, identity: string, kwargs: map<string, Option<string>>)
    requires FindUserById(users, identity).Some?
    requires users[FindUserById(users, identity).value].role == SUPER_ADMIN
    ensures SameClinicRequired(users, identity, kwargs) == Proceeded(kwargs)
  {
  }
}

=== FILE: leads.dfy ===
/** Outbound-call leads (frontend_flask_app/src/models/lead.py): whether a
    lead may be called, the in-place updates the call workflow makes, and the
    single and bulk creation that keep one lead per clinic and phone number. */
module Leads {
  import opened Common

  const NEW := "new"
  const DO_NOT_CALL := "do_not_call"
  const MEDIUM := "medium"
  const DEFAULT_MAX_CALL_ATTEMPTS := 3

  const DUPLICATE_PHONE := "Lead with this phone number already exists"
  /** The message of the `TypeError` Python raises when a bulk item has no
      phone number to pass on to `create_lead`. */
  const MISSING_PHONE := "Lead.create_lead() missing 1 required positional argument: 'phone_number'"

  /** The state of one `leads` row. */
  datatype LeadRec = LeadRec(
    id: string,
    clinicId: string,
    phoneNumber: string,
    name: Option<string>,
    email: Option<string>,
    status: string,
    priority: string,
    source: Option<string>,
    notes: Option<string>,
    lastContactedAt: Option<int>,
    assignedTo: Option<string>,
    callAttempts: int,
    maxCallAttempts: int,
    doNotCall: bool,
    doNotCallReason: Option<string>,
    createdAt: int,
    updatedAt: int)

  /** The keyword arguments a lead may be created with besides its clinic and
      phone number; `None` means the keyword was not given. */
  datatype LeadFields = LeadFields(name: Option<string>, email: Option<string>, status: Option<string>,
                                   priority: Option<string>, source: Option<string>, notes: Option<string>)

  /** `Lead(clinic_id=..., phone_number=..., **kwargs)`: the column defaults
      fill in whatever the keywords leave out. */
  function NewLead(id: string, clinicId: string, phoneNumber: string, f: LeadFields, now: int): (r: LeadRec)
    ensures r.clinicId == clinicId && r.phoneNumber == phoneNumber
    ensures r.status == (if f.status.Some? then f.status.value else NEW)
    ensures r.priority == (if f.priority.Some? then f.priority.value else MEDIUM)
    ensures r.callAttempts == 0 && r.maxCallAttempts == DEFAULT_MAX_CALL_ATTEMPTS && !r.doNotCall
    ensures Callable(r) <==> r.status != DO_NOT_CALL
  {
    LeadRec(id, clinicId, phoneNumber, f.name, f.email,
            if f.status.Some? then f.status.value else NEW,
            if f.priority.Some? then f.priority.value else MEDIUM,
            f.source, f.notes, None, None, 0, DEFAULT_MAX_CALL_ATTEMPTS, false, None, now, now)
  }

  /** `can_call`: not flagged, attempts left, and not in the do-not-call status. */
  predicate Callable(l: LeadRec) {
    if l.doNotCall then false
    else if l.callAttempts >= l.maxCallAttempts then false
    else if l.status == DO_NOT_CALL then false
    else true
  }

  /** `mark_as_do_not_call`. */
  function MarkedDoNotCall(l: LeadRec, reason: Option<string>, now: int): (r: LeadRec)
    ensures r.doNotCall && r.status == DO_NOT_CALL && r.doNotCallReason == reason
    ensures !Callable(r)
    ensures r.updatedAt == now
    ensures r == l.(doNotCall := r.doNotCall, status := r.status, doNotCallReason := r.doNotCallReason,
                    updatedAt := r.updatedAt)
  {
    l.(doNotCall := true, status := DO_NOT_CALL, doNotCallReason := reason, updatedAt := now)
  }

  /** `update_status`: the status is always replaced; non-empty notes are
      added, prefixed with the formatted clock reading `stamp`. */
  function StatusUpdated(l: LeadRec, status: string, notes: Option<string>, stamp: string, now: int)
    : (r: LeadRec)
    ensures r.status == status
    ensures r.doNotCall == l.doNotCall && r.callAttempts == l.callAttempts
    ensures Callable(r) ==> status != DO_NOT_CALL
    ensures !Truthy(notes) ==> r.notes == l.notes
    ensures Truthy(notes) && !Truthy(l.notes) ==> r.notes == Some(stamp + ": " + notes.value)
    ensures Truthy(notes) && Truthy(l.notes) ==>
              r.notes == Some(l.notes.value + "\n\n" + stamp + ": " + notes.value)
    ensures r.(status := l.status, notes := l.notes, updatedAt := l.updatedAt) == l
  {
    var n := NotesWithEntry(l.notes, stamp + ": ", notes);
    assert Truthy(notes) && Truthy(l.notes) ==>
             n == Some(l.notes.value + "\n\n" + stamp + ": " + notes.value) by {
      if Truthy(notes) && Truthy(l.notes) {
        var k := |l.notes.value|;
        var entry := "\n\n" + (stamp + ": ") + notes.value;
        assert n.value == n.value[..k] + n.value[k..];
        assert n.value == l.notes.value + entry;
        assert l.notes.value + entry == l.notes.value + "\n\n" + stamp + ": " + notes.value;
      }
    }
    l.(status := status, notes := n, updatedAt := now)
  }

  /** `increment_call_attempt`. */
  function CallAttempted(l: LeadRec, now: int): (r: LeadRec)
    ensures r.callAttempts == l.callAttempts + 1 && r.lastContactedAt == Some(now)
    ensures Callable(r) ==> Callable(l)
  {
    l.(callAttempts := l.callAttempts + 1, lastContactedAt := Some(now), updatedAt := now)
  }

  /** `assign_to_user`. */
  function AssignedTo(l: LeadRec, userId: Option<string>, now: int): (r: LeadRec)
    ensures r.assignedTo == userId
    ensures Callable(r) <==> Callable(l)
    ensures r.updatedAt == now
    ensures r == l.(assignedTo := r.assignedTo, updatedAt := r.updatedAt)
  {
    l.(assignedTo := userId, updatedAt := now)
  }

  /** `n` call attempts in a row. */
  function Attempted(l: LeadRec, n: nat, now: int): LeadRec
    decreases n
  {
    if n == 0 then l else CallAttempted(Attempted(l, n - 1, now), now)
  }

  /** `n` attempts add `n` to the count and leave the flag, status and limit alone. */
  lemma {:induction false} AttemptsAccumulate(l: LeadRec, n: nat, now: int)
    ensures Attempted(l, n, now).callAttempts == l.callAttempts + n
    ensures Attempted(l, n, now).(callAttempts := l.callAttempts, lastContactedAt := l.lastContactedAt,
                                  updatedAt := l.updatedAt) == l
    decreases n
  {
    if n > 0 {
      AttemptsAccumulate(l, n - 1, now);
    }
  }

  /** With the default limit of three, a new lead can be called before its
      third attempt and not after it. */
  lemma NewLeadExhaustedAfterThreeAttempts(id: string, clinicId: string, phoneNumber: string, f: LeadFields,
                                           created: int, n: nat, now: int)
    requires f.status != Some(DO_NOT_CALL)
    ensures Callable(Attempted(NewLead(id, clinicId, phoneNumber, f, created), n, now)) <==> n < 3
  {
    AttemptsAccumulate(NewLead(id, clinicId, phoneNumber, f, created), n, now);
  }

  /** The do-not-call flag outlives a later status change: setting the status
      back to 'new' does not make the lead callable again. */
  lemma DoNotCallSurvivesStatusUpdate(l: LeadRec, reason: Option<string>, status: string,
                                      notes: Option<string>, stamp: string, now: int, later: int)
    ensures !Callable(StatusUpdated(MarkedDoNotCall(l, reason, now), status, notes, stamp, later))
    ensures !Callable(AssignedTo(MarkedDoNotCall(l, reason, now), None, later))
  {
  }

  // ---------------------------------------------------------------------------
  // The Lead object

  /** A `leads` row loaded as an object. The fields no modelled operation
      assigns are constants. */
  class Lead {
    const id: string
    const clinicId: string
    const phoneNumber: string
    const name: Option<string>
    const email: Option<string>
    const priority: string
    const source: Option<string>
    const maxCallAttempts: int
    const createdAt: int
    var status: string
    var notes: Option<string>
    var lastContactedAt: Option<int>
    var assignedTo: Option<string>
    var callAttempts: int
    var doNotCall: bool
    var doNotCallReason: Option<string>
    var updatedAt: int

    function Rec(): LeadRec
      reads this
    {
      LeadRec(id, clinicId, phoneNumber, name, email, status, priority, source, notes, lastContactedAt,
              assignedTo, callAttempts, maxCallAttempts, doNotCall, doNotCallReason, createdAt, updatedAt)
    }

    constructor (id: string, clinicId: string, phoneNumber: string, f: LeadFields, now: int)
      ensures Rec() == NewLead(id, clinicId, phoneNumber, f, now)
    {
      this.id := id;
      this.clinicId := clinicId;
      this.phoneNumber := phoneNumber;
      name := f.name;
      email := f.email;
      status := if f.status.Some? then f.status.value else NEW;
      priority := if f.priority.Some? then f.priority.value else MEDIUM;
      source := f.source;
      notes := f.notes;
      lastContactedAt := None;
      assignedTo := None;
      callAttempts := 0;
      maxCallAttempts := DEFAULT_MAX_CALL_ATTEMPTS;
      doNotCall := false;
      doNotCallReason := None;
      createdAt := now;
      updatedAt := now;
    }

    method MarkAsDoNotCall(reason: Option<string>, now: int)
      modifies this
      ensures Rec() == MarkedDoNotCall(old(Rec()), reason, now)
    {
      doNotCall := true;
      status := DO_NOT_CALL;
      doNotCallReason := reason;
      updatedAt := now;
    }

    method UpdateStatus(status: string, notes: Option<string>, stamp: string, now: int)
      modifies this
      ensures Rec() == StatusUpdated(old(Rec()), status, notes, stamp, now)
    {
      this.status := status;
      if Truthy(notes) {
        this.notes := NotesWithEntry(this.notes, stamp + ": ", notes);
      }
      updatedAt := now;
    }

    method IncrementCallAttempt(now: int)
      modifies this
      ensures Rec() == CallAttempted(old(Rec()), now)
    {
      callAttempts := callAttempts + 1;
      lastContactedAt := Some(now);
      updatedAt := now;
    }

    method AssignToUser(userId: Option<string>, now: int)
      modifies this
      ensures Rec() == AssignedTo(old(Rec()), userId, now)
    {
      assignedTo := userId;
      updatedAt := now;
    }
  }

  /** The records of a table of lead objects, row by row. */
  function LeadRecsOf(leads: seq<Lead>): (r: seq<LeadRec>)
    reads leads
    ensures |r| == |leads|
    ensures forall i :: 0 <= i < |leads| ==> r[i] == leads[i].Rec()
  {
    if leads == [] then [] else LeadRecsOf(leads[..|leads| - 1]) + [leads[|leads| - 1].Rec()]
  }

  /** The records of two tables one after the other. */
  lemma LeadRecsOfAppend(a: seq<Lead>, b: seq<Lead>)
    ensures LeadRecsOf(a + b) == LeadRecsOf(a) + LeadRecsOf(b)
  {
    assert forall i :: 0 <= i < |a + b| ==> LeadRecsOf(a + b)[i] == (LeadRecsOf(a) + LeadRecsOf(b))[i];
  }

  /** Regrouping a table grown by one lead; kept apart so that the bulk
      loop's proof does not search for it. */
  lemma AppendAssoc<T>(a: seq<T>, b: seq<T>, c: seq<T>)
    ensures (a + b) + c == a + (b + c)
  {
  }

  // ---------------------------------------------------------------------------
  // Creation

  /** `filter_by(clinic_id=..., phone_number=...).first()`. */
  function FindLead(leads: seq<LeadRec>, clinicId: string, phoneNumber: string): (r: Option<nat>)
    ensures r.Some? ==> r.value < |leads| && leads[r.value].clinicId == clinicId
                        && leads[r.value].phoneNumber == phoneNumber
    ensures r.None? <==> forall j :: 0 <= j < |leads| ==>
                           !(leads[j].clinicId == clinicId && leads[j].phoneNumber == phoneNumber)
  {
    FirstIndex(leads, (l: LeadRec) => l.clinicId == clinicId && l.phoneNumber == phoneNumber)
  }

  /** `create_lead` on a table: refused when the clinic already has a lead
      with this phone number, a new lead otherwise. */
  function CreateLeadSpec(leads: seq<LeadRec>, clinicId: string, phoneNumber: string, f: LeadFields,
                          id: string, now: int): (r: Result<LeadRec, string>)
    ensures r.Err? <==> FindLead(leads, clinicId, phoneNumber).Some?
    ensures r.Err? ==> r.error == DUPLICATE_PHONE
    ensures r.Ok? ==> r.value == NewLead(id, clinicId, phoneNumber, f, now)
  {
    if FindLead(leads, clinicId, phoneNumber).Some? then Err(DUPLICATE_PHONE)
    else Ok(NewLead(id, clinicId, phoneNumber, f, now))
  }

  /** Creating the same lead twice fails the second time, while the same
      phone number is accepted for another clinic. */
  lemma CreateLeadRejectsSecondCopy(leads: seq<LeadRec>, clinicId: string, otherClinic: string,
                                    phoneNumber: string, f: LeadFields, id1: string, id2: string, now: int)
    requires CreateLeadSpec(leads, clinicId, phoneNumber, f, id1, now).Ok?
    requires otherClinic != clinicId
    ensures var l := CreateLeadSpec(leads, clinicId, phoneNumber, f, id1, now).value;
            && CreateLeadSpec(leads + [l], clinicId, phoneNumber, f, id2, now) == Err(DUPLICATE_PHONE)
            && (CreateLeadSpec(leads + [l], otherClinic, phoneNumber, f, id2, now).Ok? <==>
                CreateLeadSpec(leads, otherClinic, phoneNumber, f, id2, now).Ok?)
  {
    var l := CreateLeadSpec(leads, clinicId, phoneNumber, f, id1, now).value;
    var after := leads + [l];
    assert after[|leads|] == l;
    if FindLead(leads, otherClinic, phoneNumber).None? {
      assert forall j :: 0 <= j < |after| ==>
               !(after[j].clinicId == otherClinic && after[j].phoneNumber == phoneNumber);
    } else {
      var k := FindLead(leads, otherClinic, phoneNumber).value;
      assert after[k] == leads[k];
    }
  }

  /** One item of a bulk request: the phone number (absent when the item has
      none) and the other keywords. */
  datatype LeadData = LeadData(phoneNumber: Option<string>, fields: LeadFields)

  /** An entry of the `errors` list `bulk_create_leads` returns. */
  datatype BulkError = BulkError(phoneNumber: Option<string>, error: string)

  /** What happens to one bulk item against the leads present at that point. */
  function BulkStep(leads: seq<LeadRec>, clinicId: string, item: LeadData, id: string, now: int)
    : (r: Result<LeadRec, BulkError>)
    ensures item.phoneNumber.None? ==> r == Err(BulkError(None, MISSING_PHONE))
    ensures item.phoneNumber.Some? ==>
              match CreateLeadSpec(leads, clinicId, item.phoneNumber.value, item.fields, id, now)
              case Ok(l) => r == Ok(l)
              case Err(e) => r == Err(BulkError(item.phoneNumber, e))
  {
    if item.phoneNumber.None? then Err(BulkError(None, MISSING_PHONE))
    else
      match CreateLeadSpec(leads, clinicId, item.phoneNumber.value, item.fields, id, now)
      case Ok(l) => Ok(l)
      case Err(e) => Err(BulkError(item.phoneNumber, e))
  }

  /** The leads created, in order. */
  function Created(outcomes: seq<Result<LeadRec, BulkError>>): seq<LeadRec>
  {
    if outcomes == [] then []
    else
      var last := outcomes[|outcomes| - 1];
      Created(outcomes[..|outcomes| - 1]) + (if last.Ok? then [last.value] else [])
  }

  /** The errors reported, in order. */
  function Errors(outcomes: seq<Result<LeadRec, BulkError>>): seq<BulkError>
  {
    if outcomes == [] then []
    else
      var last := outcomes[|outcomes| - 1];
      Errors(outcomes[..|outcomes| - 1]) + (if last.Err? then [last.error] else [])
  }

  /** The outcome of each bulk item, in input order: each item meets the
      leads already present plus the ones the earlier items created. */
  function Outcomes(leads: seq<LeadRec>, clinicId: string, items: seq<LeadData>, ids: seq<string>, now: int)
    : (r: seq<Result<LeadRec, BulkError>>)
    requires |ids| == |items|
    ensures |r| == |items|
    decreases |items|
  {
    if items == [] then []
    else
      var n := |items| - 1;
      var earlier := Outcomes(leads, clinicId, items[..n], ids[..n], now);
      earlier + [BulkStep(leads + Created(earlier), clinicId, items[n], ids[n], now)]
  }

  /** The outcomes of one more item. */
  lemma OutcomesSnoc(leads: seq<LeadRec>, clinicId: string, items: seq<LeadData>, ids: seq<string>, now: int, i: nat)
    requires |ids| == |items| && i < |items|
    ensures var outs := Outcomes(leads, clinicId, items[..i], ids[..i], now);
            Outcomes(leads, clinicId, items[..i + 1], ids[..i + 1], now)
            == outs + [BulkStep(leads + Created(outs), clinicId, items[i], ids[i], now)]
  {
    assert items[..i + 1][..i] == items[..i] && ids[..i + 1][..i] == ids[..i];
  }

  /** The created leads are exactly the successful outcomes, and the errors
      exactly the failed ones. */
  lemma {:induction false} CreatedAndErrorsMembers(outcomes: seq<Result<LeadRec, BulkError>>)
    ensures forall l :: l in Created(outcomes) <==> Ok(l) in outcomes
    ensures forall e :: e in Errors(outcomes) <==> Err(e) in outcomes
  {
    if outcomes != [] {
      var n := |outcomes| - 1;
      CreatedAndErrorsMembers(outcomes[..n]);
      assert outcomes == outcomes[..n] + [outcomes[n]];
    }
  }

  /** What one more item adds to the two lists. */
  lemma BulkAdvance(leads: seq<LeadRec>, clinicId: string, items: seq<LeadData>, ids: seq<string>, now: int, i: nat)
    requires |ids| == |items| && i < |items|
    ensures var outs := Outcomes(leads, clinicId, items[..i], ids[..i], now);
            var step := BulkStep(leads + Created(outs), clinicId, items[i], ids[i], now);
            && Created(Outcomes(leads, clinicId, items[..i + 1], ids[..i + 1], now))
               == Created(outs) + (if step.Ok? then [step.value] else [])
            && Errors(Outcomes(leads, clinicId, items[..i + 1], ids[..i + 1], now))
               == Errors(outs) + (if step.Err? then [step.error] else [])
  {
    var outs := Outcomes(leads, clinicId, items[..i], ids[..i], now);
    OutcomesSnoc(leads, clinicId, items, ids, now, i);
    CreatedSnoc(outs, BulkStep(leads + Created(outs), clinicId, items[i], ids[i], now));
  }

  /** Every item ends up in exactly one of the two lists. */
  lemma {:induction false} CreatedPlusErrors(outcomes: seq<Result<LeadRec, BulkError>>)
    ensures |Created(outcomes)| + |Errors(outcomes)| == |outcomes|
  {
    if outcomes != [] {
      CreatedPlusErrors(outcomes[..|outcomes| - 1]);
    }
  }

  /** The outcomes of a prefix of the items are a prefix of the outcomes. */
  lemma {:induction false} OutcomesPrefix(leads: seq<LeadRec>, clinicId: string, items: seq<LeadData>,
                                          ids: seq<string>, now: int, k: nat)
    requires |ids| == |items| && k <= |items|
    ensures Outcomes(leads, clinicId, items[..k], ids[..k], now) == Outcomes(leads, clinicId, items, ids, now)[..k]
    decreases |items|
  {
    if k < |items| {
      var n := |items| - 1;
      assert items[..n][..k] == items[..k] && ids[..n][..k] == ids[..k];
      OutcomesPrefix(leads, clinicId, items[..n], ids[..n], now, k);
    } else {
      assert items[..k] == items && ids[..k] == ids;
    }
  }

  /** The outcome of item `j` is decided against the leads present plus the
      ones the items before it created. */
  lemma OutcomeAt(leads: seq<LeadRec>, clinicId: string, items: seq<LeadData>, ids: seq<string>, now: int, j: nat)
    requires |ids| == |items| && j < |items|
    ensures var outs := Outcomes(leads, clinicId, items, ids, now);
            outs[j] == BulkStep(leads + Created(outs[..j]), clinicId, items[j], ids[j], now)
  {
    OutcomesPrefix(leads, clinicId, items, ids, now, j + 1);
    OutcomesPrefix(leads, clinicId, items, ids, now, j);
    assert items[..j + 1][..j] == items[..j] && ids[..j + 1][..j] == ids[..j];
  }

  /** `bulk_create_leads` lists each item exactly once, and the created leads
      are the successful items in input order, each with its own phone number. */
  lemma BulkPartition(leads: seq<LeadRec>, clinicId: string, items: seq<LeadData>, ids: seq<string>, now: int)
    requires |ids| == |items|
    ensures var outs := Outcomes(leads, clinicId, items, ids, now);
            |Created(outs)| + |Errors(outs)| == |items|
    ensures var outs := Outcomes(leads, clinicId, items, ids, now);
            forall j :: 0 <= j < |items| && outs[j].Ok? ==>
              Some(outs[j].value.phoneNumber) == items[j].phoneNumber && outs[j].value.id == ids[j]
              && outs[j].value.clinicId == clinicId
    ensures var outs := Outcomes(leads, clinicId, items, ids, now);
            forall j :: 0 <= j < |items| && outs[j].Err? ==> outs[j].error.phoneNumber == items[j].phoneNumber
  {
    var outs := Outcomes(leads, clinicId, items, ids, now);
    CreatedPlusErrors(outs);
    forall j | 0 <= j < |items|
      ensures outs[j].Ok? ==> Some(outs[j].value.phoneNumber) == items[j].phoneNumber && outs[j].value.id == ids[j]
                              && outs[j].value.clinicId == clinicId
      ensures outs[j].Err? ==> outs[j].error.phoneNumber == items[j].phoneNumber
    {
      OutcomeAt(leads, clinicId, items, ids, now, j);
    }
  }

  /** The leads created for a prefix of the outcomes are a prefix of the
      leads created. */
  lemma {:induction false} CreatedPrefix(outcomes: seq<Result<LeadRec, BulkError>>, k: nat)
    requires k <= |outcomes|
    ensures |Created(outcomes[..k])| <= |Created(outcomes)|
    ensures Created(outcomes)[..|Created(outcomes[..k])|] == Created(outcomes[..k])
    decreases |outcomes|
  {
    if k < |outcomes| {
      var n := |outcomes| - 1;
      assert outcomes[..n][..k] == outcomes[..k];
      CreatedPrefix(outcomes[..n], k);
    } else {
      assert outcomes[..k] == outcomes;
    }
  }

  /** One more outcome adds its lead or its error at the end. */
  lemma CreatedSnoc(outcomes: seq<Result<LeadRec, BulkError>>, x: Result<LeadRec, BulkError>)
    ensures Created(outcomes + [x]) == Created(outcomes) + (if x.Ok? then [x.value] else [])
    ensures Errors(outcomes + [x]) == Errors(outcomes) + (if x.Err? then [x.error] else [])
  {
    assert (outcomes + [x])[..|outcomes|] == outcomes;
  }

  /** A lead a table holds is still found once more leads are added after it. */
  lemma FindLeadInExtension(a: seq<LeadRec>, b: seq<LeadRec>, clinicId: string, phone: string)
    requires |a| <= |b| && b[..|a|] == a
    requires FindLead(a, clinicId, phone).Some?
    ensures FindLead(b, clinicId, phone).Some?
  {
    var k := FindLead(a, clinicId, phone).value;
    assert b[k] == a[k];
  }

  /** Right after an item with this phone number, the clinic has a lead
      with it: the item either created one or was refused because one existed. */
  lemma PhoneTakenByItem(leads: seq<LeadRec>, clinicId: string, items: seq<LeadData>, ids: seq<string>,
                         now: int, i: nat, phone: string)
    requires |ids| == |items| && i < |items|
    requires items[i].phoneNumber == Some(phone)
    ensures var outs := Outcomes(leads, clinicId, items, ids, now);
            FindLead(leads + Created(outs[..i + 1]), clinicId, phone).Some?
  {
    var outs := Outcomes(leads, clinicId, items, ids, now);
    OutcomeAt(leads, clinicId, items, ids, now, i);
    var before := leads + Created(outs[..i]);
    assert outs[..i + 1] == outs[..i] + [outs[i]];
    CreatedSnoc(outs[..i], outs[i]);
    var after := leads + Created(outs[..i + 1]);
    if outs[i].Ok? {
      assert after[|after| - 1] == outs[i].value;
    } else {
      FindLeadInExtension(before, after, clinicId, phone);
    }
  }

  /** A lead present before item `k` is still present before every later item. */
  lemma TakenStaysTaken(outs: seq<Result<LeadRec, BulkError>>, leads: seq<LeadRec>, clinicId: string,
                        phone: string, k: nat, j: nat)
    requires k <= j <= |outs|
    requires FindLead(leads + Created(outs[..k]), clinicId, phone).Some?
    ensures FindLead(leads + Created(outs[..j]), clinicId, phone).Some?
  {
    assert outs[..j][..k] == outs[..k];
    CreatedPrefix(outs[..j], k);
    FindLeadInExtension(leads + Created(outs[..k]), leads + Created(outs[..j]), clinicId, phone);
  }

  /** The leads created before item `i` carry the phone numbers of earlier items. */
  lemma CreatedCarriesItemPhones(leads: seq<LeadRec>, clinicId: string, items: seq<LeadData>, ids: seq<string>,
                                 now: int, i: nat, l: LeadRec)
    requires |ids| == |items| && i <= |items|
    requires l in Created(Outcomes(leads, clinicId, items, ids, now)[..i])
    ensures l.clinicId == clinicId
    ensures exists k :: 0 <= k < i && items[k].phoneNumber == Some(l.phoneNumber)
  {
    var outs := Outcomes(leads, clinicId, items, ids, now);
    CreatedAndErrorsMembers(outs[..i]);
    assert Ok(l) in outs[..i];
    var k :| 0 <= k < i && outs[..i][k] == Ok(l);
    BulkPartition(leads, clinicId, items, ids, now);
    assert outs[k] == Ok(l);
  }

  /** A phone number repeated within one batch: every later copy is reported
      as a duplicate, and the first copy is created when the clinic had no
      lead with that number before. */
  lemma FirstInBatchWins(leads: seq<LeadRec>, clinicId: string, items: seq<LeadData>, ids: seq<string>,
                         now: int, i: nat, j: nat, phone: string)
    requires |ids| == |items| && i < j < |items|
    requires items[i].phoneNumber == Some(phone) && items[j].phoneNumber == Some(phone)
    ensures Outcomes(leads, clinicId, items, ids, now)[j] == Err(BulkError(Some(phone), DUPLICATE_PHONE))
    ensures FindLead(leads, clinicId, phone).None?
            && (forall k :: 0 <= k < i ==> items[k].phoneNumber != Some(phone))
            ==> Outcomes(leads, clinicId, items, ids, now)[i].Ok?
  {
    var outs := Outcomes(leads, clinicId, items, ids, now);
    PhoneTakenByItem(leads, clinicId, items, ids, now, i, phone);
    TakenStaysTaken(outs, leads, clinicId, phone, i + 1, j);
    OutcomeAt(leads, clinicId, items, ids, now, j);
    if FindLead(leads, clinicId, phone).None? && (forall k :: 0 <= k < i ==> items[k].phoneNumber != Some(phone)) {
      var b := leads + Created(outs[..i]);
      forall m | 0 <= m < |b|
        ensures !(b[m].clinicId == clinicId && b[m].phoneNumber == phone)
      {
        if m >= |leads| {
          assert b[m] in Created(outs[..i]);
          CreatedCarriesItemPhones(leads, clinicId, items, ids, now, i, b[m]);
        }
      }
      OutcomeAt(leads, clinicId, items, ids, now, i);
    }
  }

  // ---------------------------------------------------------------------------
  // The lead table

  class LeadBook {
    var leads: seq<Lead>

    /** Distinct objects, and at most one lead per clinic and phone number. */
    ghost predicate Valid()
      reads this
    {
      && (forall i, j :: 0 <= i < j < |leads| ==> leads[i] != leads[j])
      && (forall i, j :: 0 <= i < j < |leads| ==>
            !(leads[i].clinicId == leads[j].clinicId && leads[i].phoneNumber == leads[j].phoneNumber))
    }

    function Recs(): seq<LeadRec>
      reads this, leads
    {
      LeadRecsOf(leads)
    }

    constructor ()
      ensures Valid() && leads == []
    {
      leads := [];
    }

    /** `create_lead`. */
    method CreateLead(clinicId: string, phoneNumber: string, f: LeadFields, id: string, now: int)
      returns (r: Result<Lead, string>)
      requires Valid()
      modifies this`leads
      ensures Valid()
      ensures r.Ok? <==> CreateLeadSpec(old(Recs()), clinicId, phoneNumber, f, id, now).Ok?
      ensures r.Err? ==> r.error == CreateLeadSpec(old(Recs()), clinicId, phoneNumber, f, id, now).error && leads == old(leads)
      ensures r.Ok? ==> && fresh(r.value) && leads == old(leads) + [r.value]
                        && r.value.Rec() == CreateLeadSpec(old(Recs()), clinicId, phoneNumber, f, id, now).value
    {
      if FindLead(Recs(), clinicId, phoneNumber).Some? {
        return Err(DUPLICATE_PHONE);
      }
      var lead := new Lead(id, clinicId, phoneNumber, f, now);
      leads := leads + [lead];
      r := Ok(lead);
    }

    /** One item of `bulk_create_leads`: `create_lead` with the item's phone
        number and keywords, or the error the call raises. */
    method AddItem(clinicId: string, item: LeadData, id: string, now: int) returns (r: Result<Lead, BulkError>)
      requires Valid()
      modifies this`leads
      ensures Valid()
      ensures r.Ok? <==> BulkStep(old(Recs()), clinicId, item, id, now).Ok?
      ensures r.Err? ==> r.error == BulkStep(old(Recs()), clinicId, item, id, now).error && leads == old(leads)
      ensures r.Ok? ==> && fresh(r.value) && leads == old(leads) + [r.value]
                        && r.value.Rec() == BulkStep(old(Recs()), clinicId, item, id, now).value
    {
      if item.phoneNumber.None? {
        return Err(BulkError(None, MISSING_PHONE));
      }
      var created := CreateLead(clinicId, item.phoneNumber.value, item.fields, id, now);
      match created {
        case Ok(lead) =>
          r := Ok(lead);
        case Err(e) =>
          r := Err(BulkError(item.phoneNumber, e));
      }
    }

    /** One pass of the `bulk_create_leads` loop: the item's lead joins the
        created list, or its error joins the error list. */
    method BulkItem(clinicId: string, items: seq<LeadData>, ids: seq<string>, now: int, i: nat,
                    created: seq<Lead>, errors: seq<BulkError>, ghost before: seq<Lead>, ghost start: seq<LeadRec>)
      returns (created': seq<Lead>, errors': seq<BulkError>)
      requires Valid() && |ids| == |items| && i < |items|
      requires leads == before + created && LeadRecsOf(before) == start
      requires LeadRecsOf(created) == Created(Outcomes(start, clinicId, items[..i], ids[..i], now))
      requires errors == Errors(Outcomes(start, clinicId, items[..i], ids[..i], now))
      modifies this`leads
      ensures Valid()
      ensures leads == before + created' && LeadRecsOf(before) == start
      ensures LeadRecsOf(created') == Created(Outcomes(start, clinicId, items[..i + 1], ids[..i + 1], now))
      ensures errors' == Errors(Outcomes(start, clinicId, items[..i + 1], ids[..i + 1], now))
    {
      ghost var outs := Outcomes(start, clinicId, items[..i], ids[..i], now);
      LeadRecsOfAppend(before, created);
      ghost var step := BulkStep(start + Created(outs), clinicId, items[i], ids[i], now);
      BulkAdvance(start, clinicId, items, ids, now, i);
      assert Recs() == start + Created(outs);
      var r := AddItem(clinicId, items[i], ids[i], now);
      assert LeadRecsOf(created) == Created(outs);
      match r {
        case Ok(lead) =>
          assert lead.Rec() == step.value;
          assert LeadRecsOf([lead]) == [lead.Rec()];
          LeadRecsOfAppend(created, [lead]);
          AppendAssoc(before, created, [lead]);
          created' := created + [lead];
          errors' := errors;
        case Err(e) =>
          created' := created;
          errors' := errors + [e];
      }
    }

    /** `bulk_create_leads`: one `create_lead` per item, in order, collecting
        the created leads and the errors. */
    method BulkCreateLeads(clinicId: string, items: seq<LeadData>, ids: seq<string>, now: int)
      returns (created: seq<Lead>, errors: seq<BulkError>)
      requires Valid() && |ids| == |items|
      modifies this`leads
      ensures Valid()
      ensures LeadRecsOf(created) == Created(Outcomes(old(Recs()), clinicId, items, ids, now))
      ensures errors == Errors(Outcomes(old(Recs()), clinicId, items, ids, now))
      ensures leads == old(leads) + created
    {
      ghost var start := Recs();
      created := [];
      errors := [];
      var i := 0;
      while i < |items|
        invariant 0 <= i <= |items|
        invariant Valid()
        invariant leads == old(leads) + created && LeadRecsOf(old(leads)) == start
        invariant LeadRecsOf(created) == Created(Outcomes(start, clinicId, items[..i], ids[..i], now))
        invariant errors == Errors(Outcomes(start, clinicId, items[..i], ids[..i], now))
      {
        created, errors := BulkItem(clinicId, items, ids, now, i, created, errors, old(leads), start);
        i := i + 1;
      }
      assert items[..i] == items && ids[..i] == ids;
    }
  }
}

=== FILE: passwords.dfy ===
/** The password hasher the user model delegates to (werkzeug's
    `generate_password_hash` / `check_password_hash`), as an abstract pair:
    hashing takes a salt, which the real library draws at random, and a digest
    verifies exactly the password it was made from. */
module Passwords {

  /** A stored digest: its salt and the derived key. Key derivation is stood in
      for by the identity, an injective function, so the model treats hash
      collisions as impossible. */
  datatype Digest = Digest(salt: nat, key: string)

  predicate Verify(password: string, digest: Digest) {
    digest.key == password
  }

  function Hash(password: string, salt: nat): (d: Digest)
    ensures Verify(password, d)
    ensures forall other :: Verify(other, d) ==> other == password
  {
    Digest(salt, password)
  }
}

=== FILE: tokens.dfy ===
/** The JSON Web Tokens (RFC 7519) the auth routes issue through
    flask_jwt_extended, and the check `@jwt_required` runs before a route body.
    Signing is abstracted away: a token is the record of its claims, and the
    `jti` claim (section 4.1.7 of RFC 7519) is its unique identifier, which the
    library draws at random and the model takes as a parameter. */
module Tokens {
  import opened Common

  /** Token lifetimes in seconds (JWT_ACCESS_TOKEN_EXPIRES, JWT_REFRESH_TOKEN_EXPIRES). */
  const ACCESS_TOKEN_EXPIRES := 900
  const REFRESH_TOKEN_EXPIRES := 604800

  datatype TokenKind = Access | Refresh

  /** The additional claims of an access token. */
  datatype Claims = Claims(clinicId: Option<string>, role: string, permissions: seq<string>)

  /** `identity` is the `sub` claim; refresh tokens carry no additional claims. */
  datatype Token = Token(kind: TokenKind, jti: string, identity: string,
                         claims: Option<Claims>, issuedAt: int, expiresAt: int)

  function CreateAccessToken(identity: string, claims: Claims, jti: string, now: int): Token {
    Token(Access, jti, identity, Some(claims), now, now + ACCESS_TOKEN_EXPIRES)
  }

  function CreateRefreshToken(identity: string, jti: string, now: int): Token {
    Token(Refresh, jti, identity, None, now, now + REFRESH_TOKEN_EXPIRES)
  }

  /** Status and message of a request `@jwt_required` turns away. */
  datatype Rejection = Rejection(status: int, message: string)

  /** What `@jwt_required()` (kind Access) or `@jwt_required(refresh=True)`
      (kind Refresh) decides before the route body runs: a missing token, an
      not-yet-valid one (`nbf`, which the library sets to the issue time), an
      expired one, one of the other kind and a revoked one all get 401, each
      with the message of the app's replacement handler (a token not yet
      valid or of the wrong kind is reported through the invalid-token
      handler as "Invalid token").
      `blocklist` is the set of revoked `jti`s. */
  function Authenticate(token: Option<Token>, kind: TokenKind, now: int, blocklist: set<string>)
    : (r: Result<Token, Rejection>)
    ensures r.Ok? <==> token.Some? && token.value.kind == kind && token.value.issuedAt <= now
                       && now < token.value.expiresAt && token.value.jti !in blocklist
    ensures r.Ok? ==> r.value == token.value
    ensures r.Err? ==> r.error.status == 401
    ensures token.Some? && now < token.value.issuedAt ==> r == Err(Rejection(401, "Invalid token"))
    ensures token.Some? && token.value.issuedAt <= now < token.value.expiresAt && token.value.kind != kind
            ==> r == Err(Rejection(401, "Invalid token"))
  {
    if token.None? then Err(Rejection(401, "Authorization token is required"))
    else if now < token.value.issuedAt then Err(Rejection(401, "Invalid token"))
    else if token.value.expiresAt <= now then Err(Rejection(401, "Token has expired"))
    else if token.value.kind != kind then
      Err(Rejection(401, "Invalid token"))
    else if token.value.jti in blocklist then Err(Rejection(401, "Token has been revoked"))
    else Ok(token.value)
  }

  /** An access token is accepted from the moment it is issued until its
      lifetime runs out, and rejected as expired from then on. */
  lemma AccessTokenLifetime(identity: string, claims: Claims, jti: string, issued: int, now: int,
                            blocklist: set<string>)
    requires jti !in blocklist
    requires issued <= now
    ensures var t := CreateAccessToken(identity, claims, jti, issued);
            Authenticate(Some(t), Access, now, blocklist) ==
              if now < issued + ACCESS_TOKEN_EXPIRES then Ok(t)
              else Err(Rejection(401, "Token has expired"))
  {
  }

  /** A refresh token is never accepted where an access token is required,
      and the other way round. */
  lemma TokenKindsNotInterchangeable(t: Token, now: int, blocklist: set<string>)
    ensures !(Authenticate(Some(t), Access, now, blocklist).Ok?
              && Authenticate(Some(t), Refresh, now, blocklist).Ok?)
  {
  }
}

=== FILE: users.dfy ===
/** The tenant user model (backend_flask_app/src/models/user.py): password
    storage, the failed-login lockout state machine, the permission and
    clinic-access predicates, and the per-clinic uniqueness checks made when
    users are created. */
module Users {
  import opened Common
  import opened Passwords

  const SUPER_ADMIN := "super_admin"
  const CLINIC_ADMIN := "clinic_admin"
  const AGENT := "agent"

  /** Failed logins that lock the account, and how long the lock lasts (seconds). */
  const LOCK_THRESHOLD := 5
  const LOCK_SECONDS := 30 * 60

  // ---------------------------------------------------------------------------
  // Lockout state machine

  /** The lockout fields of a user: `failed_login_attempts` and `locked_until`. */
  datatype Lockout = Lockout(failedAttempts: nat, lockedUntil: Option<int>)

  /** `is_locked`: a lock is set and still lies in the future. */
  predicate IsLocked(l: Lockout, now: int) {
    l.lockedUntil.Some? && l.lockedUntil.value > now
  }

  /** `increment_failed_login` at time `now`. */
  function RecordFailure(l: Lockout, now: int): (r: Lockout)
    ensures r.failedAttempts == l.failedAttempts + 1
    ensures r.failedAttempts >= LOCK_THRESHOLD ==> r.lockedUntil == Some(now + LOCK_SECONDS)
    ensures r.failedAttempts < LOCK_THRESHOLD ==> r.lockedUntil == l.lockedUntil
  {
    var n := l.failedAttempts + 1;
    Lockout(n, if n >= LOCK_THRESHOLD then Some(now + LOCK_SECONDS) else l.lockedUntil)
  }

  /** The lockout fields after `reset_failed_login`. */
  const Cleared := Lockout(0, None)

  /** A run of consecutive failed logins at the given times. */
  function RecordFailures(l: Lockout, times: seq<int>): Lockout
    decreases |times|
  {
    if times == [] then l else RecordFailures(RecordFailure(l, times[0]), times[1..])
  }

  /** Below the threshold, failures only count: the lock is left as it was. */
  lemma {:induction false} FailuresBelowThreshold(l: Lockout, times: seq<int>)
    requires l.failedAttempts + |times| < LOCK_THRESHOLD
    decreases |times|
    ensures RecordFailures(l, times) == Lockout(l.failedAttempts + |times|, l.lockedUntil)
  {
    if times != [] {
      FailuresBelowThreshold(RecordFailure(l, times[0]), times[1..]);
    }
  }

  /** Once a run of failures reaches the threshold, the account is locked until
      30 minutes after the last failure of the run. */
  lemma {:induction false} FailuresReachingThreshold(l: Lockout, times: seq<int>)
    requires times != []
    requires l.failedAttempts + |times| >= LOCK_THRESHOLD
    decreases |times|
    ensures RecordFailures(l, times)
            == Lockout(l.failedAttempts + |times|, Some(times[|times| - 1] + LOCK_SECONDS))
  {
    if |times| > 1 {
      FailuresReachingThreshold(RecordFailure(l, times[0]), times[1..]);
    }
  }

  /** From a clean account, the fifth consecutive failure at time `t` locks the
      account for every `now` with t <= now < t + 30 minutes, and not after. */
  lemma FifthFailureLocks(times: seq<int>, now: int)
    requires |times| == LOCK_THRESHOLD
    ensures var t := times[LOCK_THRESHOLD - 1];
            IsLocked(RecordFailures(Cleared, times), now) <==> now < t + LOCK_SECONDS
  {
    FailuresReachingThreshold(Cleared, times);
  }

  /** Four failures from a clean account leave it unlocked. */
  lemma FourFailuresDoNotLock(times: seq<int>, now: int)
    requires |times| == LOCK_THRESHOLD - 1
    ensures !IsLocked(RecordFailures(Cleared, times), now)
    ensures RecordFailures(Cleared, times).failedAttempts == LOCK_THRESHOLD - 1
  {
    FailuresBelowThreshold(Cleared, times);
  }

  // ---------------------------------------------------------------------------
  // User records and the predicates on them

  /** The state of one `users` row. */
  datatype UserRec = UserRec(
    id: string,
    clinicId: Option<string>,
    username: string,
    email: string,
    passwordHash: Digest,
    role: string,
    permissions: Option<seq<string>>,
    isActive: bool,
    lockout: Lockout,
    lastLoginAt: Option<int>,
    passwordChangedAt: Option<int>)

  /** `self.permissions or []`. */
  function PermissionList(u: UserRec): seq<string> {
    if u.permissions.Some? then u.permissions.value else []
  }

  /** `has_permission`. */
  predicate HasPermission(u: UserRec, permission: string) {
    u.role == SUPER_ADMIN || permission in PermissionList(u)
  }

  /** `has_role`. */
  predicate HasRole(u: UserRec, role: string) {
    u.role == role
  }

  /** Python's `str()` of a nullable string: None prints as "None". */
  function PyStr(s: Option<string>): string {
    if s.Some? then s.value else "None"
  }

  /** `can_access_clinic`: super admins reach every clinic, everybody else the
      clinic whose id prints the same as theirs. */
  predicate CanAccessClinic(u: UserRec, clinicId: Option<string>) {
    u.role == SUPER_ADMIN || PyStr(u.clinicId) == PyStr(clinicId)
  }

  /** A super admin holds every permission; anybody else exactly those listed,
      a null list granting nothing. */
  lemma PermissionsByRole(u: UserRec, p: string)
    ensures u.role == SUPER_ADMIN ==> HasPermission(u, p)
    ensures u.role != SUPER_ADMIN && u.permissions.None? ==> !HasPermission(u, p)
    ensures u.role != SUPER_ADMIN && u.permissions.Some? ==> (HasPermission(u, p) <==> p in u.permissions.value)
  {
  }

  /** Clinic access for users other than super admins is equality of clinic
      ids, a null id reaching only a null target; the one exception is a clinic
      id that is literally the string "None", which prints like a null. */
  lemma ClinicAccessIsIdEquality(u: UserRec, clinicId: Option<string>)
    requires u.role != SUPER_ADMIN
    requires u.clinicId != Some("None") && clinicId != Some("None")
    ensures CanAccessClinic(u, clinicId) <==> u.clinicId == clinicId
  {
  }

  /** The exception itself: a user without a clinic passes the check for the
      clinic id "None". */
  lemma NullClinicMatchesNoneString(u: UserRec)
    requires u.role != SUPER_ADMIN && u.clinicId.None?
    ensures CanAccessClinic(u, Some("None"))
    ensures CanAccessClinic(u, None)
  {
  }

  /** The user fields after a successful login (`reset_failed_login`). */
  function LoginSucceeded(u: UserRec, now: int): (r: UserRec)
    ensures forall t :: !IsLocked(r.lockout, t)
    ensures r.lockout.failedAttempts == 0 && r.lastLoginAt == Some(now)
    ensures r.(lockout := u.lockout, lastLoginAt := u.lastLoginAt) == u
  {
    u.(lockout := Cleared, lastLoginAt := Some(now))
  }

  /** The user fields after a failed login (`increment_failed_login`). */
  function LoginFailed(u: UserRec, now: int): (r: UserRec)
    ensures r.lockout.failedAttempts == u.lockout.failedAttempts + 1
    ensures r.(lockout := u.lockout) == u
  {
    u.(lockout := RecordFailure(u.lockout, now))
  }

  /** Each failure at or beyond the threshold pushes the expiry of the lock to
      30 minutes after that failure, so failures arriving in time order never
      shorten the lock. */
  lemma LaterFailureExtendsLock(l: Lockout, t0: int, t: int)
    requires l.failedAttempts >= LOCK_THRESHOLD - 1
    requires t0 <= t
    ensures RecordFailure(l, t0).lockedUntil == Some(t0 + LOCK_SECONDS)
    ensures RecordFailure(RecordFailure(l, t0), t).lockedUntil == Some(t + LOCK_SECONDS)
    ensures RecordFailure(l, t0).lockedUntil.value <= RecordFailure(RecordFailure(l, t0), t).lockedUntil.value
  {
  }

  /** A successful login in between restarts the count: failures that stayed
      below the threshold before it leave the lock as it was, and four more
      after it leave the account unlocked with a count of 4. */
  lemma SuccessRestartsCount(u: UserRec, before: seq<int>, t: int, after: seq<int>, now: int)
    requires u.lockout.failedAttempts + |before| < LOCK_THRESHOLD
    requires |after| == LOCK_THRESHOLD - 1
    ensures IsLocked(RecordFailures(u.lockout, before), now) <==> IsLocked(u.lockout, now)
    ensures var s := LoginSucceeded(u.(lockout := RecordFailures(u.lockout, before)), t);
            && RecordFailures(s.lockout, after).failedAttempts == LOCK_THRESHOLD - 1
            && !IsLocked(RecordFailures(s.lockout, after), now)
  {
    FailuresBelowThreshold(u.lockout, before);
    var s := LoginSucceeded(u.(lockout := RecordFailures(u.lockout, before)), t);
    assert s.lockout == Cleared;
    FourFailuresDoNotLock(after, now);
  }

  /** The user fields after `set_password`. */
  function PasswordSet(u: UserRec, password: string, salt: nat, now: int): (r: UserRec)
    ensures Verify(password, r.passwordHash)
    ensures forall other :: Verify(other, r.passwordHash) ==> other == password
    ensures r.passwordChangedAt == Some(now)
    ensures r.(passwordHash := u.passwordHash, passwordChangedAt := u.passwordChangedAt) == u
  {
    u.(passwordHash := Hash(password, salt), passwordChangedAt := Some(now))
  }

  /** The non-sensitive `to_dict()` view of a user: no password hash and no
      lockout counters, only whether the account is locked at `now`. */
  datatype UserView = UserView(id: string, clinicId: Option<string>, username: string, email: string,
                               role: string, permissions: Option<seq<string>>, isActive: bool,
                               lastLoginAt: Option<int>, isLocked: bool)

  function ToView(u: UserRec, now: int): UserView {
    UserView(u.id, u.clinicId, u.username, u.email, u.role, u.permissions, u.isActive,
             u.lastLoginAt, IsLocked(u.lockout, now))
  }

  // ---------------------------------------------------------------------------
  // The User object

  /** A `users` row loaded as an object. The fields no modelled operation
      assigns are constants. */
  class User {
    const id: string
    const clinicId: Option<string>
    const username: string
    const email: string
    const role: string
    const permissions: Option<seq<string>>
    const isActive: bool
    var passwordHash: Digest
    var passwordChangedAt: Option<int>
    var failedLoginAttempts: nat
    var lockedUntil: Option<int>
    var lastLoginAt: Option<int>

    function Rec(): UserRec
      reads this
    {
      UserRec(id, clinicId, username, email, passwordHash, role, permissions, isActive,
              Lockout(failedLoginAttempts, lockedUntil), lastLoginAt, passwordChangedAt)
    }

    /** `User(password=..., **kwargs)`: the password is hashed on construction
        and the remaining columns take their defaults. */
    constructor (id: string, clinicId: Option<string>, username: string, email: string,
                 password: string, role: string, permissions: Option<seq<string>>,
                 salt: nat, now: int)
      ensures Rec() == UserRec(id, clinicId, username, email, Hash(password, salt), role,
                               if permissions.Some? then permissions else Some([]),
                               true, Cleared, None, Some(now))
    {
      this.id := id;
      this.clinicId := clinicId;
      this.username := username;
      this.email := email;
      this.role := role;
      this.permissions := if permissions.Some? then permissions else Some([]);
      this.isActive := true;
      passwordHash := Hash(password, salt);
      passwordChangedAt := Some(now);
      failedLoginAttempts := 0;
      lockedUntil := None;
      lastLoginAt := None;
    }

    /** `set_password`. */
    method SetPassword(password: string, salt: nat, now: int)
      modifies this`passwordHash, this`passwordChangedAt
      ensures Rec() == PasswordSet(old(Rec()), password, salt, now)
      ensures CheckPassword(password)
    {
      passwordHash := Hash(password, salt);
      passwordChangedAt := Some(now);
    }

    /** `check_password`. */
    predicate CheckPassword(password: string)
      reads this
    {
      Verify(password, passwordHash)
    }

    /** `is_locked`, with the clock as a parameter. */
    predicate IsLockedAt(now: int)
      reads this
    {
      IsLocked(Lockout(failedLoginAttempts, lockedUntil), now)
    }

    /** `increment_failed_login`. */
    method IncrementFailedLogin(now: int)
      modifies this`failedLoginAttempts, this`lockedUntil
      ensures Rec() == LoginFailed(old(Rec()), now)
    {
      failedLoginAttempts := failedLoginAttempts + 1;
      if failedLoginAttempts >= LOCK_THRESHOLD {
        lockedUntil := Some(now + LOCK_SECONDS);
      }
    }

    /** `reset_failed_login`. */
    method ResetFailedLogin(now: int)
      modifies this`failedLoginAttempts, this`lockedUntil, this`lastLoginAt
      ensures Rec() == LoginSucceeded(old(Rec()), now)
    {
      failedLoginAttempts := 0;
      lockedUntil := None;
      lastLoginAt := Some(now);
    }
  }

  /** The records of a table of user objects, row by row. */
  function RecsOf(users: seq<User>): (r: seq<UserRec>)
    reads users
    ensures |r| == |users|
    ensures forall i :: 0 <= i < |users| ==> r[i] == users[i].Rec()
  {
    if users == [] then [] else RecsOf(users[..|users| - 1]) + [users[|users| - 1].Rec()]
  }

  // ---------------------------------------------------------------------------
  // The user table

  /** No two users of one clinic share a username. */
  ghost predicate UsernamesUniquePerClinic(users: seq<UserRec>) {
    forall i, j :: 0 <= i < j < |users| ==>
      users[i].clinicId == users[j].clinicId ==> users[i].username != users[j].username
  }

  /** No two super admins share a username. */
  ghost predicate SuperAdminNamesUnique(users: seq<UserRec>) {
    forall i, j :: 0 <= i < j < |users| ==>
      users[i].role == SUPER_ADMIN && users[j].role == SUPER_ADMIN ==> users[i].username != users[j].username
  }

  /** A user whose name is new to its clinic keeps the names unique. */
  lemma NewNameKeepsNamesUnique(users: seq<UserRec>, u: UserRec)
    requires UsernamesUniquePerClinic(users)
    requires forall i :: 0 <= i < |users| ==> !(users[i].clinicId == u.clinicId && users[i].username == u.username)
    ensures UsernamesUniquePerClinic(users + [u])
  {
    var after := users + [u];
    forall i, j | 0 <= i < j < |after| && after[i].clinicId == after[j].clinicId
      ensures after[i].username != after[j].username
    {
      assert after[i] == users[i];
    }
  }

  /** A super admin with a new super admin name keeps those names unique. */
  lemma NewSuperAdminKeepsNamesUnique(users: seq<UserRec>, u: UserRec)
    requires SuperAdminNamesUnique(users)
    requires forall i :: 0 <= i < |users| ==> !(users[i].username == u.username && users[i].role == SUPER_ADMIN)
    ensures SuperAdminNamesUnique(users + [u])
  {
    var after := users + [u];
    forall i, j | 0 <= i < j < |after| && after[i].role == SUPER_ADMIN && after[j].role == SUPER_ADMIN
      ensures after[i].username != after[j].username
    {
      assert after[i] == users[i];
    }
  }

  /** A new user as `User(password=..., **kwargs)` builds it: hashed password,
      active, no failures, permissions defaulting to the empty list. */
  function NewUser(id: string, clinicId: Option<string>, username: string, email: string, password: string,
                   role: string, permissions: Option<seq<string>>, salt: nat, now: int): (u: UserRec)
    ensures Verify(password, u.passwordHash) && u.isActive && !IsLocked(u.lockout, now)
    ensures u.permissions.Some? && (permissions.Some? ==> u.permissions == permissions)
  {
    UserRec(id, clinicId, username, email, Hash(password, salt), role,
            if permissions.Some? then permissions else Some([]), true, Cleared, None, Some(now))
  }

  /** `filter_by(clinic_id=..., username=...).first()`. */
  function FindUsername(users: seq<UserRec>, clinicId: Option<string>, username: string): (r: Option<nat>)
    ensures r.Some? ==> r.value < |users| && users[r.value].clinicId == clinicId && users[r.value].username == username
    ensures r.None? <==> forall i :: 0 <= i < |users| ==>
                           !(users[i].clinicId == clinicId && users[i].username == username)
  {
    FirstIndex(users, (u: UserRec) => u.clinicId == clinicId && u.username == username)
  }

  /** `filter_by(clinic_id=..., email=...).first()`. */
  function FindEmail(users: seq<UserRec>, clinicId: Option<string>, email: string): (r: Option<nat>)
    ensures r.Some? ==> r.value < |users| && users[r.value].clinicId == clinicId && users[r.value].email == email
    ensures r.None? <==> forall i :: 0 <= i < |users| ==> !(users[i].clinicId == clinicId && users[i].email == email)
  {
    FirstIndex(users, (u: UserRec) => u.clinicId == clinicId && u.email == email)
  }

  /** `filter_by(username=..., role='super_admin').first()`. */
  function FindSuperAdminName(users: seq<UserRec>, username: string): (r: Option<nat>)
    ensures r.Some? ==> r.value < |users| && users[r.value].username == username && users[r.value].role == SUPER_ADMIN
    ensures r.None? <==> forall i :: 0 <= i < |users| ==>
                           !(users[i].username == username && users[i].role == SUPER_ADMIN)
  {
    FirstIndex(users, (u: UserRec) => u.username == username && u.role == SUPER_ADMIN)
  }

  /** `create_user` on a table: the username check comes first, then the
      email check, both within the clinic. */
  function CreateUserSpec(users: seq<UserRec>, clinicId: Option<string>, username: string, email: string,
                          password: string, role: string, permissions: Option<seq<string>>, id: string,
                          salt: nat, now: int): (r: Result<UserRec, string>)
    ensures FindUsername(users, clinicId, username).Some? ==> r == Err("Username already exists in this clinic")
    ensures FindUsername(users, clinicId, username).None? && FindEmail(users, clinicId, email).Some? ==>
              r == Err("Email already exists in this clinic")
    ensures r.Ok? <==> FindUsername(users, clinicId, username).None? && FindEmail(users, clinicId, email).None?
    ensures r.Ok? ==> r.value == NewUser(id, clinicId, username, email, password, role, permissions, salt, now)
  {
    if FindUsername(users, clinicId, username).Some? then Err("Username already exists in this clinic")
    else if FindEmail(users, clinicId, email).Some? then Err("Email already exists in this clinic")
    else Ok(NewUser(id, clinicId, username, email, password, role, permissions, salt, now))
  }

  /** `create_super_admin` on a table: super admin names are unique among
      super admins, and the new one belongs to no clinic. */
  function CreateSuperAdminSpec(users: seq<UserRec>, username: string, email: string, password: string,
                                permissions: Option<seq<string>>, id: string, salt: nat, now: int)
    : (r: Result<UserRec, string>)
    ensures r.Err? <==> FindSuperAdminName(users, username).Some?
    ensures r.Err? ==> r.error == "Super admin username already exists"
    ensures r.Ok? ==> r.value == NewUser(id, None, username, email, password, SUPER_ADMIN, permissions, salt, now)
  {
    if FindSuperAdminName(users, username).Some? then Err("Super admin username already exists")
    else Ok(NewUser(id, None, username, email, password, SUPER_ADMIN, permissions, salt, now))
  }

  /** Creating users keeps usernames unique within each clinic, and creating
      super admins keeps super admin names unique. */
  lemma CreationKeepsNamesUnique(users: seq<UserRec>, clinicId: Option<string>, username: string, email: string,
                                 password: string, role: string, permissions: Option<seq<string>>, id: string,
                                 salt: nat, now: int)
    ensures var r := CreateUserSpec(users, clinicId, username, email, password, role, permissions, id, salt, now);
            r.Ok? && UsernamesUniquePerClinic(users) ==> UsernamesUniquePerClinic(users + [r.value])
    ensures var r := CreateSuperAdminSpec(users, username, email, password, permissions, id, salt, now);
            r.Ok? && SuperAdminNamesUnique(users) ==> SuperAdminNamesUnique(users + [r.value])
  {
    var r := CreateUserSpec(users, clinicId, username, email, password, role, permissions, id, salt, now);
    if r.Ok? && UsernamesUniquePerClinic(users) {
      NewNameKeepsNamesUnique(users, r.value);
    }
    var a := CreateSuperAdminSpec(users, username, email, password, permissions, id, salt, now);
    if a.Ok? && SuperAdminNamesUnique(users) {
      NewSuperAdminKeepsNamesUnique(users, a.value);
    }
  }

  /** The `users` table: one object per row, rows in insertion order. */
  class Directory {
    var users: seq<User>

    ghost predicate Valid()
      reads this
    {
      forall i, j :: 0 <= i < j < |users| ==> users[i] != users[j]
    }

    function Recs(): seq<UserRec>
      reads this, users
    {
      RecsOf(users)
    }

    constructor ()
      ensures Valid() && users == []
    {
      users := [];
    }

    /** `create_user`. */
    method CreateUser(clinicId: Option<string>, username: string, email: string, password: string,
                      role: string, permissions: Option<seq<string>>, id: string, salt: nat, now: int)
      returns (r: Result<User, string>)
      requires Valid()
      modifies this`users
      ensures Valid()
      ensures r.Ok? <==> CreateUserSpec(old(Recs()), clinicId, username, email, password, role, permissions,
                                        id, salt, now).Ok?
      ensures r.Err? ==> users == old(users)
                         && r.error == CreateUserSpec(old(Recs()), clinicId, username, email, password, role,
                                                      permissions, id, salt, now).error
      ensures r.Ok? ==> && fresh(r.value) && users == old(users) + [r.value]
                        && r.value.Rec() == CreateUserSpec(old(Recs()), clinicId, username, email, password, role,
                                                           permissions, id, salt, now).value
    {
      if FindUsername(Recs(), clinicId, username).Some? {
        return Err("Username already exists in this clinic");
      }
      if FindEmail(Recs(), clinicId, email).Some? {
        return Err("Email already exists in this clinic");
      }
      var user := new User(id, clinicId, username, email, password, role, permissions, salt, now);
      users := users + [user];
      r := Ok(user);
    }

    /** `create_super_admin`. */
    method CreateSuperAdmin(username: string, email: string, password: string,
                            permissions: Option<seq<string>>, id: string, salt: nat, now: int)
      returns (r: Result<User, string>)
      requires Valid()
      modifies this`users
      ensures Valid()
      ensures r.Ok? <==> CreateSuperAdminSpec(old(Recs()), username, email, password, permissions, id, salt, now).Ok?
      ensures r.Err? ==> users == old(users) && r.error == "Super admin username already exists"
      ensures r.Ok? ==> && fresh(r.value) && users == old(users) + [r.value]
                        && r.value.Rec() == CreateSuperAdminSpec(old(Recs()), username, email, password,
                                                                 permissions, id, salt, now).value
    {
      if FindSuperAdminName(Recs(), username).Some? {
        return Err("Super admin username already exists");
      }
      var user := new User(id, None, username, email, password, SUPER_ADMIN, permissions, salt, now);
      users := users + [user];
      r := Ok(user);
    }
  }
}

=== FILE: whatsapp.dfy ===
/** WhatsApp conversations and messages (backend_flask_app/src/models/whatsapp.py):
    the tag list kept free of duplicates, unread counting, hand-off to an
    agent, read marking of single messages and of a whole conversation, and
    the store operations get-or-create-conversation and create-message. */
module WhatsApp {
  import opened Common

  const ACTIVE := "active"
  const RESOLVED := "resolved"
  const CUSTOMER := "customer"
  const SENT := "sent"
  const DELIVERED := "delivered"
  const FAILED := "failed"
  const TEXT := "text"

  // ---------------------------------------------------------------------------
  // The tag list

  predicate NoDuplicates(tags: seq<string>) {
    forall i, j :: 0 <= i < j < |tags| ==> tags[i] != tags[j]
  }

  /** `add_tag`: the tag is appended unless it is already there. */
  function WithTag(tags: seq<string>, tag: string): (r: seq<string>)
    ensures tag in r
    ensures forall t :: t in r <==> t in tags || t == tag
    ensures NoDuplicates(tags) ==> NoDuplicates(r)
    ensures tags <= r && |r| <= |tags| + 1
  {
    if tag in tags then tags else tags + [tag]
  }

  /** `remove_tag`: `list.remove` drops the first occurrence of the tag, if any. */
  function WithoutTag(tags: seq<string>, tag: string): (r: seq<string>)
    ensures tag !in tags ==> r == tags
    ensures multiset(r) == multiset(tags) - multiset{tag}
  {
    if tags == [] then []
    else
      assert tags == [tags[0]] + tags[1..];
      if tags[0] == tag then tags[1..] else [tags[0]] + WithoutTag(tags[1..], tag)
  }

  /** `list.remove` takes out the first occurrence and keeps the order of
      everything else. */
  lemma {:induction false} WithoutTagRemovesFirst(tags: seq<string>, tag: string, i: nat)
    requires i < |tags| && tags[i] == tag && tag !in tags[..i]
    ensures WithoutTag(tags, tag) == tags[..i] + tags[i + 1..]
    decreases |tags|
  {
    if tags[0] != tag {
      var tail := tags[1..];
      SplitAfterHead(tags, i);
      WithoutTagRemovesFirst(tail, tag, i - 1);
    }
  }

  /** Cutting out position `i > 0` is keeping the head and cutting out
      position `i - 1` of the tail. */
  lemma SplitAfterHead(tags: seq<string>, i: nat)
    requires 0 < i < |tags|
    ensures tags[..i] == [tags[0]] + tags[1..][..i - 1]
    ensures tags[..i] + tags[i + 1..] == [tags[0]] + (tags[1..][..i - 1] + tags[1..][i..])
  {
    assert tags[1..][i..] == tags[i + 1..];
  }

  /** On a list without duplicates, removing a tag leaves no copy of it and
      introduces no duplicate. */
  lemma {:induction false} RemoveTagKeepsNoDuplicates(tags: seq<string>, tag: string)
    requires NoDuplicates(tags)
    ensures tag !in WithoutTag(tags, tag)
    ensures NoDuplicates(WithoutTag(tags, tag))
    decreases |tags|
  {
    if tags != [] {
      var tail := tags[1..];
      assert NoDuplicates(tail) by {
        forall i, j | 0 <= i < j < |tail| ensures tail[i] != tail[j] {
          assert tail[i] == tags[i + 1] && tail[j] == tags[j + 1];
        }
      }
      assert tags[0] !in tail by {
        forall j | 0 <= j < |tail| ensures tail[j] != tags[0] {
          assert tail[j] == tags[j + 1];
        }
      }
      if tags[0] != tag {
        RemoveTagKeepsNoDuplicates(tail, tag);
        var rest := WithoutTag(tail, tag);
        assert multiset(tail)[tags[0]] == 0;
        assert multiset(rest)[tags[0]] == 0;
        var r := [tags[0]] + rest;
        forall i, j | 0 <= i < j < |r| ensures r[i] != r[j] {
          if i == 0 {
            assert r[j] == rest[j - 1];
            assert r[j] in multiset(rest);
          } else {
            assert r[i] == rest[i - 1] && r[j] == rest[j - 1];
          }
        }
      }
    }
  }

  /** Adding a tag twice is adding it once. */
  lemma AddTagIdempotent(tags: seq<string>, tag: string)
    ensures WithTag(WithTag(tags, tag), tag) == WithTag(tags, tag)
  {
  }

  /** Adding a tag that was not there and removing it again gives back the
      original list, in its original order. */
  lemma {:induction false} AddThenRemoveRestores(tags: seq<string>, tag: string)
    requires tag !in tags
    ensures WithoutTag(WithTag(tags, tag), tag) == tags
    decreases |tags|
  {
    if tags == [] {
      assert WithTag(tags, tag) == [tag];
    } else {
      var added := tags + [tag];
      assert WithTag(tags, tag) == added;
      assert added[0] == tags[0] && tags[0] != tag;
      assert added[1..] == tags[1..] + [tag];
      assert tag !in tags[1..];
      AddThenRemoveRestores(tags[1..], tag);
      assert WithoutTag(added, tag) == [tags[0]] + WithoutTag(added[1..], tag);
      assert tags == [tags[0]] + tags[1..];
    }
  }

  // ---------------------------------------------------------------------------
  // Conversations

  datatype ConversationRec = ConversationRec(
    id: string,
    clinicId: string,
    phoneNumber: string,
    contactName: Option<string>,
    status: string,
    assignedAgentId: Option<string>,
    lastMessageAt: Option<int>,
    lastMessageFrom: Option<string>,
    unreadCount: nat,
    isAiHandled: bool,
    handoffRequestedAt: Option<int>,
    handoffReason: Option<string>,
    tags: seq<string>,
    updatedAt: Option<int>)

  /** What a new message does to its conversation: it becomes the last
      message, and a message from the customer is one more unread. */
  function AfterMessage(c: ConversationRec, senderType: string, sentAt: int): (r: ConversationRec)
    ensures r.unreadCount == c.unreadCount + (if senderType == CUSTOMER then 1 else 0)
    ensures r.lastMessageAt == Some(sentAt) && r.lastMessageFrom == Some(senderType)
    ensures r.(lastMessageAt := c.lastMessageAt, lastMessageFrom := c.lastMessageFrom,
               unreadCount := c.unreadCount, updatedAt := c.updatedAt) == c
  {
    c.(lastMessageAt := Some(sentAt), lastMessageFrom := Some(senderType),
       unreadCount := if senderType == CUSTOMER then c.unreadCount + 1 else c.unreadCount,
       updatedAt := Some(sentAt))
  }

  /** A `whatsapp_conversations` row loaded as an object. */
  class Conversation {
    const id: string
    const clinicId: string
    const phoneNumber: string
    const contactName: Option<string>
    var status: string
    var assignedAgentId: Option<string>
    var lastMessageAt: Option<int>
    var lastMessageFrom: Option<string>
    var unreadCount: nat
    var isAiHandled: bool
    var handoffRequestedAt: Option<int>
    var handoffReason: Option<string>
    var tags: seq<string>
    var updatedAt: Option<int>

    function Rec(): ConversationRec
      reads this
    {
      ConversationRec(id, clinicId, phoneNumber, contactName, status, assignedAgentId, lastMessageAt,
                      lastMessageFrom, unreadCount, isAiHandled, handoffRequestedAt, handoffReason, tags, updatedAt)
    }

    /** A new conversation with the column defaults: active, handled by the
        AI, nothing unread, no tags. */
    constructor (id: string, clinicId: string, phoneNumber: string, contactName: Option<string>, now: int)
      ensures Rec() == ConversationRec(id, clinicId, phoneNumber, contactName, ACTIVE, None, None, None, 0,
                                       true, None, None, [], Some(now))
    {
      this.id := id;
      this.clinicId := clinicId;
      this.phoneNumber := phoneNumber;
      this.contactName := contactName;
      status := ACTIVE;
      assignedAgentId := None;
      lastMessageAt := None;
      lastMessageFrom := None;
      unreadCount := 0;
      isAiHandled := true;
      handoffRequestedAt := None;
      handoffReason := None;
      tags := [];
      updatedAt := Some(now);
    }

    /** `assign_to_agent`: hands the conversation from the AI to an agent. */
    method AssignToAgent(agentId: string, reason: Option<string>, now: int)
      modifies this
      ensures Rec() == old(Rec()).(assignedAgentId := Some(agentId), isAiHandled := false,
                                   handoffRequestedAt := Some(now), handoffReason := reason,
                                   updatedAt := Some(now))
    {
      assignedAgentId := Some(agentId);
      isAiHandled := false;
      handoffRequestedAt := Some(now);
      handoffReason := reason;
      updatedAt := Some(now);
    }

    method MarkAsResolved(now: int)
      modifies this
      ensures Rec() == old(Rec()).(status := RESOLVED, updatedAt := Some(now))
    {
      status := RESOLVED;
      updatedAt := Some(now);
    }

    /** `add_tag`: the row changes only when the tag is new. */
    method AddTag(tag: string, now: int)
      modifies this
      ensures tag in old(tags) ==> Rec() == old(Rec())
      ensures tag !in old(tags) ==> Rec() == old(Rec()).(tags := WithTag(old(tags), tag), updatedAt := Some(now))
    {
      if tag !in tags {
        tags := tags + [tag];
        updatedAt := Some(now);
      }
    }

    /** `remove_tag`: the row changes only when the tag is present. */
    method RemoveTag(tag: string, now: int)
      modifies this
      ensures tag !in old(tags) ==> Rec() == old(Rec())
      ensures tag in old(tags) ==> Rec() == old(Rec()).(tags := WithoutTag(old(tags), tag), updatedAt := Some(now))
    {
      if tags != [] && tag in tags {
        tags := WithoutTag(tags, tag);
        updatedAt := Some(now);
      }
    }

    /** The part of `create_message` that updates the conversation. */
    method RecordMessage(senderType: string, now: int)
      modifies this
      ensures Rec() == AfterMessage(old(Rec()), senderType, now)
    {
      lastMessageAt := Some(now);
      lastMessageFrom := Some(senderType);
      if senderType == CUSTOMER {
        IncrementUnread(now);
      } else {
        updatedAt := Some(now);
      }
    }

    method IncrementUnread(now: int)
      modifies this
      ensures Rec() == old(Rec()).(unreadCount := old(unreadCount) + 1, updatedAt := Some(now))
    {
      unreadCount := unreadCount + 1;
      updatedAt := Some(now);
    }
  }

  // ---------------------------------------------------------------------------
  // Messages

  datatype MessageRec = MessageRec(
    id: string,
    conversationId: string,
    senderType: string,
    content: Option<string>,
    messageType: string,
    status: string,
    isRead: bool,
    readAt: Option<int>,
    deliveredAt: Option<int>,
    failedReason: Option<string>,
    sentAt: int)

  /** Message `mark_as_read`: the first read is the one recorded. */
  function ReadAt(m: MessageRec, now: int): (r: MessageRec)
    ensures r.isRead
    ensures m.isRead ==> r == m
    ensures !m.isRead ==> r.readAt == Some(now)
    ensures !m.isRead ==> r == m.(isRead := true, readAt := Some(now))
  {
    if m.isRead then m else m.(isRead := true, readAt := Some(now))
  }

  /** Marking a message read again changes nothing: the read time stays the
      time of the first read. */
  lemma MarkAsReadIdempotent(m: MessageRec, t1: int, t2: int)
    ensures ReadAt(ReadAt(m, t1), t2) == ReadAt(m, t1)
    ensures ReadAt(ReadAt(m, t1), t2).readAt == (if m.isRead then m.readAt else Some(t1))
  {
  }

  /** A `whatsapp_messages` row loaded as an object. */
  class Message {
    const id: string
    const conversationId: string
    const senderType: string
    const content: Option<string>
    const messageType: string
    const sentAt: int
    var status: string
    var isRead: bool
    var readAt: Option<int>
    var deliveredAt: Option<int>
    var failedReason: Option<string>

    function Rec(): MessageRec
      reads this
    {
      MessageRec(id, conversationId, senderType, content, messageType, status, isRead, readAt, deliveredAt,
                 failedReason, sentAt)
    }

    constructor (id: string, conversationId: string, senderType: string, content: Option<string>, now: int)
      ensures Rec() == MessageRec(id, conversationId, senderType, content, TEXT, SENT, false, None, None, None, now)
    {
      this.id := id;
      this.conversationId := conversationId;
      this.senderType := senderType;
      this.content := content;
      messageType := TEXT;
      sentAt := now;
      status := SENT;
      isRead := false;
      readAt := None;
      deliveredAt := None;
      failedReason := None;
    }

    method MarkAsRead(now: int)
      modifies this
      ensures Rec() == ReadAt(old(Rec()), now)
    {
      if !isRead {
        isRead := true;
        readAt := Some(now);
      }
    }

    method MarkAsDelivered(now: int)
      modifies this
      ensures Rec() == old(Rec()).(status := DELIVERED, deliveredAt := Some(now))
    {
      status := DELIVERED;
      deliveredAt := Some(now);
    }

    method MarkAsFailed(reason: Option<string>)
      modifies this
      ensures Rec() == old(Rec()).(status := FAILED, failedReason := reason)
    {
      status := FAILED;
      failedReason := reason;
    }
  }

  // ---------------------------------------------------------------------------
  // The store

  /** `filter_by(clinic_id, phone_number).first()`. */
  function FindConversation(conversations: seq<Conversation>, clinicId: string, phoneNumber: string)
    : (r: Option<nat>)
    ensures r.Some? ==> r.value < |conversations| && conversations[r.value].clinicId == clinicId
                        && conversations[r.value].phoneNumber == phoneNumber
    ensures r.None? ==> forall j :: 0 <= j < |conversations| ==>
                          !(conversations[j].clinicId == clinicId && conversations[j].phoneNumber == phoneNumber)
  {
    FirstIndex(conversations, (c: Conversation) => c.clinicId == clinicId && c.phoneNumber == phoneNumber)
  }

  /** `query.get(conversation_id)`. */
  function FindConversationById(conversations: seq<Conversation>, id: string): (r: Option<nat>)
    ensures r.Some? ==> r.value < |conversations| && conversations[r.value].id == id
    ensures r.None? ==> forall j :: 0 <= j < |conversations| ==> conversations[j].id != id
  {
    FirstIndex(conversations, (c: Conversation) => c.id == id)
  }

  /** The two WhatsApp tables, rows in insertion order. */
  class Inbox {
    var conversations: seq<Conversation>
    var messages: seq<Message>

    ghost predicate Valid()
      reads this
    {
      && (forall i, j :: 0 <= i < j < |conversations| ==> conversations[i] != conversations[j])
      && (forall i, j :: 0 <= i < j < |messages| ==> messages[i] != messages[j])
    }

    constructor ()
      ensures Valid() && conversations == [] && messages == []
    {
      conversations := [];
      messages := [];
    }

    /** `get_or_create_conversation`: the first conversation with this clinic
        and phone number, or a new one when there is none. Either way the
        lookup finds the returned conversation afterwards, so a second call
        returns it again. */
    method GetOrCreateConversation(clinicId: string, phoneNumber: string, contactName: Option<string>,
                                   id: string, now: int)
      returns (c: Conversation)
      requires Valid()
      modifies this`conversations
      ensures Valid()
      ensures var k := FindConversation(old(conversations), clinicId, phoneNumber);
              && (k.Some? ==> c == old(conversations)[k.value] && conversations == old(conversations))
              && (k.None? ==> fresh(c) && conversations == old(conversations) + [c]
                              && c.Rec() == ConversationRec(id, clinicId, phoneNumber, contactName, ACTIVE, None,
                                                            None, None, 0, true, None, None, [], Some(now)))
      ensures FindConversation(conversations, clinicId, phoneNumber).Some?
      ensures c == conversations[FindConversation(conversations, clinicId, phoneNumber).value]
    {
      var k := FindConversation(conversations, clinicId, phoneNumber);
      if k.Some? {
        return conversations[k.value];
      }
      c := new Conversation(id, clinicId, phoneNumber, contactName, now);
      conversations := conversations + [c];
      assert conversations[|conversations| - 1] == c;
    }

    /** Two get-or-create calls for one clinic and phone number give the same
        conversation, and at most one is created. */
    method GetOrCreateTwice(clinicId: string, phoneNumber: string, id1: string, id2: string, now: int)
      returns (c1: Conversation, c2: Conversation)
      requires Valid()
      modifies this`conversations
      ensures c1 == c2
      ensures |old(conversations)| <= |conversations| <= |old(conversations)| + 1
    {
      c1 := GetOrCreateConversation(clinicId, phoneNumber, None, id1, now);
      c2 := GetOrCreateConversation(clinicId, phoneNumber, None, id2, now);
    }

    /** Conversation `mark_as_read`: nothing unread any more, and every
        unread message of this conversation is read now; the messages of
        other conversations are untouched. */
    method MarkConversationRead(conversation: Conversation, now: int)
      requires Valid()
      modifies conversation, messages
      ensures conversation.Rec() == old(conversation.Rec()).(unreadCount := 0, updatedAt := Some(now))
      ensures forall i :: 0 <= i < |messages| ==>
                messages[i].Rec() == (if messages[i].conversationId == conversation.id
                                      then ReadAt(old(messages[i].Rec()), now)
                                      else old(messages[i].Rec()))
    {
      conversation.unreadCount := 0;
      conversation.updatedAt := Some(now);
      var i := 0;
      while i < |messages|
        invariant 0 <= i <= |messages|
        invariant conversation.Rec() == old(conversation.Rec()).(unreadCount := 0, updatedAt := Some(now))
        invariant forall j :: 0 <= j < i ==>
                    messages[j].Rec() == (if messages[j].conversationId == conversation.id
                                          then ReadAt(old(messages[j].Rec()), now)
                                          else old(messages[j].Rec()))
        invariant forall j :: i <= j < |messages| ==> messages[j].Rec() == old(messages[j].Rec())
      {
        var m := messages[i];
        if m.conversationId == conversation.id && !m.isRead {
          m.isRead := true;
          m.readAt := Some(now);
        }
        i := i + 1;
      }
    }

    /** `create_message`: stores a message sent now and, when its
        conversation exists, records it as the last message and counts it as
        unread when the customer sent it. No other conversation changes. */
    method CreateMessage(conversationId: string, senderType: string, content: Option<string>, id: string, now: int)
      returns (m: Message)
      requires Valid()
      modifies this`messages, conversations
      ensures Valid()
      ensures fresh(m) && messages == old(messages) + [m]
      ensures m.Rec() == MessageRec(id, conversationId, senderType, content, TEXT, SENT, false, None, None, None, now)
      ensures var k := FindConversationById(conversations, conversationId);
              forall j :: 0 <= j < |conversations| ==>
                conversations[j].Rec() == (if k == Some(j) then AfterMessage(old(conversations[j].Rec()), senderType, now)
                                           else old(conversations[j].Rec()))
    {
      m := new Message(id, conversationId, senderType, content, now);
      messages := messages + [m];
      var k := FindConversationById(conversations, conversationId);
      if k.Some? {
        conversations[k.value].RecordMessage(senderType, now);
      }
    }
  }
}
